=== FILE: README.md ===
# Reflect: a verified model of the journal core

Reflect is a private journal for therapists. Session notes are encrypted on
the device and kept in a local SQLite database behind a PIN or biometric
lock. An AI "supervisor" can be asked to reflect on an entry. This project
models the parts of the app that decide what is stored, what is shown and
who gets in:

- the encryption service: key acquisition with a keychain and an
  encrypted-storage fallback, the `hex(iv):ciphertext` wire format, objects,
  hashes, URL-safe random tokens and key rotation;
- the database service, with its three tables as maps;
- the authentication gatekeeper (`login` with its lockout state machine,
  `logout`, `lockApp`, start-up lock restore);
- the journal context, which seals and opens the sensitive fields on the
  way to and from the database;
- the settings context and the LLM service's prompt assembly and mock
  replies;
- the new-entry, journal and lock screens and the root navigator;
- the stand-alone web demo in `easy-deploy/app.js`.

Everything the app gets from the outside is a parameter:

- **Cipher.** The AES cipher is a pair of functions. The round-trip law
  `Encryption.Sound` is the premise of every round-trip theorem.
- **Keys and IVs.** Freshly drawn keys and IVs are passed in (`Draws`,
  `Iv`, `ivAt`).
- **Stores.** The keychain and encrypted storage are `Backend` values that
  say what they hold and whether a read or write succeeds.
- **Other inputs.** The clock is a `Millis` argument, and the biometric
  prompt is a `BioOutcome`.
- **JSON.** JSON encoding of tags is a function `tagsJson`. `Codec`
  stands for `JSON.stringify`/`JSON.parse`.
- **Failures.** Thrown errors become `Result`/`Option` values, or a notice
  field on the result.

Hex encoding, `split(':')`, `trim()`, ASCII `toLowerCase()`, SQL `LIKE`
and the sort by session date are defined concretely.

Modules follow the source files:

| module | source |
|---|---|
| `Types` | `src/types/index.ts` |
| `Encryption` | `src/services/EncryptionService.ts` |
| `Database` | `src/services/DatabaseService.ts` |
| `SqlLike` | the `LIKE` operator |
| `Auth` | `src/contexts/AuthContext.tsx` |
| `Journal` | `src/contexts/JournalContext.tsx` |
| `Settings` | `src/contexts/SettingsContext.tsx` |
| `Llm` | `src/services/LLMService.ts` |
| `NewEntry` | `src/screens/NewEntryScreen.tsx` |
| `JournalScreen` | `src/screens/JournalScreen.tsx` |
| `AuthScreen` | `src/screens/AuthScreen.tsx` |
| `Navigation` | `src/navigation/RootNavigator.tsx` |
| `WebDemo` | `easy-deploy/app.js` |
| `Wrappers`, `Text`, `Seqs` | shared helpers |

## Where the code departs from its own declarations

The model follows what the code does in each case.

- **Deleting an entry.** The schema declares `ON DELETE CASCADE` on a
  conversation's entry (src/services/DatabaseService.ts:71).
  - Foreign keys are never switched on, so the cascade never fires, and
    `entry_id` carries no `UNIQUE` constraint.
  - The model therefore gives the engine no cascade. `Journal.DeleteEntry`
    calls `deleteConversation` explicitly, as the context does.
  - Uniqueness of the link is a proved invariant (`Database.UniqueLinks`)
    rather than an engine guarantee.
- **Search.** Despite its name and its free-text `query` argument,
  `searchEntries` runs `tags LIKE '%query%'` on the JSON text of the tags
  only (src/services/DatabaseService.ts:205-213).
  - `LIKE` ignores ASCII case and treats `%` and `_` as wildcards. It equals
    case-insensitive substring search only for a query without wildcards
    (`SqlLike.ContainsPatternIsSubstring`, `SqlLike.UnderscoreMatchesAnyChar`).
- **Cipher mode.** The service's comment speaks of AES-256-GCM
  (src/services/EncryptionService.ts:101), but the code calls CBC with
  PKCS7 padding.
  - Nothing in the model claims that decryption under a wrong key is
    detected.
  - `Open` may return any plaintext for a foreign key.
- **Exceptions in `login`.** The `catch` of `login` reports a failed
  authentication and returns `false` (src/contexts/AuthContext.tsx:185-189),
  which reads as "nothing changed".
  - When writing a new `user_data` record fails, the flags and the user
    have already been set.
  - `Auth.Login` models this as written: `LoginError` with an
    authenticated state.

Other behaviour of the code that the model keeps as written:

- **Setting a PIN.** The lock screen's PIN-creation mode is never switched
  on, and when it runs it calls `login`, not `setupPin`.
- **Expired locks.** A lock screen that shows "locked" offers no way to
  log in until the app restarts, because only a successful `login` clears
  the flag.
- **Failure counter.** The failure counter survives an expired lock, so
  the next wrong PIN locks again at once.
- **First launch.** The root navigator's first-launch check reads the user
  once, on mount.
- **Web demo mood.** The web demo's selected mood is not reset after a
  save and carries over to the next entry.
- **Web demo greeting.** The web demo greets any message containing "hi",
  even inside a word such as "think".
- **Web demo replies.** The web demo shows a reply one second after its
  message. Messages sent faster than that show their user lines before
  any of the replies.

## Model

| member | source | states |
|---|---|---|
| Types.ParseEmotion | src/types/index.ts:43-55 | an emotion name parses to the variant it names, and a string that is no variant's name parses to nothing |
| Types.EmotionNamesRoundTrip | src/types/index.ts:43-55 | there are exactly twelve emotions, all named differently, and every name parses back to its emotion |
| Types.ParseRole | src/types/index.ts:68-74 | a message role is exactly one of user, assistant or system; any other string is rejected |
| Text.Trim | src/screens/NewEntryScreen.tsx:49-57 | `trim()` removes a whitespace prefix and suffix: the result is a slice of the input, has no whitespace at either end, and is empty exactly when the input is all whitespace |
| Text.TrimIdempotent | src/screens/NewEntryScreen.tsx:49-57 | trimming twice is trimming once |
| Text.Lower | src/screens/JournalScreen.tsx:41-47 | lower-casing keeps the length and maps each ASCII capital to its small letter and every other character to itself |
| Text.Split | src/services/EncryptionService.ts:145 | `split(':')` yields one more part than there are separators, and no part contains one |
| Text.JoinSplit | src/services/EncryptionService.ts:145 | joining the parts of a split with the separator rebuilds the string |
| Text.SplitJoin | src/services/EncryptionService.ts:123 | splitting a join of separator-free parts recovers the parts, so `iv:ciphertext` splits back into its two halves |
| Seqs.Filter | src/screens/JournalScreen.tsx:41-47 | `Array.filter` keeps exactly the elements satisfying the predicate, each as often as in the input, as a subsequence |
| Seqs.FilterKeepsAll | src/screens/JournalScreen.tsx:48-50 | a filter that keeps everything returns the input |
| Seqs.FilterDistinct | src/screens/NewEntryScreen.tsx:106-108 | filtering a duplicate-free list leaves it duplicate-free |
| Encryption.Hex | src/services/EncryptionService.ts:123 | hex text has two digits per byte and never contains ':' |
| Encryption.UnHexHex | src/services/EncryptionService.ts:123 | hex text parses back to the bytes it was made from |
| Encryption.HexInjective | src/services/EncryptionService.ts:113-123 | different IVs give different hex prefixes |
| Encryption.Wire | src/services/EncryptionService.ts:123 | the wire text is the 32 hex digits of the IV, a ':' and the ciphertext |
| Encryption.SplitWire | src/services/EncryptionService.ts:123-148 | the wire text splits on ':' into exactly the IV's hex and the ciphertext |
| Encryption.Open | src/services/EncryptionService.ts:145-158 | only a text with exactly two ':'-separated parts can open |
| Encryption.SealOpen | src/services/EncryptionService.ts:103-165 | under a sound cipher, sealed text opens to its plaintext under the same key and splits into two parts |
| Encryption.GenerateAndStore | src/services/EncryptionService.ts:61-78 | a new key goes to the keychain, or to encrypted storage only if the keychain write fails; the call fails only when both writes fail, and then nothing changes |
| Encryption.InitializeWithStorage | src/services/EncryptionService.ts:41-56 | a non-empty stored fallback key is reused, otherwise a new key is stored; the call fails exactly when storage cannot be read or the new key cannot be written |
| Encryption.Initialize | src/services/EncryptionService.ts:20-56 | an existing keychain credential is reused untouched; otherwise a key is generated, falling back to storage; "unable to initialize" exactly when both paths fail, with no change; a new key is always one of the draws |
| Encryption.EnsureKey | src/services/EncryptionService.ts:104-109 | a key in memory is used as is; otherwise initialization runs, and the call succeeds exactly when a non-empty key is then in memory |
| Encryption.Encrypt | src/services/EncryptionService.ts:103-130 | output is `hex(iv) + ':' + ciphertext` under the current key; failure exactly when no key is available, with a key error |
| Encryption.Decrypt | src/services/EncryptionService.ts:135-165 | a text that does not split into two parts is rejected; with a key, success is exactly "the text opens", and every failure past the key check is the single decrypt error |
| Encryption.NoKeySameError | src/services/EncryptionService.ts:104-109 | with no key after lazy initialization, encrypt and decrypt fail together and with the same error |
| Encryption.EncryptDecrypt | src/services/EncryptionService.ts:103-165 | whatever encrypt returns, decrypt on the service it leaves returns the plaintext and changes nothing |
| Encryption.EncryptDecryptKeyed | src/services/EncryptionService.ts:103-165 | with a key in memory every string round-trips |
| Encryption.DecryptObject | src/services/EncryptionService.ts:176-181 | an object is produced only from a text that decrypts |
| Encryption.ObjectRoundTrip | src/services/EncryptionService.ts:170-181 | objects round-trip through `encryptObject`/`decryptObject` when their JSON encoding is lossless |
| Encryption.VerifyOwnHash | src/services/EncryptionService.ts:193-195 | a value verifies against its own hash and against no other |
| Encryption.UrlSafe | src/services/EncryptionService.ts:214-220 | the token contains no '+', '/' or '=' |
| Encryption.RestoreUrlSafe | src/services/EncryptionService.ts:214-220 | the URL-safe rewrite loses nothing: padded Base64 is recovered from the token |
| Encryption.GetStoredKey | src/services/EncryptionService.ts:259-274 | the keychain credential when the keychain reads, else a non-empty stored key; an error only when neither holds a key |
| Encryption.ClearKeys | src/services/EncryptionService.ts:279-287 | the keychain and the stored key are removed as far as the writes succeed; the in-memory key is dropped only after both removals |
| Encryption.ClearThenRestart | src/services/EncryptionService.ts:279-287 | after both removals succeed, no key is in memory, `getStoredKey` finds none, and the next `initialize` keeps one of its fresh draws |
| Encryption.Reencrypt | src/services/EncryptionService.ts:236-248 | the rotation loop keeps the length, leaves the vault alone and ends holding the key read back from the vault |
| Encryption.RotateKey | src/services/EncryptionService.ts:225-254 | on failure the old key is back in memory, yet the new key stays persisted; on success the output has the input's length |
| Encryption.ReencryptOpens | src/services/EncryptionService.ts:236-248 | each re-encrypted item opens under the final key to what its input opened to under the old key |
| Encryption.RotateKeySuccess | src/services/EncryptionService.ts:225-254 | a successful rotation keeps length and order, persists the key in memory, and item i decrypts under the new service to the plaintext of input i |
| Encryption.RotateKeyFailureDiverges | src/services/EncryptionService.ts:231-253 | a rotation failing on an undecryptable item restores the old key in memory while a restart would load the new one |
| Encryption.RotateKeyFailureExample | src/services/EncryptionService.ts:231-253 | concretely: an item without ':' leaves "old" in memory and "new" in the keychain |
| Encryption.ReencryptUnder | src/services/EncryptionService.ts:236-248 | all-in-memory re-encryption fails only if some item does not open under the old key, and otherwise keeps the length |
| Encryption.RotateKeyAtomic | src/services/EncryptionService.ts:225-254 | the corrected rotation changes nothing on failure, and succeeds whenever every item opens and a write is possible |
| Encryption.ReencryptUnderOpens | src/services/EncryptionService.ts:236-248 | each output of the corrected loop opens under the new key to its input's plaintext |
| Encryption.RotateKeyAtomicCorrect | src/services/EncryptionService.ts:225-254 | after a corrected rotation the key is persisted and every item opens under it to its old plaintext |
| Database.ParseEntry | src/services/DatabaseService.ts:332-344 | a row parses to the entry with the row's id |
| Database.ParseRowRoundTrip | src/services/DatabaseService.ts:119-140 | storing an entry and parsing the row gives the entry back, and parsing then storing gives the row back |
| Database.StoredLink | src/services/DatabaseService.ts:136 | an empty or missing conversation link is stored as null, and any other link verbatim |
| Database.CreateEntry | src/services/DatabaseService.ts:119-140 | insertion succeeds exactly for a new id, stores the entry with its link normalised, and touches no other row or table |
| Database.GetEntry | src/services/DatabaseService.ts:186-195 | null exactly for a missing id; otherwise the entry whose row is stored under it |
| Database.CreateThenGet | src/services/DatabaseService.ts:119-195 | an entry created under a fresh id reads back as stored |
| Database.ApplyPatch | src/services/DatabaseService.ts:142-179 | an update always stamps `updated_at`, never changes `created_at`, and writes every supplied field, the conversation link included |
| Database.PatchChangesOnlySupplied | src/services/DatabaseService.ts:142-179 | each supplied field is written and each omitted one kept; `id` never changes; an empty update only stamps the time |
| Database.PatchComposes | src/services/DatabaseService.ts:142-179 | two updates in a row equal one merged update, and repeating an update changes nothing more |
| Database.UpdateEntry | src/services/DatabaseService.ts:142-179 | only the row with that id changes, and no row appears or disappears |
| Database.DeleteEntry | src/services/DatabaseService.ts:181-184 | exactly the row with that id goes; the others and the other tables are unchanged |
| Database.InsertByDate | src/services/DatabaseService.ts:198 | inserting into a list sorted by session date descending keeps it sorted, one longer, with the same multiset of entries plus the new one |
| Database.InsertByDateDistinct | src/services/DatabaseService.ts:198 | the insertion keeps ids distinct |
| Database.GetAllEntries | src/services/DatabaseService.ts:197-202 | every stored entry exactly once, by session date descending |
| Database.SearchEntries | src/services/DatabaseService.ts:204-215 | exactly the entries whose tags JSON matches `LIKE '%query%'`, by date descending; without wildcards, exactly those whose tags text contains the query ignoring case |
| Database.GetEntriesByClient | src/services/DatabaseService.ts:217-226 | exactly the entries whose stored client identifier equals the argument, by date descending |
| Database.GetEntriesByDateRange | src/services/DatabaseService.ts:228-241 | exactly the entries with start ≤ session date ≤ end, both bounds inclusive, by date descending |
| Database.ParseConversation | src/services/DatabaseService.ts:283-301 | a conversation row parses to a conversation with its id and entry id, and stores back to the row |
| Database.SaveConversation | src/services/DatabaseService.ts:245-281 | an upsert keyed by entry: update messages, time, summary and insights of the row with the conversation's id, keeping `entry_id` and `created_at`, or insert a row; a clashing id is rejected |
| Database.SaveConversationKeepsLinksUnique | src/services/DatabaseService.ts:245-281 | saving keeps "at most one conversation per entry" |
| Database.GetConversation | src/services/DatabaseService.ts:283-301 | null exactly when no conversation references the entry; otherwise a parsed row for that entry |
| Database.SaveThenGetConversation | src/services/DatabaseService.ts:245-301 | a newly saved conversation is the one read back for its entry |
| Database.DeleteConversation | src/services/DatabaseService.ts:303-306 | removes every conversation of the entry and only those, keeping links unique |
| Database.GetSetting | src/services/DatabaseService.ts:310-319 | null exactly for an absent key, else the stored value |
| Database.SetSetting | src/services/DatabaseService.ts:321-328 | adds or replaces one key and touches no other table |
| Database.SetThenGetSetting | src/services/DatabaseService.ts:310-328 | after setting a key it reads back the value, and every other key reads as before |
| Database.ClearAllData | src/services/DatabaseService.ts:359-367 | no entry, conversation or setting is left |
| Database.ExportDatabase | src/services/DatabaseService.ts:372-393 | the export has the schema version and time, every entry once by date descending, and only conversations of exported entries, including every linked one |
| SqlLike.ContainsPatternIsSubstring | src/services/DatabaseService.ts:207-213 | for a query without `%` or `_`, `LIKE '%q%'` is exactly case-insensitive substring search |
| SqlLike.UnderscoreMatchesAnyChar | src/services/DatabaseService.ts:207-213 | with `_` in the query the search is not substring search: "a_c" finds "abc" |
| SqlLike.LikeAll | src/services/DatabaseService.ts:207-213 | the empty query's pattern `%%` matches every tags text |
| Auth.Login | src/contexts/AuthContext.tsx:98-190 | a lock in force refuses without prompt or check; biometrics only when enabled and available; the PIN only as fallback; success resets to authenticated, unlocked, zero failures; whenever neither the scan nor the PIN passes and no exception intervenes, the failure is counted: the counter goes up by one, the third failure locks for five minutes, and otherwise the alert reports 3 − failures remaining; a lock write that throws changes nothing; past the lock and a readable store, the prompt runs exactly when biometrics are enabled and available, a prompt that throws is the caught error, and otherwise login succeeds exactly when the scan passes or the typed PIN matches, given a current user or a store that accepts the new one |
| Auth.UnlockApp | src/contexts/AuthContext.tsx:235-237 | unlocking never checks a PIN; past the lock and a readable store it succeeds exactly when biometrics are enabled and available and the scan passes, given a current user or a store that accepts the new one |
| Auth.Logout | src/contexts/AuthContext.tsx:192-203 | resets to not authenticated, not locked, zero failures, and keeps the user |
| Auth.LockApp | src/contexts/AuthContext.tsx:239-244 | clears only the authenticated flag |
| Auth.InitializeAuth | src/contexts/AuthContext.tsx:47-72 | locked exactly when the stored deadline is in the future; a stale deadline is deleted; start-up is never authenticated |
| Auth.SetupPin | src/contexts/AuthContext.tsx:205-213 | the PIN is stored and the auth state is untouched |
| Auth.EnableBiometrics | src/contexts/AuthContext.tsx:215-233 | the stored flag reads "true" exactly when enabling, and the user's settings follow |
| Auth.TransitionsKeepInv | src/contexts/AuthContext.tsx:47-244 | start-up establishes, and every transition keeps, "never authenticated and locked at once, three failures only while locked" |
| Auth.AttemptsRemainingRange | src/contexts/AuthContext.tsx:175-180 | the attempts-remaining alert only ever says 1 or 2 |
| Auth.RelockAfterExpiry | src/contexts/AuthContext.tsx:100-110 | after a lock expires, the first wrong PIN locks again at once because the counter was not reset |
| Auth.ThreeStrikes | src/contexts/AuthContext.tsx:161-181 | from a fresh start, three wrong PINs report 2 then 1 remaining, then lock for five minutes, and a login just before the deadline is refused |
| Journal.Sealed | src/contexts/JournalContext.tsx:82-95 | only the client identifier and notes change, the identifier beginning with the IV's hex |
| Journal.Opened | src/contexts/JournalContext.tsx:47-61 | opening succeeds exactly when both sensitive fields open, and changes only those fields |
| Journal.OpenSealed | src/contexts/JournalContext.tsx:82-105 | under a sound cipher, a sealed entry opens to itself |
| Journal.RevealEntry | src/contexts/JournalContext.tsx:167-185 | a revealed entry is the stored one opened under the current key; failure exactly when it does not open |
| Journal.RevealOrKeep | src/contexts/JournalContext.tsx:47-61 | each entry opens or is kept as stored, one for one, in order |
| Journal.SortByDateDesc | src/contexts/JournalContext.tsx:63-65 | the loaded list is sorted by session date descending |
| Journal.SortPermutes | src/contexts/JournalContext.tsx:63-65 | the sort is a permutation |
| Journal.SortSortedIsIdentity | src/contexts/JournalContext.tsx:63-65 | an already sorted list is left as it is |
| Journal.LoadEntries | src/contexts/JournalContext.tsx:41-74 | one entry per stored row, sorted by date descending; each is opened if it opens and kept undecrypted otherwise |
| Journal.NewEntry | src/contexts/JournalContext.tsx:96-105 | the new entry carries the draft, the id and `createdAt = updatedAt = now` |
| Journal.CreateEntry | src/contexts/JournalContext.tsx:76-111 | success exactly with a key and a fresh id; the id is returned and the plaintext entry prepended; the row holds ciphertext that opens to the draft; nothing else changes; failure changes no list or table |
| Journal.GetEntry | src/contexts/JournalContext.tsx:167-185 | null for a missing id or a failed decryption, else the opened stored entry |
| Journal.CreateThenGet | src/contexts/JournalContext.tsx:76-185 | a created entry reads back as the new entry |
| Journal.Patched | src/contexts/JournalContext.tsx:129-136 | a merged entry keeps id and creation time and takes the new update time |
| Journal.PatchWhere | src/contexts/JournalContext.tsx:129-136 | only the in-memory entry with that id is updated, in place |
| Journal.UpdateEntry | src/contexts/JournalContext.tsx:113-146 | only supplied sensitive fields are encrypted; the row with that id alone changes and opens to the plaintext merge; failure only for a missing key with a sensitive field supplied, changing nothing |
| Journal.UpdateOpens | src/contexts/JournalContext.tsx:113-146 | the updated row opens to the opened old row with the plaintext updates applied |
| Journal.DeleteEntry | src/contexts/JournalContext.tsx:148-165 | the entry row and its conversation go, only that id leaves the list, order kept, and the current entry is cleared if it was the one |
| Journal.RevealOrEmpty | src/contexts/JournalContext.tsx:187-203 | the intended `catch` around the decryptions: all results opened, or `[]` as soon as one fails; with a key and every row opening, every result is opened in place |
| Journal.PlainRowRejects | src/contexts/JournalContext.tsx:192-198 | a selected row whose client identifier has no `:` makes the un-awaited `Promise.all` reject, while the intended `catch` gives `[]` |
| Journal.OpenedKeepsOrder | src/contexts/JournalContext.tsx:187-244 | opening each result keeps the date order and distinct ids |
| Journal.SearchEntriesAsWritten | src/contexts/JournalContext.tsx:187-203 | as written: a success holds opened matches of the tag search, by date descending; with a key, the call rejects exactly when some matching row does not open, and a success holds every match |
| Journal.SearchEntries | src/contexts/JournalContext.tsx:187-203 | corrected: never rejects; results are opened matches of the tag search, by date descending; with a key and every row opening, exactly the matches |
| Journal.GetEntriesByDateRangeAsWritten | src/contexts/JournalContext.tsx:225-244 | as written: a success holds opened entries in the inclusive range, by date descending; with a key, the call rejects exactly when some row in range does not open, and a success holds every such entry |
| Journal.GetEntriesByDateRange | src/contexts/JournalContext.tsx:225-244 | corrected: never rejects; results are opened entries in the inclusive range, by date descending; with every row opening, exactly those |
| Journal.GetEntriesByClientAsWritten | src/contexts/JournalContext.tsx:205-223 | the lookup key is encrypted under a fresh IV before the exact match, so when no stored identifier starts with that IV it returns `[]`; a failed encryption is caught and gives `[]`, and only a matched row that does not open rejects the call |
| Journal.ClientLookupMissesNewEntry | src/contexts/JournalContext.tsx:205-223 | an entry just created under one IV is missed by a lookup under any other, though it opens to the sought identifier |
| Journal.GetEntriesByClient | src/contexts/JournalContext.tsx:205-223 | the corrected lookup opens and filters: exactly the entries whose plaintext identifier equals the argument, by date descending |
| Journal.SealMessages | src/contexts/JournalContext.tsx:275-281 | each message content is encrypted, other fields and order unchanged |
| Journal.OpenMessages | src/contexts/JournalContext.tsx:252-262 | each content is decrypted back, other fields and order unchanged |
| Journal.SealedMessagesOpen | src/contexts/JournalContext.tsx:252-285 | sealed messages open to the originals |
| Journal.OpenedMessagesAreUnique | src/contexts/JournalContext.tsx:252-262 | opening stored messages gives exactly the plaintext they seal |
| Journal.FindEntry | src/contexts/JournalContext.tsx:290-294 | the first in-memory entry with that id, or none exactly when no entry has it |
| Journal.SaveConversation | src/contexts/JournalContext.tsx:272-300 | message contents are sealed and the conversation upserted; the entry is linked only when it has no link yet; failure changes nothing stored |
| Journal.GetConversation | src/contexts/JournalContext.tsx:246-270 | null without a conversation for the entry, else the stored conversation with its contents opened |
| Journal.SaveThenGetConversation | src/contexts/JournalContext.tsx:246-300 | a conversation saved for an entry without one reads back as saved |
| Settings.Overlay | src/contexts/SettingsContext.tsx:36-43 | the object spread: each supplied key wins and the base supplies the rest |
| Settings.OverlayOnlySupplied | src/contexts/SettingsContext.tsx:46-55 | only supplied keys change, and an empty update changes nothing |
| Settings.OverlayFull | src/contexts/SettingsContext.tsx:36-43 | overlaying a complete settings record gives that record |
| Settings.LoadSettings | src/contexts/SettingsContext.tsx:34-44 | the defaults overlaid with the saved fields; the defaults when nothing, or nothing readable, is saved |
| Settings.UpdateSettings | src/contexts/SettingsContext.tsx:46-55 | the new settings are the old overlaid with the updates, and what is persisted loads back to them |
| Settings.ResetSettings | src/contexts/SettingsContext.tsx:57-65 | the settings become the defaults, and what is persisted loads back to them |
| Settings.DefaultValues | src/contexts/SettingsContext.tsx:16-23 | biometrics off, timeout 15, theme auto, font medium, backup on, reminders off |
| Settings.UpdateEmptyAndResetIdempotent | src/contexts/SettingsContext.tsx:46-65 | an empty update changes nothing, and resetting twice is resetting once |
| Llm.UpdateConfigOnlySupplied | src/services/LLMService.ts:353-355 | `updateConfig` overrides exactly the supplied keys |
| Llm.PromptsMatchCategory | src/services/LLMService.ts:35-110 | every built-in prompt sits under its own category and names a framework |
| Llm.FindFramework | src/services/LLMService.ts:225-228 | the first prompt with the framework, or none exactly when no prompt has it |
| Llm.GetReflectionPrompt | src/services/LLMService.ts:219-231 | the first prompt of the category with the framework if any, else the category's first prompt, else null exactly for an empty category |
| Llm.ReflectionPromptExamples | src/services/LLMService.ts:35-110 | concrete lookups, including null for professional development and supervision preparation |
| Llm.Label | src/services/LLMService.ts:247 | 'user' is labelled Therapist and assistant and system Supervisor |
| Llm.BuildContext | src/services/LLMService.ts:236-252 | "Session Notes: " + notes first when notes are non-empty, then the last ten messages labelled, so at most eleven lines |
| Llm.ContextKeepsRecentInOrder | src/services/LLMService.ts:245-250 | each of the last ten messages appears at its position, in order |
| Llm.SummaryContext | src/services/LLMService.ts:240-242 | with no history the context is just the notes line, or empty for empty notes |
| Llm.FullPrompt | src/services/LLMService.ts:171 | the prompt is the system text, "\n\nUser: ", the message and "\n\nAssistant:", in that order |
| Llm.FullPromptInjective | src/services/LLMService.ts:171 | different messages give different prompts |
| Llm.RequestFor | src/services/LLMService.ts:176-188 | the bridge receives the full prompt, the context, the configured sampling values and the two stop sequences |
| Llm.DefaultRequest | src/services/LLMService.ts:25-32 | with the default configuration: 512 tokens, temperature 0.7, top-p 0.9, top-k 40 |
| Llm.MockResponse | src/services/LLMService.ts:282-309 | the reply is that of the first keyword group the lower-cased message mentions, in the order feelings, difficulty, boundaries, transference, else the reflective default |
| Llm.MockResponseExample | src/services/LLMService.ts:290-299 | a message mentioning both "felt" and "boundary" gets the feelings reply |
| Llm.MockResponseGroups | src/services/LLMService.ts:302-304 | "countertransference" is caught by the "counter" keyword |
| Llm.MockResponseIgnoresCase | src/services/LLMService.ts:290 | a message and its lower-cased form draw the same reply |
| NewEntry.InitialForm | src/screens/NewEntryScreen.tsx:32-38 | the form opens with no tags, calm, intensity 3 and today's date |
| NewEntry.HandleSave | src/screens/NewEntryScreen.tsx:48-70 | a blank identifier or, after it, blank notes raise an alert and nothing is created; otherwise the draft has the trimmed identifier and notes, the emotion, intensity, date and tags, and no link |
| NewEntry.SubmittedDraftIsStable | src/screens/NewEntryScreen.tsx:48-70 | a submitted draft is already trimmed, so saving it again submits the same draft |
| NewEntry.AddTag | src/screens/NewEntryScreen.tsx:99-104 | the trimmed input is appended only when non-empty and new, and only then is the input cleared; tags stay non-empty, trimmed and duplicate-free |
| NewEntry.RemoveTag | src/screens/NewEntryScreen.tsx:106-108 | the tag goes, the rest keep their order, and nothing else in the form changes |
| NewEntry.AddThenRemove | src/screens/NewEntryScreen.tsx:99-108 | adding a tag and removing it again restores the list |
| NewEntry.CreateAnother | src/screens/NewEntryScreen.tsx:82-88 | identifier, notes, emotion, intensity and tags go back to their initial values; the date is kept |
| NewEntry.CreateAnotherThenSave | src/screens/NewEntryScreen.tsx:48-88 | saving straight after "Create Another" raises the missing-identifier alert |
| JournalScreen.Visible | src/screens/JournalScreen.tsx:40-51 | an empty query shows every entry; otherwise, in order, exactly the entries whose identifier, notes or some tag contains the query ignoring case, each as often as in the list |
| JournalScreen.NarrowingQuery | src/screens/JournalScreen.tsx:40-51 | a longer query containing a shorter one shows a subset of the shorter one's entries |
| JournalScreen.FoundByClient | src/screens/JournalScreen.tsx:40-51 | an entry is found by its own identifier |
| JournalScreen.ColorOf | src/screens/JournalScreen.tsx:67-83 | total: a name the table lacks gets the neutral colour |
| JournalScreen.ColorGroups | src/screens/JournalScreen.tsx:67-83 | five emotions read positive, uncertain and concerned neutral, exhausted negative |
| JournalScreen.PreviewTags | src/screens/JournalScreen.tsx:116-127 | the row is shown when there are tags, with at most the first three tags and "+N more" for N = count − 3 exactly when there are more |
| AuthScreen.Typed | src/screens/AuthScreen.tsx:109-163 | a field keeps at most six characters, a prefix of what was typed |
| AuthScreen.EnterPin | src/screens/AuthScreen.tsx:109-163 | typing a PIN changes only the PIN and keeps it within six characters |
| AuthScreen.EnterConfirm | src/screens/AuthScreen.tsx:109-163 | typing the confirmation changes only the confirmation |
| AuthScreen.Dots | src/screens/AuthScreen.tsx:69-95 | six boxes, box i filled exactly when the value has an i-th character |
| AuthScreen.HandlePinSubmit | src/screens/AuthScreen.tsx:42-67 | in creation mode a PIN not six long, or a confirmation that differs, alerts and does not reach `login`; otherwise `login` runs with the PIN; fields change only after it succeeds |
| AuthScreen.EnabledSubmitLogsIn | src/screens/AuthScreen.tsx:133 | whenever the button is enabled, pressing it reaches `login` |
| AuthScreen.SettingModeUnreachable | src/screens/AuthScreen.tsx:42-67 | from a screen not in creation mode, nothing turns the mode on |
| AuthScreen.OnMount | src/screens/AuthScreen.tsx:27-40 | with a sensor and no lock, biometric `login()` runs at once; a failure raises the PIN alert |
| AuthScreen.Render | src/screens/AuthScreen.tsx:109-163 | locked shows only the message; the fields, buttons and "3 − failures remaining" line follow the state |
| AuthScreen.AttemptsLine | src/screens/AuthScreen.tsx:159-163 | the remaining-attempts line reads 1 or 2 and agrees with the alert `login` raised |
| AuthScreen.LockedScreenIsInert | src/screens/AuthScreen.tsx:27-163 | a locked screen offers no PIN field, submit or biometric button, and mounting does not log in |
| Navigation.FirstLaunch | src/navigation/RootNavigator.tsx:33-37 | first launch means no user |
| Navigation.Routes | src/navigation/RootNavigator.tsx:39-130 | nothing while the check is pending; the eight app screens when authenticated; otherwise the lock screen, with onboarding exactly on a first launch, and no protected screen |
| Navigation.ShownScreen | src/navigation/RootNavigator.tsx:56-130 | the first screen is onboarding, the lock screen or the tabs, and no screen is registered twice |
| Navigation.Title | src/navigation/RootNavigator.tsx:71-130 | headers are hidden exactly for onboarding, the lock screen and the tabs |
| Navigation.GateDrivesStack | src/navigation/RootNavigator.tsx:56-130 | a successful login brings up the app screens, while logout and lock leave only unprotected ones |
| WebDemo.PinInput | easy-deploy/app.js:14-38 | four dots filled up to the length; a decision only at four characters: "1234" logs in and shows the app, anything else clears the field and dots and alerts |
| WebDemo.OnlyDemoPinOpens | easy-deploy/app.js:14-38 | the app opens exactly for "1234", and a reload then shows it; otherwise storage is untouched |
| WebDemo.Logout | easy-deploy/app.js:75-78 | the login flag is removed and the entries kept |
| WebDemo.ClearData | easy-deploy/app.js:316-322 | confirmed, both keys are removed; declined, nothing changes |
| WebDemo.CloseNewEntry | easy-deploy/app.js:86-92 | title, content and the highlight are cleared but the selected mood is kept |
| WebDemo.SaveEntry | easy-deploy/app.js:105-138 | alert and no change exactly when title or content is empty; otherwise the new entry, mood defaulting to 😐, goes in front |
| WebDemo.MoodCarriesOver | easy-deploy/app.js:86-138 | a mood picked for one entry is saved with the next entry too |
| WebDemo.Search | easy-deploy/app.js:193-200 | in order, exactly the entries whose title or content contains the term ignoring case, each as often as stored |
| WebDemo.EmptySearchListsAll | easy-deploy/app.js:193-200 | an empty term lists every entry |
| WebDemo.ViewEntry | easy-deploy/app.js:184-190 | the first entry with that id, as `find` returns, or none exactly when no entry has it |
| WebDemo.ViewSaved | easy-deploy/app.js:105-190 | a saved entry can be viewed by its id |
| WebDemo.AiResponse | easy-deploy/app.js:266-292 | the first keyword group mentioned wins, in the order hello/hi, sad, angry, happy, anxious, help, else a musing |
| WebDemo.HiInsideWords | easy-deploy/app.js:270-272 | "I think I'm sad" is greeted, since "think" contains "hi" |
| WebDemo.AiResponseIgnoresCase | easy-deploy/app.js:267 | a message and its lower-cased form draw the same reply |
| WebDemo.SendMessage | easy-deploy/app.js:223-234 | a blank message changes nothing; otherwise the trimmed message is shown at once and its reply is scheduled behind the earlier ones |
| WebDemo.ReplyDue | easy-deploy/app.js:236-239 | the oldest scheduled reply is shown and leaves the queue; with none scheduled nothing happens |
| WebDemo.StepsKeepConsistent | easy-deploy/app.js:223-240 | from the empty chat, sending and replying keep every reply answering the user line of the same rank, with the scheduled replies belonging to exactly the unanswered lines |
| WebDemo.ExchangeKeepsAlternation | easy-deploy/app.js:223-240 | a message whose reply arrives before the next send extends an alternating chat by one exchange |
| WebDemo.QuickSendsInterleave | easy-deploy/app.js:236-239 | two messages sent within the one-second delay show both user lines before either reply, so the chat no longer alternates |
| WebDemo.ShowView | easy-deploy/app.js:47-66 | journal, chat and settings show their view and title; any other name shows nothing |

## Left out

- Cryptography: AES-CBC with PKCS7, SHA-256, PBKDF2 (`deriveKeyFromPassword`) and the random generator are foreign calls. The cipher and hash are function parameters, and keys and IVs are inputs. `secureWipe` has no observable effect. Because the cipher is total, encryption never fails in the model, so the `catch` that rethrows "Failed to encrypt data" (src/services/EncryptionService.ts:126-129) has no counterpart.
- Wrong-key detection: CBC cannot detect a wrong key, so no contract claims it.
- IV freshness: IVs are inputs. That two calls draw different IVs is a premise where needed (`Journal.ClientLookupMissesNewEntry`), not a property of the model.
- Storage engines: the keychain, EncryptedStorage, AsyncStorage and SQLite are maps and `Backend` values with success flags. SQL text and the query planner are not modelled.
- `ON DELETE CASCADE`: never in force because foreign keys are off, so it is not modelled.
- Database lifecycle: `initialize`, `createTables`, `close` and the "database not initialized" error are not modelled. The tables are taken to exist.
- Concurrency: `Promise.all`, React state batching and stale closures are not modelled. The contexts run sequentially on one state value.
- JSON: the serialized tags are a function parameter, and `encryptObject` takes a `Codec` whose losslessness is a premise.
- Floating-point values: token estimates are not modelled. Temperature and top-p are exact `real` values rather than IEEE doubles.
- Time: dates are integer milliseconds. Formatting and locale (`toLocaleString`, `formatDate`) are not modelled, and ISO strings are inputs.
- Database.GetEntriesByDateRange: compares milliseconds, not ISO text; see the next line.
- Date text: the store writes `toISOString()` text and sorts and compares it as text (src/services/DatabaseService.ts:130, 153, 198, 231-237). The model compares milliseconds instead. The two orders agree only for years 0000 to 9999, from -62167219200000 to 253402300799999 ms; outside that range the six-digit `±YYYYYY` form breaks the text order. `toISOString` also throws a `RangeError` beyond ±8.64e15 ms, which would make creating, updating or querying such an entry fail. The unbounded `Millis` never throws, so `Database.GetAllEntries`, `Database.GetEntriesByDateRange` and the sorts are faithful only within four-digit years.
- Case folding: only ASCII letters are lower-cased. JavaScript's full Unicode `toLowerCase` is not modelled.
- LLM service: `initialize`, `shutdown`, `getModelInfo`, the native bridges, `analyzeEmotionalPatterns` and `generateSessionSummary` are stubs around a foreign module.
- LLM text: the system prompt's wording, the mock replies' wording and the catch-all error reply are represented by enum values, and the random mock delay is dropped.
- Biometrics: sensor detection (`checkBiometricAvailability`) is a boolean input, and the prompt's result is a `BioOutcome` input.
- Timing-safe PIN comparison: not modelled, because the code compares with `===`.
- Presentation: styles, theme colour values (an enum instead), alert wording, and the screens with no logic (onboarding, splash, placeholders, tab navigator).
- Web demo: its random musing reply, `exportData`'s file download, `toggleMenu`, `showToast` and the outside-click handler are not modelled.
- Auth.Login: does not promise that every caught exception leaves the state unchanged, because a failed `user_data` write happens after the flags and the user were set.
- Encryption.DecryptObject: only says that an object comes from a text that decrypts. Its round trip is stated by `Encryption.ObjectRoundTrip` under a lossless codec, because JSON parsing is a parameter.
- Journal.SearchEntries: states the exact result only when every row opens. This corrected version catches a decryption failure and returns `[]` (`Journal.RevealOrEmpty`), so a failure hides every match. The code as written rejects instead; `Journal.SearchEntriesAsWritten` states that.
- Journal.GetEntriesByDateRange: states the exact result only when every row opens, for the same reason; `Journal.GetEntriesByDateRangeAsWritten` states the rejection.
- Journal.Patched: updates that carry `id` or `createdAt` are not modelled. The patch type has neither field, so id and creation time are kept by construction. The code's `{ ...entry, ...updates }` would overwrite both in memory, but the only call in the modelled files passes `{ aiConversationId }`.
- WebDemo.ReplyDue: the one-second wait is not modelled. Only the order of events matters, and replies scheduled with equal delays fire in the order they were set.

## Findings

| source | as written | input that shows it | evidently intended | confidence | as-written member | corrected member |
|---|---|---|---|---|---|---|
| src/services/EncryptionService.ts:231-253 | `rotateKey` persists the new key before re-encrypting, and on failure restores only the in-memory key | keychain and memory hold "old", data `["plain"]` (no ':'): decryption fails, memory holds "old", the keychain holds "new" | a failed rotation leaves the persisted key and the data as they were | high, not executed | Encryption.RotateKeyFailureDiverges | Encryption.RotateKeyAtomic |
| src/contexts/JournalContext.tsx:187-203 | `searchEntries` returns `Promise.all(...)` of the decryptions without `await`, so its `try` does not cover them and a decryption error rejects the call instead of reaching `catch { return [] }` | a key is held and one matching row's client identifier is `"plain"` (no `:`): the call rejects | the `catch` covers the decryptions (`return await Promise.all(...)`) and the call returns `[]`, as `loadEntries` tolerates rows that do not decrypt | medium, not executed | Journal.SearchEntriesAsWritten | Journal.SearchEntries |
| src/contexts/JournalContext.tsx:225-244 | `getEntriesByDateRange` returns the un-awaited `Promise.all(...)` in the same way | a key is held and one row in range has client identifier `"plain"`: the call rejects | the call returns `[]` from its `catch` | medium, not executed | Journal.GetEntriesByDateRangeAsWritten | Journal.GetEntriesByDateRange |
| src/contexts/JournalContext.tsx:205-223 | `getEntriesByClient` encrypts the lookup key with a fresh random IV and then matches the stored ciphertext exactly (and, like `searchEntries`, a matched row that does not decrypt rejects past the `catch`) | one entry created with IV `iv1`, then a lookup whose encryption draws `probe` ≠ `iv1`: the result is empty | the entries whose decrypted client identifier equals the argument | high, not executed | Journal.GetEntriesByClientAsWritten | Journal.GetEntriesByClient |

=== FILE: auth.dfy ===
/** The authentication gatekeeper (src/contexts/AuthContext.tsx) as a pure
    transition function. The clock, the biometric sensor and prompt, and
    the encrypted key-value store are inputs; the store either answers
    every read (`readOk`) and accepts every write (`writeOk`) or throws. */
module Auth {
  import opened Wrappers
  import opened Types
  import Settings

  const MAX_FAILED_ATTEMPTS: nat := 3

  /** Five minutes, in milliseconds. */
  const LOCK_DURATION: int := 300000

  /** The items the context keeps in encrypted storage. */
  datatype Store = Store(
    lockUntil: Option<Millis>,
    userPin: Option<string>,
    biometricsEnabled: Option<string>,
    userData: Option<User>,
    readOk: bool,
    writeOk: bool)

  /** The context's state: the auth flags, the user, the sensor flag, and
      the store. */
  datatype Gate = Gate(auth: AuthState, user: Option<User>, bioAvailable: bool, store: Store)

  const INITIAL_AUTH: AuthState := AuthState(false, false, 0, None)

  /** What the biometric prompt reports: success, a declined or failed
      scan, or an exception. */
  datatype BioOutcome = Passed | Declined | PromptError

  /** The alert a call raises, if any. */
  datatype Notice = Silent | StillLocked | LockedOut | AttemptsRemaining(n: int) | LoginError

  /** The outcome of `login`: the new state, the boolean returned, and
      which checks ran. */
  datatype LoginResult = LoginResult(gate: Gate, ok: bool, prompted: bool, pinChecked: bool, notice: Notice)

  /** Digits of a non-negative count, most significant first. */
  function Digits(n: nat): (s: string)
    ensures |s| > 0
  {
    if n < 10 then [('0' as int + n) as char] else Digits(n / 10) + [('0' as int + n % 10) as char]
  }

  /** The user `login` creates when there is none: id `user_<now>`,
      created and last logged in now, with the default settings. */
  function NewUser(now: Millis): User {
    var stamp := if now >= 0 then Digits(now) else "-" + Digits(-now);
    User("user_" + stamp, now, now, Settings.DEFAULT_SETTINGS)
  }

  /** A lock is in force at `now` when the stored deadline lies after it. */
  predicate LockActive(s: Store, now: Millis) {
    s.lockUntil.Some? && s.lockUntil.value > now
  }

  /** The caught exception: `false`, an error alert, no state change. */
  function Errored(g: Gate, prompted: bool): LoginResult {
    LoginResult(g, false, prompted, false, LoginError)
  }

  /** `login(pin?)`. */
  function Login(g: Gate, pin: Option<string>, now: Millis, bio: BioOutcome): (r: LoginResult)
    // a lock in force: refuse without prompting, checking or changing anything
    ensures g.auth.isLocked && g.store.readOk && LockActive(g.store, now) ==>
              r == LoginResult(g, false, false, false, StillLocked)
    // the biometric prompt only when enabled in storage and available
    ensures r.prompted ==> g.store.biometricsEnabled == Some("true") && g.bioAvailable
    // the PIN only as a fallback, and only when one was typed
    ensures r.pinChecked ==> Truthy(pin) && !(r.prompted && bio == Passed)
    // success resets the flags and leaves a user behind
    ensures r.ok ==> r.gate.auth == AuthState(true, false, 0, Some(now)) && r.gate.user.Some?
    ensures r.ok ==> (r.prompted && bio == Passed) || (r.pinChecked && g.store.userPin == pin)
    ensures r.ok && g.user.None? ==> r.gate.user == Some(NewUser(now)) && r.gate.store.userData == r.gate.user
    // without the biometric path, success is exactly the right PIN
    ensures g.store.readOk && !(g.auth.isLocked && LockActive(g.store, now)) &&
            !(g.store.biometricsEnabled == Some("true") && g.bioAvailable) ==>
              (r.ok <==> Truthy(pin) && g.store.userPin == pin && (g.user.Some? || g.store.writeOk))
    // a counted failure
    ensures !r.ok && r.gate.auth != g.auth && !r.gate.auth.isAuthenticated ==>
              r.gate.auth.failedAttempts == g.auth.failedAttempts + 1 &&
              (r.gate.auth.failedAttempts >= MAX_FAILED_ATTEMPTS ==>
                 r.gate.auth == AuthState(false, true, r.gate.auth.failedAttempts, None) &&
                 r.gate.store.lockUntil == Some(now + LOCK_DURATION) && r.notice == LockedOut) &&
              (r.gate.auth.failedAttempts < MAX_FAILED_ATTEMPTS ==>
                 r.gate.auth == g.auth.(failedAttempts := r.gate.auth.failedAttempts) &&
                 r.gate.store == g.store &&
                 r.notice == AttemptsRemaining(MAX_FAILED_ATTEMPTS - r.gate.auth.failedAttempts))
    // neither the scan nor the PIN passes: the failure is always counted,
    // the third one locking the app for five minutes
    ensures var prompted := g.store.biometricsEnabled == Some("true") && g.bioAvailable;
            g.store.readOk && !(g.auth.isLocked && LockActive(g.store, now)) &&
            !(prompted && bio != Declined) && !(Truthy(pin) && g.store.userPin == pin) &&
            (g.auth.failedAttempts + 1 < MAX_FAILED_ATTEMPTS || g.store.writeOk) ==>
              !r.ok && r.gate.user == g.user &&
              r.gate.auth.failedAttempts == g.auth.failedAttempts + 1 &&
              (g.auth.failedAttempts + 1 >= MAX_FAILED_ATTEMPTS ==>
                 r.gate.auth == AuthState(false, true, g.auth.failedAttempts + 1, None) &&
                 r.gate.store == g.store.(lockUntil := Some(now + LOCK_DURATION)) && r.notice == LockedOut) &&
              (g.auth.failedAttempts + 1 < MAX_FAILED_ATTEMPTS ==>
                 r.gate.auth == g.auth.(failedAttempts := g.auth.failedAttempts + 1) &&
                 r.gate.store == g.store &&
                 r.notice == AttemptsRemaining(MAX_FAILED_ATTEMPTS - g.auth.failedAttempts - 1))
    // the third failure with a store that refuses the deadline: the
    // exception is caught before anything changes
    ensures var prompted := g.store.biometricsEnabled == Some("true") && g.bioAvailable;
            g.store.readOk && !(g.auth.isLocked && LockActive(g.store, now)) &&
            !(prompted && bio != Declined) && !(Truthy(pin) && g.store.userPin == pin) &&
            g.auth.failedAttempts + 1 >= MAX_FAILED_ATTEMPTS && !g.store.writeOk ==>
              r == Errored(g, prompted)
    // past the lock and the store read: the prompt runs exactly when
    // biometrics are enabled and available, a prompt error is the caught
    // exception, and otherwise a passed scan or the right PIN logs in
    // (given a user, or a store that accepts the new one)
    ensures var prompted := g.store.biometricsEnabled == Some("true") && g.bioAvailable;
            g.store.readOk && !(g.auth.isLocked && LockActive(g.store, now)) ==>
              (r.prompted <==> prompted) &&
              (prompted && bio == PromptError ==> r == Errored(g, true)) &&
              (!(prompted && bio == PromptError) ==>
                 (r.ok <==> ((prompted && bio == Passed) || (Truthy(pin) && g.store.userPin == pin)) &&
                            (g.user.Some? || g.store.writeOk)))
    // a caught exception changes nothing, except after the flags were set
    ensures r.notice == LoginError ==> !r.ok && (r.gate == g || r.gate.auth.isAuthenticated)
    ensures r.gate.bioAvailable == g.bioAvailable
  {
    var s := g.store;
    if g.auth.isLocked && !s.readOk then Errored(g, false)
    else if g.auth.isLocked && LockActive(s, now) then LoginResult(g, false, false, false, StillLocked)
    else if !s.readOk then Errored(g, false)
    else
      var prompted := s.biometricsEnabled == Some("true") && g.bioAvailable;
      if prompted && bio == PromptError then Errored(g, true)
      else
        var viaBio := prompted && bio == Passed;
        var pinChecked := !viaBio && Truthy(pin);
        var authenticated := viaBio || (pinChecked && s.userPin == pin);
        if authenticated then
          var auth := AuthState(true, false, 0, Some(now));
          if g.user.Some? then LoginResult(g.(auth := auth), true, prompted, pinChecked, Silent)
          else
            var u := NewUser(now);
            if s.writeOk then
              LoginResult(Gate(auth, Some(u), g.bioAvailable, s.(userData := Some(u))), true, prompted, pinChecked, Silent)
            else
              // the write of `user_data` throws after the flags and the user were set
              LoginResult(Gate(auth, Some(u), g.bioAvailable, s), false, prompted, pinChecked, LoginError)
        else
          var n := g.auth.failedAttempts + 1;
          if n >= MAX_FAILED_ATTEMPTS then
            if !s.writeOk then Errored(g, prompted)
            else
              LoginResult(Gate(AuthState(false, true, n, None), g.user, g.bioAvailable,
                               s.(lockUntil := Some(now + LOCK_DURATION))),
                          false, prompted, pinChecked, LockedOut)
          else
            LoginResult(g.(auth := g.auth.(failedAttempts := n)), false, prompted, pinChecked,
                        AttemptsRemaining(MAX_FAILED_ATTEMPTS - n))
  }

  /** `unlockApp`: a login with no PIN. */
  function UnlockApp(g: Gate, now: Millis, bio: BioOutcome): (r: LoginResult)
    ensures !r.pinChecked
    ensures r.ok ==> r.prompted && bio == Passed
    // past the lock and the store read, exactly a passed scan unlocks
    ensures g.store.readOk && !(g.auth.isLocked && LockActive(g.store, now)) ==>
              (r.ok <==> g.store.biometricsEnabled == Some("true") && g.bioAvailable && bio == Passed &&
                         (g.user.Some? || g.store.writeOk))
  {
    Login(g, None, now, bio)
  }

  /** `logout`: every flag back to its initial value; the user is kept. */
  function Logout(g: Gate): (r: Gate)
    ensures r.auth == AuthState(false, false, 0, None) && r.user == g.user && r.store == g.store
  {
    g.(auth := INITIAL_AUTH)
  }

  /** `lockApp`: clears `isAuthenticated` only. */
  function LockApp(g: Gate): (r: Gate)
    ensures !r.auth.isAuthenticated
    ensures r.auth.isLocked == g.auth.isLocked && r.auth.failedAttempts == g.auth.failedAttempts
    ensures r.auth.lastAuthTime == g.auth.lastAuthTime && r.user == g.user && r.store == g.store
  {
    g.(auth := g.auth.(isAuthenticated := false))
  }

  /** `initializeAuth` on mount: load the user, probe the sensor, and set
      `isLocked` iff the stored deadline is still ahead; a stale deadline
      is deleted. A failing read skips everything after it. */
  function InitializeAuth(s: Store, sensor: bool, now: Millis): (r: Gate)
    ensures r.auth.isLocked <==> s.readOk && LockActive(s, now)
    ensures r.auth.isLocked ==> r.store == s
    ensures s.readOk && s.writeOk && !LockActive(s, now) ==> r.store.lockUntil.None?
    ensures !r.auth.isAuthenticated && r.auth.failedAttempts == 0
    ensures r.user == (if s.readOk then s.userData else None)
  {
    if !s.readOk then Gate(INITIAL_AUTH, None, false, s)
    else if LockActive(s, now) then Gate(INITIAL_AUTH.(isLocked := true), s.userData, sensor, s)
    else if s.lockUntil.Some? && s.writeOk then Gate(INITIAL_AUTH, s.userData, sensor, s.(lockUntil := None))
    else Gate(INITIAL_AUTH, s.userData, sensor, s)
  }

  /** `setupPin`: stores the PIN; a failed write only raises an alert. */
  function SetupPin(g: Gate, pin: string): (r: Gate)
    ensures g.store.writeOk ==> r.store.userPin == Some(pin)
    ensures r.auth == g.auth && r.user == g.user
  {
    if g.store.writeOk then g.(store := g.store.(userPin := Some(pin))) else g
  }

  /** `enableBiometrics`: stores 'true' or 'false' and mirrors the flag in
      the user's settings. */
  function EnableBiometrics(g: Gate, enable: bool): (r: Gate)
    ensures g.store.writeOk ==> (r.store.biometricsEnabled == Some("true") <==> enable)
    ensures g.store.writeOk && g.user.Some? ==>
              r.user.Some? && r.user.value.settings.biometricsEnabled == enable && r.store.userData == r.user
    ensures r.auth == g.auth
  {
    if !g.store.writeOk then g
    else
      var s := g.store.(biometricsEnabled := Some(if enable then "true" else "false"));
      match g.user
      case None => g.(store := s)
      case Some(u) =>
        var u' := u.(settings := u.settings.(biometricsEnabled := enable));
        g.(user := Some(u'), store := s.(userData := Some(u')))
  }

  /** The invariant every reachable state keeps: never authenticated and
      locked at once, and three or more failures only while locked. */
  predicate Inv(a: AuthState) {
    !(a.isAuthenticated && a.isLocked) && (a.failedAttempts >= MAX_FAILED_ATTEMPTS ==> a.isLocked)
  }

  /** Start-up establishes the invariant and every transition keeps it. */
  lemma TransitionsKeepInv(g: Gate, s: Store, sensor: bool, pin: Option<string>, now: Millis, bio: BioOutcome, enable: bool, newPin: string)
    requires Inv(g.auth)
    ensures Inv(InitializeAuth(s, sensor, now).auth)
    ensures Inv(Login(g, pin, now, bio).gate.auth)
    ensures Inv(UnlockApp(g, now, bio).gate.auth)
    ensures Inv(Logout(g).auth)
    ensures Inv(LockApp(g).auth)
    ensures Inv(SetupPin(g, newPin).auth) && Inv(EnableBiometrics(g, enable).auth)
  {
  }

  /** With the invariant, the "attempts remaining" alert only ever says 1
      or 2. */
  lemma AttemptsRemainingRange(g: Gate, pin: Option<string>, now: Millis, bio: BioOutcome)
    requires Inv(g.auth)
    ensures Login(g, pin, now, bio).notice.AttemptsRemaining? ==>
              Login(g, pin, now, bio).notice.n in {1, 2}
  {
  }

  /** The counter survives an expired lock, so the first wrong PIN after
      the five minutes locks the app again at once. */
  lemma RelockAfterExpiry(g: Gate, pin: string, now: Millis, bio: BioOutcome)
    requires g.auth.isLocked && g.auth.failedAttempts >= MAX_FAILED_ATTEMPTS
    requires g.store.readOk && g.store.writeOk && !LockActive(g.store, now)
    requires pin != "" && g.store.userPin != Some(pin)
    requires !(g.store.biometricsEnabled == Some("true") && g.bioAvailable)
    ensures var r := Login(g, Some(pin), now, bio);
            !r.ok && r.gate.auth.isLocked && r.gate.auth.failedAttempts == g.auth.failedAttempts + 1 &&
            LockActive(r.gate.store, now) && r.notice == LockedOut
  {
  }

  /** Three wrong PINs from a fresh start lock the app for five minutes. */
  lemma ThreeStrikes(s: Store, sensor: bool, pin: string, now: Millis, bio: BioOutcome)
    requires s.readOk && s.writeOk && !LockActive(s, now)
    requires pin != "" && s.userPin != Some(pin)
    requires s.biometricsEnabled != Some("true")
    ensures var g0 := InitializeAuth(s, sensor, now);
            var r1 := Login(g0, Some(pin), now, bio);
            var r2 := Login(r1.gate, Some(pin), now, bio);
            var r3 := Login(r2.gate, Some(pin), now, bio);
            r1.notice == AttemptsRemaining(2) && r2.notice == AttemptsRemaining(1) &&
            r3.notice == LockedOut && r3.gate.auth.isLocked &&
            r3.gate.store.lockUntil == Some(now + LOCK_DURATION) &&
            Login(r3.gate, Some(pin), now + LOCK_DURATION - 1, bio).notice == StillLocked
  {
  }
}

=== FILE: authscreen.dfy ===
/** The lock screen (src/screens/AuthScreen.tsx): the PIN fields, the
    submit handler in front of `login`, and what the screen shows for a
    given authentication state. */
module AuthScreen {
  import opened Wrappers
  import opened Types
  import Auth

  /** The input fields accept at most six characters. */
  const PIN_LENGTH: nat := 6

  /** The screen's own state: the PIN, its confirmation, and the
      PIN-creation mode flag. */
  datatype Screen = Screen(pin: string, confirmPin: string, isSettingPin: bool)

  const INITIAL_SCREEN: Screen := Screen("", "", false)

  /** What the text inputs can hold. */
  predicate Fits(s: Screen) {
    |s.pin| <= PIN_LENGTH && |s.confirmPin| <= PIN_LENGTH
  }

  /** Typing into a field: the input keeps the first six characters. */
  function Typed(text: string): (r: string)
    ensures |r| <= PIN_LENGTH
    ensures |text| <= PIN_LENGTH ==> r == text
    ensures r == text[..|r|]
  {
    if |text| <= PIN_LENGTH then text else text[..PIN_LENGTH]
  }

  function EnterPin(s: Screen, text: string): (r: Screen)
    ensures Fits(s) ==> Fits(r)
    ensures r.confirmPin == s.confirmPin && r.isSettingPin == s.isSettingPin
  {
    s.(pin := Typed(text))
  }

  function EnterConfirm(s: Screen, text: string): (r: Screen)
    ensures Fits(s) ==> Fits(r)
    ensures r.pin == s.pin && r.isSettingPin == s.isSettingPin
  {
    s.(confirmPin := Typed(text))
  }

  /** The six PIN boxes: box `i` shows a dot when the value has an `i`-th
      character. */
  function Dots(value: string): (r: seq<bool>)
    ensures |r| == PIN_LENGTH
    ensures forall i :: 0 <= i < PIN_LENGTH ==> (r[i] <==> i < |value|)
  {
    seq(PIN_LENGTH, i => i < |value|)
  }

  /** The submit button is disabled for a short PIN and, while creating a
      PIN, for a confirmation that differs. */
  predicate SubmitEnabled(s: Screen) {
    !(|s.pin| < PIN_LENGTH || (s.isSettingPin && s.pin != s.confirmPin))
  }

  /** The alerts the handler raises before reaching `login`. */
  datatype Alert = NoAlert | InvalidPin | PinMismatch

  /** The outcome of `handlePinSubmit`: the screen afterwards, the alert,
      and the `login` call made, if any. */
  datatype Submitted = Submitted(screen: Screen, alert: Alert, login: Option<Auth.LoginResult>)

  /** `handlePinSubmit`. Creating a PIN checks its length and its
      confirmation and then calls `login` with it, as unlocking does;
      the fields are cleared only when `login` returns true. */
  function HandlePinSubmit(g: Auth.Gate, s: Screen, now: Millis, bio: Auth.BioOutcome): (r: Submitted)
    ensures s.isSettingPin && |s.pin| != PIN_LENGTH ==> r == Submitted(s, InvalidPin, None)
    ensures s.isSettingPin && |s.pin| == PIN_LENGTH && s.pin != s.confirmPin ==> r == Submitted(s, PinMismatch, None)
    ensures r.login.Some? <==> r.alert == NoAlert
    ensures r.login.Some? ==> r.login.value == Auth.Login(g, Some(s.pin), now, bio)
    // the fields change only after a successful login
    ensures r.screen != s ==> r.login.Some? && r.login.value.ok
    ensures r.login.Some? && r.login.value.ok ==>
              r.screen.pin == "" && !r.screen.isSettingPin &&
              r.screen.confirmPin == (if s.isSettingPin then "" else s.confirmPin)
  {
    if s.isSettingPin && |s.pin| != PIN_LENGTH then Submitted(s, InvalidPin, None)
    else if s.isSettingPin && s.pin != s.confirmPin then Submitted(s, PinMismatch, None)
    else
      var res := Auth.Login(g, Some(s.pin), now, bio);
      var next :=
        if !res.ok then s
        else if s.isSettingPin then Screen("", "", false)
        else s.(pin := "");
      Submitted(next, NoAlert, Some(res))
  }

  /** Whenever the button is enabled, pressing it reaches `login`: the
      handler's checks never fire on a fitting screen. */
  lemma EnabledSubmitLogsIn(g: Auth.Gate, s: Screen, now: Millis, bio: Auth.BioOutcome)
    requires Fits(s) && SubmitEnabled(s)
    ensures HandlePinSubmit(g, s, now, bio).alert == NoAlert
    ensures HandlePinSubmit(g, s, now, bio).login == Some(Auth.Login(g, Some(s.pin), now, bio))
  {
  }

  /** Nothing sets the PIN-creation flag: from the initial screen, typing
      and submitting never turn it on, so the confirmation field and the
      "Set PIN" button are never shown. */
  lemma SettingModeUnreachable(g: Auth.Gate, s: Screen, text: string, now: Millis, bio: Auth.BioOutcome)
    requires !s.isSettingPin
    ensures !EnterPin(s, text).isSettingPin && !EnterConfirm(s, text).isSettingPin
    ensures !HandlePinSubmit(g, s, now, bio).screen.isSettingPin
  {
  }

  /** The mount effect: with a sensor and no lock, `login()` runs at once;
      a failure raises the "enter your PIN" alert. */
  datatype Mounted = Mounted(login: Option<Auth.LoginResult>, failedAlert: bool)

  function OnMount(g: Auth.Gate, now: Millis, bio: Auth.BioOutcome): (r: Mounted)
    ensures r.login.Some? <==> g.bioAvailable && !g.auth.isLocked
    ensures r.login.Some? ==> r.login.value == Auth.Login(g, None, now, bio) && !r.login.value.pinChecked
    ensures r.failedAlert <==> r.login.Some? && !r.login.value.ok
  {
    if g.bioAvailable && !g.auth.isLocked then
      var res := Auth.Login(g, None, now, bio);
      Mounted(Some(res), !res.ok)
    else Mounted(None, false)
  }

  /** What the screen shows. */
  datatype View = View(
    lockedMessage: bool,
    pinField: bool,
    confirmField: bool,
    submitButton: bool,
    biometricButton: bool,
    attemptsRemaining: Option<int>)

  function Render(a: AuthState, bioAvailable: bool, s: Screen): (v: View)
    ensures v.lockedMessage <==> a.isLocked
    ensures v.pinField == v.submitButton == !a.isLocked
    ensures v.confirmField <==> !a.isLocked && s.isSettingPin && |s.pin| == PIN_LENGTH
    ensures v.biometricButton <==> !a.isLocked && bioAvailable && !s.isSettingPin
    ensures v.attemptsRemaining.Some? <==> a.failedAttempts > 0 && !a.isLocked
    ensures v.attemptsRemaining.Some? ==> v.attemptsRemaining.value + a.failedAttempts == Auth.MAX_FAILED_ATTEMPTS
  {
    View(a.isLocked, !a.isLocked,
         !a.isLocked && s.isSettingPin && |s.pin| == PIN_LENGTH,
         !a.isLocked,
         !a.isLocked && bioAvailable && !s.isSettingPin,
         if a.failedAttempts > 0 && !a.isLocked then Some(3 - a.failedAttempts) else None)
  }

  /** Under the gatekeeper's invariant the counter line reads 1 or 2, and
      after a counted failure from an unlocked screen (the only screen with
      a PIN field) it agrees with the alert `login` raised. */
  lemma AttemptsLine(g: Auth.Gate, s: Screen, pin: Option<string>, now: Millis, bio: Auth.BioOutcome)
    requires Auth.Inv(g.auth) && !g.auth.isLocked
    ensures var v := Render(g.auth, g.bioAvailable, s);
            v.attemptsRemaining.Some? ==> v.attemptsRemaining.value in {1, 2}
    ensures var r := Auth.Login(g, pin, now, bio);
            r.notice.AttemptsRemaining? ==>
              Render(r.gate.auth, r.gate.bioAvailable, s).attemptsRemaining == Some(r.notice.n)
  {
    var r := Auth.Login(g, pin, now, bio);
    if r.notice.AttemptsRemaining? {
      Auth.AttemptsRemainingRange(g, pin, now, bio);
    }
  }

  /** A locked screen offers no way to call `login`: no PIN field, no
      submit button, no biometric button, and no automatic prompt. The
      flag is cleared only by a successful `login`, so an expired lock
      still needs a restart, where `initializeAuth` re-reads the deadline. */
  lemma LockedScreenIsInert(g: Auth.Gate, s: Screen, now: Millis, bio: Auth.BioOutcome)
    requires g.auth.isLocked
    ensures var v := Render(g.auth, g.bioAvailable, s);
            v.lockedMessage && !v.pinField && !v.submitButton && !v.biometricButton
    ensures OnMount(g, now, bio).login.None?
  {
  }
}

=== FILE: database.dfy ===
/** The SQLite record store (src/services/DatabaseService.ts).

    Each table is a finite map from its primary key to the rest of the
    row. JSON columns hold the structured value they serialize, except
    that the `tags` column is searched as text, so its JSON rendering is a
    parameter `tagsJson`. Dates are integer milliseconds. The store keeps
    `toISOString()` text and compares it as text, which orders the same
    way only for four-digit years (0000 to 9999); within that range
    `ORDER BY session_date` and the date-range comparisons are integer
    comparisons here. */
module Database {
  import opened Wrappers
  import opened Types
  import opened Text
  import opened SqlLike
  import Seqs

  /** A `journal_entries` row without its `id`. */
  datatype EntryRow = EntryRow(
    clientIdentifier: string,
    sessionDate: Millis,
    sessionNotes: string,
    emotionalState: EmotionalState,
    tags: seq<string>,
    createdAt: Millis,
    updatedAt: Millis,
    aiConversationId: Option<string>)

  /** An `ai_conversations` row without its `id`. `insights` is always
      written, as `[]` when the conversation has none. */
  datatype ConversationRow = ConversationRow(
    entryId: string,
    messages: seq<Message>,
    createdAt: Millis,
    updatedAt: Millis,
    summary: Option<string>,
    insights: seq<string>)

  /** An `app_settings` row without its `key`. */
  datatype SettingRow = SettingRow(value: string, updatedAt: Millis)

  datatype Db = Db(
    entries: map<string, EntryRow>,
    conversations: map<string, ConversationRow>,
    settings: map<string, SettingRow>)

  /** The one statement failure the model keeps: an INSERT whose primary
      key is already present. */
  datatype DbError = DuplicateKey

  const DB_VERSION: int := 1

  const EMPTY: Db := Db(map[], map[], map[])

  // ---------------------------------------------------------------------
  // Entry rows
  // ---------------------------------------------------------------------

  /** The columns of an entry, value for value. */
  function RowOf(e: JournalEntry): EntryRow {
    EntryRow(e.clientIdentifier, e.sessionDate, e.sessionNotes, e.emotionalState,
             e.tags, e.createdAt, e.updatedAt, e.aiConversationId)
  }

  /** `parseEntry`: a row read back as an entry. */
  function ParseEntry(id: string, row: EntryRow): (e: JournalEntry)
    ensures e.id == id
  {
    JournalEntry(id, row.clientIdentifier, row.sessionDate, row.sessionNotes, row.emotionalState,
                 row.tags, row.createdAt, row.updatedAt, row.aiConversationId)
  }

  /** Parsing is the inverse of taking the columns, both ways round. */
  lemma ParseRowRoundTrip(e: JournalEntry, id: string, row: EntryRow)
    ensures ParseEntry(e.id, RowOf(e)) == e
    ensures RowOf(ParseEntry(id, row)) == row
  {
  }

  /** `entry.aiConversationId || null`: an empty id is stored as null. */
  function StoredLink(link: Option<string>): (r: Option<string>)
    ensures r.Some? <==> Truthy(link)
    ensures r.Some? ==> r == link
  {
    if Truthy(link) then link else None
  }

  /** The entry as `createEntry` stores it. */
  function Normalize(e: JournalEntry): JournalEntry {
    e.(aiConversationId := StoredLink(e.aiConversationId))
  }

  /** `createEntry`: insert every field of the entry; the primary key
      rejects an id that is already taken. */
  function CreateEntry(db: Db, e: JournalEntry): (r: Result<Db, DbError>)
    ensures r.Success? <==> e.id !in db.entries
    ensures r.Success? ==> GetEntry(r.value, e.id) == Some(Normalize(e))
    ensures r.Success? ==> r.value.entries - {e.id} == db.entries - {e.id}
    ensures r.Success? ==> r.value.conversations == db.conversations && r.value.settings == db.settings
  {
    if e.id in db.entries then Failure(DuplicateKey)
    else Success(db.(entries := db.entries[e.id := RowOf(Normalize(e))]))
  }

  /** `getEntry`: the row with that id, parsed, or null. */
  function GetEntry(db: Db, id: string): (r: Option<JournalEntry>)
    ensures r.None? <==> id !in db.entries
    ensures r.Some? ==> r.value.id == id && RowOf(r.value) == db.entries[id]
  {
    if id in db.entries then Some(ParseEntry(id, db.entries[id])) else None
  }

  /** A created entry reads back as itself, up to the empty-link rule. */
  lemma CreateThenGet(db: Db, e: JournalEntry)
    requires e.id !in db.entries
    ensures CreateEntry(db, e).Success?
    ensures GetEntry(CreateEntry(db, e).value, e.id) == Some(Normalize(e))
    ensures Truthy(e.aiConversationId) || e.aiConversationId.None? ==> GetEntry(CreateEntry(db, e).value, e.id) == Some(e)
  {
  }

  /** The fields of `Partial<JournalEntry>` that `updateEntry` looks at;
      `None` is `undefined`. */
  datatype EntryPatch = EntryPatch(
    clientIdentifier: Option<string>,
    sessionDate: Option<Millis>,
    sessionNotes: Option<string>,
    emotionalState: Option<EmotionalState>,
    tags: Option<seq<string>>,
    aiConversationId: Option<string>)

  const NO_CHANGES: EntryPatch := EntryPatch(None, None, None, None, None, None)

  /** The SET list of `updateEntry`: each supplied field, and `updated_at`. */
  function ApplyPatch(row: EntryRow, p: EntryPatch, now: Millis): (r: EntryRow)
    ensures r.updatedAt == now && r.createdAt == row.createdAt
    // a supplied field is written
    ensures p.clientIdentifier.Some? ==> r.clientIdentifier == p.clientIdentifier.value
    ensures p.sessionDate.Some? ==> r.sessionDate == p.sessionDate.value
    ensures p.sessionNotes.Some? ==> r.sessionNotes == p.sessionNotes.value
    ensures p.emotionalState.Some? ==> r.emotionalState == p.emotionalState.value
    ensures p.tags.Some? ==> r.tags == p.tags.value
    ensures p.aiConversationId.Some? ==> r.aiConversationId == p.aiConversationId
  {
    EntryRow(
      p.clientIdentifier.GetOr(row.clientIdentifier),
      p.sessionDate.GetOr(row.sessionDate),
      p.sessionNotes.GetOr(row.sessionNotes),
      p.emotionalState.GetOr(row.emotionalState),
      p.tags.GetOr(row.tags),
      row.createdAt,
      now,
      if p.aiConversationId.Some? then p.aiConversationId else row.aiConversationId)
  }

  /** A later patch wins over an earlier one field by field. */
  function Merge(p: EntryPatch, q: EntryPatch): EntryPatch {
    EntryPatch(
      if q.clientIdentifier.Some? then q.clientIdentifier else p.clientIdentifier,
      if q.sessionDate.Some? then q.sessionDate else p.sessionDate,
      if q.sessionNotes.Some? then q.sessionNotes else p.sessionNotes,
      if q.emotionalState.Some? then q.emotionalState else p.emotionalState,
      if q.tags.Some? then q.tags else p.tags,
      if q.aiConversationId.Some? then q.aiConversationId else p.aiConversationId)
  }

  /** Exactly the supplied fields change: a field the patch leaves out
      keeps its value, a supplied one takes the patch's. */
  lemma PatchChangesOnlySupplied(row: EntryRow, p: EntryPatch, now: Millis)
    ensures var r := ApplyPatch(row, p, now);
            r.clientIdentifier == (if p.clientIdentifier.Some? then p.clientIdentifier.value else row.clientIdentifier) &&
            r.sessionDate == (if p.sessionDate.Some? then p.sessionDate.value else row.sessionDate) &&
            r.sessionNotes == (if p.sessionNotes.Some? then p.sessionNotes.value else row.sessionNotes) &&
            r.emotionalState == (if p.emotionalState.Some? then p.emotionalState.value else row.emotionalState) &&
            r.tags == (if p.tags.Some? then p.tags.value else row.tags) &&
            r.aiConversationId == (if p.aiConversationId.Some? then p.aiConversationId else row.aiConversationId) &&
            r.createdAt == row.createdAt && r.updatedAt == now
    ensures ApplyPatch(row, NO_CHANGES, now) == row.(updatedAt := now)
  {
  }

  /** Two updates in a row are one update with the merged patch, and
      repeating an update changes nothing more. */
  lemma PatchComposes(row: EntryRow, p: EntryPatch, q: EntryPatch, t1: Millis, t2: Millis)
    ensures ApplyPatch(ApplyPatch(row, p, t1), q, t2) == ApplyPatch(row, Merge(p, q), t2)
    ensures ApplyPatch(ApplyPatch(row, p, t1), p, t1) == ApplyPatch(row, p, t1)
  {
  }

  /** `updateEntry`: an UPDATE by id; no row, no change. */
  function UpdateEntry(db: Db, id: string, p: EntryPatch, now: Millis): (r: Db)
    ensures r.entries.Keys == db.entries.Keys
    ensures r.entries - {id} == db.entries - {id}
    ensures id in db.entries ==> r.entries[id] == ApplyPatch(db.entries[id], p, now)
    ensures r.conversations == db.conversations && r.settings == db.settings
  {
    if id in db.entries then db.(entries := db.entries[id := ApplyPatch(db.entries[id], p, now)]) else db
  }

  /** `deleteEntry`: removes that row only. The conversation is left to
      an explicit `deleteConversation`. */
  function DeleteEntry(db: Db, id: string): (r: Db)
    ensures id !in r.entries
    ensures forall k :: k != id ==> (k in r.entries <==> k in db.entries)
    ensures forall k :: k in r.entries ==> r.entries[k] == db.entries[k]
    ensures r.conversations == db.conversations && r.settings == db.settings
  {
    db.(entries := db.entries - {id})
  }

  // ---------------------------------------------------------------------
  // Multi-row queries: `ORDER BY session_date DESC`
  // ---------------------------------------------------------------------

  predicate SortedDesc(es: seq<JournalEntry>) {
    forall i, j :: 0 <= i < j < |es| ==> es[i].sessionDate >= es[j].sessionDate
  }

  predicate DistinctIds(es: seq<JournalEntry>) {
    forall i, j :: 0 <= i < j < |es| ==> es[i].id != es[j].id
  }

  /** Places one entry among entries already in descending date order. */
  function InsertByDate(es: seq<JournalEntry>, e: JournalEntry): (r: seq<JournalEntry>)
    requires SortedDesc(es)
    ensures SortedDesc(r)
    ensures |r| == |es| + 1
    ensures forall x :: x in r <==> x in es || x == e
    ensures multiset(r) == multiset(es) + multiset{e}
    decreases |es|
  {
    if es == [] || es[0].sessionDate <= e.sessionDate then [e] + es
    else
      var rest := InsertByDate(es[1..], e);
      HeadBeforeInserted(es, e, rest);
      [es[0]] + rest
  }

  /** The head of a sorted list that is later than `e` stays in front of
      the tail with `e` inserted. */
  lemma HeadBeforeInserted(es: seq<JournalEntry>, e: JournalEntry, rest: seq<JournalEntry>)
    requires SortedDesc(es) && |es| > 0 && es[0].sessionDate > e.sessionDate
    requires SortedDesc(rest) && multiset(rest) == multiset(es[1..]) + multiset{e}
    ensures SortedDesc([es[0]] + rest)
    ensures multiset([es[0]] + rest) == multiset(es) + multiset{e}
    ensures forall x :: x in [es[0]] + rest <==> x in es || x == e
  {
    Seqs.ConsAdded(es, rest, e);
    SortedHead(es);
    var r := [es[0]] + rest;
    forall i, j | 0 <= i < j < |r| ensures r[i].sessionDate >= r[j].sessionDate {
      assert r[j] == rest[j - 1];
      if i > 0 {
        assert r[i] == rest[i - 1];
      } else {
        assert r[j] in rest;
      }
    }
  }

  lemma SortedHead(es: seq<JournalEntry>)
    requires SortedDesc(es) && |es| > 0
    ensures forall x :: x in es ==> x.sessionDate <= es[0].sessionDate
  {
  }

  /** Putting an entry with a new id in front keeps the ids distinct. */
  lemma ConsDistinct(x: JournalEntry, s: seq<JournalEntry>)
    requires DistinctIds(s) && forall y :: y in s ==> y.id != x.id
    ensures DistinctIds([x] + s)
  {
    var r := [x] + s;
    forall i, j | 0 <= i < j < |r| ensures r[i].id != r[j].id {
      assert r[j] == s[j - 1];
      if i > 0 {
        assert r[i] == s[i - 1];
      } else {
        assert r[j] in s;
      }
    }
  }

  lemma TailDistinct(s: seq<JournalEntry>)
    requires DistinctIds(s) && |s| > 0
    ensures DistinctIds(s[1..]) && forall y :: y in s[1..] ==> y.id != s[0].id
  {
    forall y | y in s[1..] ensures y.id != s[0].id {
      var m :| 0 <= m < |s[1..]| && s[1..][m] == y;
      assert s[m + 1] == y;
    }
  }

  /** The rest of an ordered list is ordered and comes after its head. */
  lemma TailOrdered(s: seq<JournalEntry>)
    requires SortedDesc(s) && DistinctIds(s) && |s| > 0
    ensures SortedDesc(s[1..]) && DistinctIds(s[1..])
    ensures forall y :: y in s[1..] ==> y.sessionDate <= s[0].sessionDate && y.id != s[0].id
  {
    TailDistinct(s);
    SortedHead(s);
    assert forall y :: y in s[1..] ==> y in s;
    forall i, j | 0 <= i < j < |s[1..]| ensures s[1..][i].sessionDate >= s[1..][j].sessionDate {
      assert s[1..][i] == s[i + 1] && s[1..][j] == s[j + 1];
    }
  }

  /** An entry no earlier and with a new id can go in front. */
  lemma ConsOrdered(x: JournalEntry, s: seq<JournalEntry>)
    requires SortedDesc(s) && DistinctIds(s)
    requires forall y :: y in s ==> y.sessionDate <= x.sessionDate && y.id != x.id
    ensures SortedDesc([x] + s) && DistinctIds([x] + s)
  {
    ConsDistinct(x, s);
    var r := [x] + s;
    forall i, j | 0 <= i < j < |r| ensures r[i].sessionDate >= r[j].sessionDate {
      assert r[j] == s[j - 1];
      if i > 0 {
        assert r[i] == s[i - 1];
      } else {
        assert r[j] in s;
      }
    }
  }

  /** Inserting an entry whose id is new keeps the ids distinct. */
  lemma {:induction false} InsertByDateDistinct(es: seq<JournalEntry>, e: JournalEntry)
    requires SortedDesc(es) && DistinctIds(es)
    requires forall x :: x in es ==> x.id != e.id
    ensures DistinctIds(InsertByDate(es, e))
    decreases |es|
  {
    if es == [] || es[0].sessionDate <= e.sessionDate {
      ConsDistinct(e, es);
    } else {
      var tail := es[1..];
      TailDistinct(es);
      assert forall x :: x in tail ==> x in es;
      InsertByDateDistinct(tail, e);
      var rest := InsertByDate(tail, e);
      assert es[0] in es;
      ConsDistinct(es[0], rest);
    }
  }

  /** `SELECT * FROM journal_entries WHERE keep ORDER BY session_date DESC`.
      Rows with equal dates come out in an unspecified order, so the table
      is scanned in an arbitrary order too. */
  method Select(t: map<string, EntryRow>, keep: (string, EntryRow) -> bool) returns (r: seq<JournalEntry>)
    ensures SortedDesc(r) && DistinctIds(r)
    ensures forall e :: e in r <==> e.id in t && keep(e.id, t[e.id]) && e == ParseEntry(e.id, t[e.id])
  {
    var todo := t.Keys;
    r := [];
    while todo != {}
      invariant todo <= t.Keys
      invariant SortedDesc(r) && DistinctIds(r)
      invariant forall e :: e in r <==> e.id in t && e.id !in todo && keep(e.id, t[e.id]) && e == ParseEntry(e.id, t[e.id])
      decreases |todo|
    {
      var k :| k in todo;
      if keep(k, t[k]) {
        InsertByDateDistinct(r, ParseEntry(k, t[k]));
        r := InsertByDate(r, ParseEntry(k, t[k]));
      }
      todo := todo - {k};
    }
  }

  /** `getAllEntries`: every entry, newest session first. */
  method GetAllEntries(db: Db) returns (r: seq<JournalEntry>)
    ensures SortedDesc(r) && DistinctIds(r)
    ensures forall e :: e in r <==> e.id in db.entries && e == ParseEntry(e.id, db.entries[e.id])
  {
    r := Select(db.entries, (id, row) => true);
  }

  /** `searchEntries`: `tags LIKE '%query%'`; no other column is searched. */
  method SearchEntries(db: Db, tagsJson: seq<string> -> string, query: string) returns (r: seq<JournalEntry>)
    ensures SortedDesc(r) && DistinctIds(r)
    ensures forall e :: e in r <==>
              e.id in db.entries && Like(tagsJson(e.tags), ContainsPattern(query)) && e == ParseEntry(e.id, db.entries[e.id])
    // with no wildcard in the query, that is a case-insensitive substring test
    ensures NoWildcard(query) ==>
              forall e :: e in r <==>
                e.id in db.entries && Includes(Lower(tagsJson(e.tags)), Lower(query)) && e == ParseEntry(e.id, db.entries[e.id])
  {
    var pattern := ContainsPattern(query);
    r := Select(db.entries, (id, row: EntryRow) => Like(tagsJson(row.tags), pattern));
    if NoWildcard(query) {
      forall e: JournalEntry
        ensures Like(tagsJson(e.tags), pattern) <==> Includes(Lower(tagsJson(e.tags)), Lower(query))
      {
        ContainsPatternIsSubstring(tagsJson(e.tags), query);
      }
    }
  }

  /** `getEntriesByClient`: exact equality on the stored column. */
  method GetEntriesByClient(db: Db, clientId: string) returns (r: seq<JournalEntry>)
    ensures SortedDesc(r) && DistinctIds(r)
    ensures forall e :: e in r <==>
              e.id in db.entries && db.entries[e.id].clientIdentifier == clientId && e == ParseEntry(e.id, db.entries[e.id])
  {
    r := Select(db.entries, (id, row: EntryRow) => row.clientIdentifier == clientId);
  }

  /** `getEntriesByDateRange`: both bounds inclusive. */
  method GetEntriesByDateRange(db: Db, start: Millis, end: Millis) returns (r: seq<JournalEntry>)
    ensures SortedDesc(r) && DistinctIds(r)
    ensures forall e :: e in r <==>
              e.id in db.entries && start <= e.sessionDate <= end && e == ParseEntry(e.id, db.entries[e.id])
  {
    r := Select(db.entries, (id, row: EntryRow) => start <= row.sessionDate <= end);
  }

  // ---------------------------------------------------------------------
  // Conversations
  // ---------------------------------------------------------------------

  predicate HasConversation(db: Db, entryId: string) {
    exists id :: id in db.conversations && db.conversations[id].entryId == entryId
  }

  /** At most one conversation row per entry. The schema does not enforce
      it; the operations below preserve it. */
  predicate UniqueLinks(db: Db) {
    forall a, b ::
      (a in db.conversations && b in db.conversations &&
       db.conversations[a].entryId == db.conversations[b].entryId) ==> a == b
  }

  /** The row `saveConversation` inserts: an empty summary becomes null and
      missing insights become `[]`. */
  function ConversationRowOf(c: Conversation): ConversationRow {
    ConversationRow(c.entryId, c.messages, c.createdAt, c.updatedAt, StoredLink(c.summary), c.insights.GetOr([]))
  }

  /** The conversation `getConversation` builds from a row. */
  function ParseConversation(id: string, row: ConversationRow): (c: Conversation)
    ensures c.id == id && c.entryId == row.entryId
    ensures ConversationRowOf(c) == row.(summary := StoredLink(row.summary))
  {
    Conversation(id, row.entryId, row.messages, row.createdAt, row.updatedAt, row.summary, Some(row.insights))
  }

  /** `saveConversation`: an upsert keyed by `entry_id`. When the entry
      already has a conversation, the row whose id is `conversation.id` is
      updated (none, if the ids differ); otherwise a row is inserted. */
  function SaveConversation(db: Db, c: Conversation): (r: Result<Db, DbError>)
    ensures r.Failure? <==> !HasConversation(db, c.entryId) && c.id in db.conversations
    ensures r.Success? ==> r.value.entries == db.entries && r.value.settings == db.settings
    ensures r.Success? ==> r.value.conversations.Keys == db.conversations.Keys + {c.id} || r.value == db
    ensures r.Success? ==> r.value.conversations - {c.id} == db.conversations - {c.id}
    // an update rewrites the content columns and keeps entry_id and created_at
    ensures r.Success? && c.id in db.conversations ==>
              var before := db.conversations[c.id];
              r.value.conversations[c.id] ==
                ConversationRowOf(c).(entryId := before.entryId, createdAt := before.createdAt)
    // an insert stores the whole conversation
    ensures r.Success? && !HasConversation(db, c.entryId) ==>
              c.id in r.value.conversations && r.value.conversations[c.id] == ConversationRowOf(c)
  {
    if HasConversation(db, c.entryId) then
      if c.id in db.conversations then
        var before := db.conversations[c.id];
        var row := ConversationRowOf(c).(entryId := before.entryId, createdAt := before.createdAt);
        Success(db.(conversations := db.conversations[c.id := row]))
      else Success(db)
    else if c.id in db.conversations then Failure(DuplicateKey)
    else Success(db.(conversations := db.conversations[c.id := ConversationRowOf(c)]))
  }

  /** Saving never gives an entry a second conversation. */
  lemma SaveConversationKeepsLinksUnique(db: Db, c: Conversation)
    requires UniqueLinks(db)
    ensures SaveConversation(db, c).Success? ==> UniqueLinks(SaveConversation(db, c).value)
  {
    var r := SaveConversation(db, c);
    if r.Success? && !HasConversation(db, c.entryId) {
      var t := r.value.conversations;
      assert forall k :: k in t && k != c.id ==> k in db.conversations && t[k] == db.conversations[k];
      assert forall k :: k in t && k != c.id ==> t[k].entryId != c.entryId;
      assert t[c.id].entryId == c.entryId;
    }
  }

  /** `getConversation`: some row with that `entry_id` (the query has no
      ORDER BY), or null. */
  method GetConversation(db: Db, entryId: string) returns (r: Option<Conversation>)
    ensures r.None? <==> !HasConversation(db, entryId)
    ensures r.Some? ==> r.value.id in db.conversations && r.value == ParseConversation(r.value.id, db.conversations[r.value.id])
    ensures r.Some? ==> r.value.entryId == entryId
    // with one conversation per entry, the answer is determined
    ensures r.Some? && UniqueLinks(db) ==>
              forall id :: id in db.conversations && db.conversations[id].entryId == entryId ==> id == r.value.id
  {
    if HasConversation(db, entryId) {
      var id :| id in db.conversations && db.conversations[id].entryId == entryId;
      r := Some(ParseConversation(id, db.conversations[id]));
    } else {
      r := None;
    }
  }

  /** A conversation saved for an entry that had none reads back as saved,
      with an empty summary read as null and missing insights as `[]`. */
  lemma SaveThenGetConversation(db: Db, c: Conversation)
    requires UniqueLinks(db) && !HasConversation(db, c.entryId) && c.id !in db.conversations
    ensures var r := SaveConversation(db, c);
            r.Success? && UniqueLinks(r.value) && HasConversation(r.value, c.entryId) &&
            (forall id :: id in r.value.conversations && r.value.conversations[id].entryId == c.entryId ==> id == c.id) &&
            ParseConversation(c.id, r.value.conversations[c.id]) ==
              c.(summary := StoredLink(c.summary), insights := Some(c.insights.GetOr([])))
  {
    SaveConversationKeepsLinksUnique(db, c);
    var r := SaveConversation(db, c);
    assert r.value.conversations[c.id].entryId == c.entryId;
  }

  /** `deleteConversation`: every row of that entry goes. */
  function DeleteConversation(db: Db, entryId: string): (r: Db)
    ensures !HasConversation(r, entryId)
    ensures forall id :: id in db.conversations && db.conversations[id].entryId != entryId ==>
              id in r.conversations && r.conversations[id] == db.conversations[id]
    ensures r.conversations.Keys <= db.conversations.Keys
    ensures r.entries == db.entries && r.settings == db.settings
    ensures UniqueLinks(db) ==> UniqueLinks(r)
  {
    db.(conversations := map id | id in db.conversations && db.conversations[id].entryId != entryId :: db.conversations[id])
  }

  // ---------------------------------------------------------------------
  // Settings, wipe and export
  // ---------------------------------------------------------------------

  function GetSetting(db: Db, key: string): (r: Option<string>)
    ensures r.None? <==> key !in db.settings
    ensures r.Some? ==> r.value == db.settings[key].value
  {
    if key in db.settings then Some(db.settings[key].value) else None
  }

  /** `setSetting`: INSERT OR REPLACE. */
  function SetSetting(db: Db, key: string, value: string, now: Millis): (r: Db)
    ensures r.settings.Keys == db.settings.Keys + {key}
    ensures r.entries == db.entries && r.conversations == db.conversations
  {
    db.(settings := db.settings[key := SettingRow(value, now)])
  }

  /** After `setSetting(k, v)`, `getSetting(k)` is v and every other key
      reads as before. */
  lemma SetThenGetSetting(db: Db, key: string, value: string, now: Millis, other: string)
    ensures GetSetting(SetSetting(db, key, value, now), key) == Some(value)
    ensures other != key ==> GetSetting(SetSetting(db, key, value, now), other) == GetSetting(db, other)
  {
  }

  /** `clearAllData`: the three DELETEs of one transaction. */
  function ClearAllData(db: Db): (r: Db)
    ensures forall id :: GetEntry(r, id).None? && !HasConversation(r, id) && GetSetting(r, id).None?
    ensures UniqueLinks(r)
  {
    EMPTY
  }

  /** The backup document `exportDatabase` serializes. */
  datatype ExportDoc = ExportDoc(
    version: int,
    exportDate: Millis,
    entries: seq<JournalEntry>,
    conversations: seq<Conversation>)

  /** `exportDatabase`: all entries in list order, and for each entry that
      has a conversation link, the conversation stored under the entry's
      id. */
  method ExportDatabase(db: Db, now: Millis) returns (doc: ExportDoc)
    ensures doc.version == DB_VERSION && doc.exportDate == now
    ensures SortedDesc(doc.entries) && DistinctIds(doc.entries)
    ensures forall e :: e in doc.entries <==> e.id in db.entries && e == ParseEntry(e.id, db.entries[e.id])
    ensures |doc.conversations| <= |doc.entries|
    ensures forall c :: c in doc.conversations ==>
              c.id in db.conversations && c == ParseConversation(c.id, db.conversations[c.id]) &&
              exists e :: e in doc.entries && Truthy(e.aiConversationId) && e.id == c.entryId
    ensures forall e :: e in doc.entries && Truthy(e.aiConversationId) && HasConversation(db, e.id) ==>
              exists c :: c in doc.conversations && c.entryId == e.id
  {
    var entries := GetAllEntries(db);
    var conversations: seq<Conversation> := [];
    var i := 0;
    while i < |entries|
      invariant 0 <= i <= |entries|
      invariant |conversations| <= i
      invariant forall c :: c in conversations ==>
                  c.id in db.conversations && c == ParseConversation(c.id, db.conversations[c.id]) &&
                  exists e :: e in entries[..i] && Truthy(e.aiConversationId) && e.id == c.entryId
      invariant forall j :: 0 <= j < i && Truthy(entries[j].aiConversationId) && HasConversation(db, entries[j].id) ==>
                  exists c :: c in conversations && c.entryId == entries[j].id
    {
      var e := entries[i];
      if Truthy(e.aiConversationId) {
        var c := GetConversation(db, e.id);
        if c.Some? {
          conversations := conversations + [c.value];
          assert entries[i] in entries[..i + 1];
        }
      }
      assert forall x :: x in entries[..i] ==> x in entries[..i + 1];
      i := i + 1;
    }
    assert entries[..i] == entries;
    forall e | e in entries && Truthy(e.aiConversationId) && HasConversation(db, e.id)
      ensures exists c :: c in conversations && c.entryId == e.id
    {
      var j :| 0 <= j < |entries| && entries[j] == e;
    }
    doc := ExportDoc(DB_VERSION, now, entries, conversations);
  }
}

=== FILE: encryption.dfy ===
/** The field-encryption service (src/services/EncryptionService.ts).

    The service holds at most one key in memory and persists it in one of
    two vault backends: the platform keychain, and an encrypted key-value
    store used as a fallback. Each backend is an optional item plus two
    flags saying whether reading and writing it succeed; a failing backend
    call is the source's thrown exception.

    The cipher is a parameter: a pair of functions `enc`/`dec` whose only
    assumed law, `Sound`, is the round trip. Random draws (the 16-byte IV of
    every `encrypt`, the keys `generateRandomKey` returns) are parameters
    too. */
module Encryption {
  import opened Wrappers
  import opened Text
  import Types

  type Byte = b: int | 0 <= b < 256

  /** The initialisation vector drawn on every encryption: 16 random bytes. */
  type Iv = s: seq<Byte> | |s| == 16 witness seq(16, _ => 0)

  /** A generated key: Base64 of 32 random bytes, so never empty. */
  type KeyText = k: string | k != "" witness "A"

  // ---------------------------------------------------------------------
  // Hex encoding of the IV (lower-case, two digits per byte)
  // ---------------------------------------------------------------------

  const HEX_DIGITS: string := "0123456789abcdef"

  function HexByte(b: Byte): (h: string)
    ensures |h| == 2 && ':' !in h
  {
    [HEX_DIGITS[b / 16], HEX_DIGITS[b % 16]]
  }

  /** `WordArray.toString()`: the lower-case hex text of the bytes. */
  function Hex(bs: seq<Byte>): (h: string)
    ensures |h| == 2 * |bs|
    ensures ':' !in h
  {
    if bs == [] then [] else HexByte(bs[0]) + Hex(bs[1..])
  }

  function DigitValue(ch: char): (r: Option<nat>)
    ensures r.Some? ==> r.value < 16 && HEX_DIGITS[r.value] == ch
  {
    if '0' <= ch <= '9' then Some(ch as int - '0' as int)
    else if 'a' <= ch <= 'f' then Some(ch as int - 'a' as int + 10)
    else None
  }

  /** Reads lower-case hex text back into bytes. */
  function UnHex(h: string): (r: Option<seq<Byte>>)
    ensures r.Some? ==> |h| == 2 * |r.value|
  {
    if |h| == 0 then Some([])
    else if |h| == 1 then None
    else
      var hi, lo, rest := DigitValue(h[0]), DigitValue(h[1]), UnHex(h[2..]);
      if hi.Some? && lo.Some? && rest.Some? then Some([hi.value * 16 + lo.value] + rest.value) else None
  }

  lemma DigitValueOf(n: nat)
    requires n < 16
    ensures DigitValue(HEX_DIGITS[n]) == Some(n)
  {
  }

  lemma HexByteDigits(b: Byte)
    ensures DigitValue(HexByte(b)[0]) == Some(b / 16) && DigitValue(HexByte(b)[1]) == Some(b % 16)
  {
    DigitValueOf(b / 16);
    DigitValueOf(b % 16);
  }

  /** Two digits read back as their value, ahead of the rest. */
  lemma UnHexDigits(hi: nat, lo: nat, rest: string)
    requires hi < 16 && lo < 16
    ensures UnHex([HEX_DIGITS[hi], HEX_DIGITS[lo]] + rest) ==
            if UnHex(rest).Some? then Some([hi * 16 + lo] + UnHex(rest).value) else None
  {
    var h := [HEX_DIGITS[hi], HEX_DIGITS[lo]] + rest;
    assert |h| >= 2 && h[2..] == rest;
    assert DigitValue(h[0]) == Some(hi) by {
      assert h[0] == HEX_DIGITS[hi];
      DigitValueOf(hi);
    }
    assert DigitValue(h[1]) == Some(lo) by {
      assert h[1] == HEX_DIGITS[lo];
      DigitValueOf(lo);
    }
  }

  /** The two digits of a byte read back as that byte, ahead of the rest. */
  lemma UnHexByte(b: Byte, rest: string)
    ensures UnHex(HexByte(b) + rest) == if UnHex(rest).Some? then Some([b] + UnHex(rest).value) else None
  {
    UnHexDigits(b / 16, b % 16, rest);
    ByteDigits(b);
  }

  lemma ByteDigits(b: Byte)
    ensures (b / 16) * 16 + b % 16 == b
  {
  }

  /** Hex text reads back as the bytes it was made from. */
  lemma {:induction false} UnHexHex(bs: seq<Byte>)
    ensures UnHex(Hex(bs)) == Some(bs)
  {
    if bs != [] {
      assert Hex(bs) == HexByte(bs[0]) + Hex(bs[1..]);
      UnHexByte(bs[0], Hex(bs[1..]));
      UnHexHex(bs[1..]);
      assert [bs[0]] + bs[1..] == bs;
    }
  }

  /** Distinct byte strings have distinct hex texts. */
  lemma HexInjective(a: seq<Byte>, b: seq<Byte>)
    requires Hex(a) == Hex(b)
    ensures a == b
  {
    UnHexHex(a);
    UnHexHex(b);
  }

  // ---------------------------------------------------------------------
  // The cipher and the `iv:ciphertext` wire format
  // ---------------------------------------------------------------------

  /** AES as the app calls it: `enc(key, iv, plaintext)` gives the Base64
      ciphertext, `dec(key, ivHex, ciphertext)` the plaintext, or `None`
      when decoding fails. */
  datatype Cipher = Cipher(
    enc: (string, Iv, string) -> string,
    dec: (string, string, string) -> Option<string>)

  /** The law the model assumes of the cipher: its output is Base64 (so it
      contains no ':'), and decrypting under the same key and IV gives the
      plaintext back. Nothing is assumed about a wrong key. */
  ghost predicate Sound(c: Cipher) {
    forall k: string, iv: Iv, p: string {:trigger c.enc(k, iv, p)} ::
      ':' !in c.enc(k, iv, p) && c.dec(k, Hex(iv), c.enc(k, iv, p)) == Some(p)
  }

  /** The stored form of an encrypted field: hex IV, ':', ciphertext. */
  function Wire(iv: Iv, body: string): (w: string)
    ensures |w| == 33 + |body|
    ensures w[..32] == Hex(iv) && w[32] == ':' && w[33..] == body
  {
    Hex(iv) + ":" + body
  }

  /** A colon-free body makes the wire text split into exactly IV and body. */
  lemma SplitWire(iv: Iv, body: string)
    requires ':' !in body
    ensures Split(Wire(iv, body), ':') == [Hex(iv), body]
  {
    var parts := [Hex(iv), body];
    assert parts[1..] == [body];
    assert Join(parts, ':') == Wire(iv, body);
    SplitJoin(parts, ':');
  }

  /** Encryption under a known key: a fresh wire text. */
  function Seal(c: Cipher, key: string, iv: Iv, plaintext: string): string {
    Wire(iv, c.enc(key, iv, plaintext))
  }

  /** Decryption under a known key: the format check, then the cipher. */
  function Open(c: Cipher, key: string, ciphertext: string): (r: Option<string>)
    ensures r.Some? ==> |Split(ciphertext, ':')| == 2
  {
    var parts := Split(ciphertext, ':');
    if |parts| != 2 then None else c.dec(key, parts[0], parts[1])
  }

  /** Under a sound cipher, what is sealed under a key opens under it. */
  lemma SealOpen(c: Cipher, key: string, iv: Iv, plaintext: string)
    requires Sound(c)
    ensures Open(c, key, Seal(c, key, iv, plaintext)) == Some(plaintext)
    ensures |Split(Seal(c, key, iv, plaintext), ':')| == 2
  {
    SplitWire(iv, c.enc(key, iv, plaintext));
  }

  // ---------------------------------------------------------------------
  // Service state
  // ---------------------------------------------------------------------

  /** One persistence backend: the stored item and whether reading and
      writing it succeed. */
  datatype Backend = Backend(item: Option<string>, readOk: bool, writeOk: bool)

  /** The keychain entry (service `com.reflect.encryption`) and the
      encrypted-storage item `reflect_master_key`. */
  datatype Vault = Vault(keychain: Backend, storage: Backend)

  datatype Service = Service(key: Option<string>, vault: Vault)

  /** The errors the service throws. `InitFailed` is "Unable to initialize
      encryption", `KeyUnavailable` is "Encryption key not available",
      `DecryptFailed` is "Failed to decrypt data", `NoStoredKey` is "No
      encryption key found", `VaultError` a backend call that threw, and
      `ParseFailed` a JSON text that does not parse. */
  datatype EncError = InitFailed | KeyUnavailable | DecryptFailed | NoStoredKey | VaultError | ParseFailed

  /** The service after a call, and what the call returned or threw. */
  datatype Step<T> = Step(svc: Service, out: Result<T, EncError>)

  /** The two keys `generateRandomKey` would return during one
      `initialize`: one for the keychain path, one for the fallback. */
  datatype Draws = Draws(first: KeyText, second: KeyText)

  /** The in-memory key is one of the persisted ones. */
  predicate Persisted(svc: Service) {
    svc.key.Some? && (svc.key == svc.vault.keychain.item || svc.key == svc.vault.storage.item)
  }

  /** `generateAndStoreKey`: the keychain, or else encrypted storage,
      receives the key, which then becomes the in-memory key. */
  function GenerateAndStore(svc: Service, k: KeyText): (r: Step<()>)
    ensures r.out.Failure? <==> !svc.vault.keychain.writeOk && !svc.vault.storage.writeOk
    ensures r.out.Failure? ==> r.svc == svc && r.out.error == VaultError
    ensures r.out.Success? ==> r.svc.key == Some(k) && Persisted(r.svc)
    ensures r.svc.vault.keychain.item != svc.vault.keychain.item ==> r.svc.vault.keychain.item == Some(k)
    ensures r.svc.vault.storage.item != svc.vault.storage.item ==> r.svc.vault.storage.item == Some(k)
    ensures r.svc.vault.storage.item != svc.vault.storage.item ==> !svc.vault.keychain.writeOk
  {
    var v := svc.vault;
    if v.keychain.writeOk then
      Step(Service(Some(k), v.(keychain := v.keychain.(item := Some(k)))), Success(()))
    else if v.storage.writeOk then
      Step(Service(Some(k), v.(storage := v.storage.(item := Some(k)))), Success(()))
    else
      Step(svc, Failure(VaultError))
  }

  /** `initializeWithEncryptedStorage`: reuse a non-empty stored key, or
      store a new one; any backend failure is "Unable to initialize". */
  function InitializeWithStorage(svc: Service, k: KeyText): (r: Step<()>)
    ensures r.out.Failure? <==> !svc.vault.storage.readOk || (!Types.Truthy(svc.vault.storage.item) && !svc.vault.storage.writeOk)
    ensures r.out.Failure? ==> r.svc == svc && r.out.error == InitFailed
    ensures r.out.Success? ==> Types.Truthy(r.svc.key) && r.svc.key == r.svc.vault.storage.item
    ensures r.svc.vault.keychain == svc.vault.keychain
    ensures r.svc.vault.storage.item != svc.vault.storage.item ==> !Types.Truthy(svc.vault.storage.item) && r.svc.key == Some(k)
  {
    var s := svc.vault.storage;
    if !s.readOk then Step(svc, Failure(InitFailed))
    else if Types.Truthy(s.item) then Step(svc.(key := s.item), Success(()))
    else if s.writeOk then
      Step(Service(Some(k), svc.vault.(storage := s.(item := Some(k)))), Success(()))
    else Step(svc, Failure(InitFailed))
  }

  /** `initialize` fails exactly when the keychain path fails and the
      encrypted-storage fallback fails too. */
  predicate InitFails(v: Vault) {
    var keychainPathFails := !v.keychain.readOk || (v.keychain.item.None? && !v.keychain.writeOk && !v.storage.writeOk);
    keychainPathFails && !(v.storage.readOk && (Types.Truthy(v.storage.item) || v.storage.writeOk))
  }

  /** `initialize`: reuse the keychain credential; else generate a key and
      store it; and when the keychain cannot be read or the new key cannot
      be stored, fall back to encrypted storage. */
  function Initialize(svc: Service, draws: Draws): (r: Step<()>)
    ensures r.out.Failure? <==> InitFails(svc.vault)
    ensures r.out.Failure? ==> r.svc == svc && r.out.error == InitFailed
    ensures r.out.Success? ==> Persisted(r.svc)
    // an existing credential is reused and nothing is written
    ensures svc.vault.keychain.readOk && svc.vault.keychain.item.Some? ==>
              r == Step(svc.(key := svc.vault.keychain.item), Success(()))
    // with the keychain unreadable, a non-empty stored fallback key is reused
    ensures !svc.vault.keychain.readOk && svc.vault.storage.readOk && Types.Truthy(svc.vault.storage.item) ==>
              r == Step(svc.(key := svc.vault.storage.item), Success(()))
    // a new key is only ever one of the two draws
    ensures r.svc.key !in {svc.key, svc.vault.keychain.item, svc.vault.storage.item} ==>
              r.svc.key in {Some(draws.first), Some(draws.second)}
    // the keychain is only written when it held nothing
    ensures r.svc.vault.keychain.item != svc.vault.keychain.item ==>
              svc.vault.keychain.item.None? && r.svc.vault.keychain.item == Some(draws.first)
    // the in-memory key is empty only when the keychain credential is
    ensures r.out.Success? && !Types.Truthy(r.svc.key) ==> svc.vault.keychain.item == Some("")
  {
    var kc := svc.vault.keychain;
    if !kc.readOk then InitializeWithStorage(svc, draws.second)
    else if kc.item.Some? then Step(svc.(key := kc.item), Success(()))
    else
      var g := GenerateAndStore(svc, draws.first);
      if g.out.Success? then g else InitializeWithStorage(g.svc, draws.second)
  }

  /** The guard at the head of `encrypt` and `decrypt`: use the in-memory
      key, or lazily initialize, and give up when there is still no key. */
  function EnsureKey(svc: Service, draws: Draws): (r: Step<string>)
    ensures r.out.Success? <==> Types.Truthy(r.svc.key)
    ensures r.out.Success? ==> r.svc.key == Some(r.out.value)
    ensures r.out.Failure? ==> r.out.error == InitFailed || r.out.error == KeyUnavailable
    ensures Types.Truthy(svc.key) ==> r == Step(svc, Success(svc.key.value))
    ensures r.out.Success? && !Types.Truthy(svc.key) ==> Persisted(r.svc)
  {
    if Types.Truthy(svc.key) then Step(svc, Success(svc.key.value))
    else
      var i := Initialize(svc, draws);
      if i.out.Failure? then Step(i.svc, Failure(InitFailed))
      else if !Types.Truthy(i.svc.key) then Step(i.svc, Failure(KeyUnavailable))
      else Step(i.svc, Success(i.svc.key.value))
  }

  /** `encrypt`: a fresh IV for every call, combined as `hex(iv):ciphertext`. */
  function Encrypt(c: Cipher, svc: Service, draws: Draws, iv: Iv, plaintext: string): (r: Step<string>)
    ensures r.out.Failure? <==> !Types.Truthy(r.svc.key)
    ensures r.out.Failure? ==> r.out.error == InitFailed || r.out.error == KeyUnavailable
    ensures r.out.Success? ==> r.out.value == Seal(c, r.svc.key.value, iv, plaintext)
    ensures r.out.Success? ==> r.out.value[..32] == Hex(iv) && r.out.value[32] == ':'
    ensures Types.Truthy(svc.key) ==> r.svc == svc
  {
    var k := EnsureKey(svc, draws);
    match k.out
    case Failure(e) => Step(k.svc, Failure(e))
    case Success(key) => Step(k.svc, Success(Seal(c, key, iv, plaintext)))
  }

  /** `decrypt`: reject anything that does not split on ':' into exactly
      two parts; every failure past the key check is `DecryptFailed`. */
  function Decrypt(c: Cipher, svc: Service, draws: Draws, ciphertext: string): (r: Step<string>)
    ensures r.out.Success? ==> Types.Truthy(r.svc.key) && |Split(ciphertext, ':')| == 2
    ensures Types.Truthy(r.svc.key) && |Split(ciphertext, ':')| != 2 ==> r.out == Failure(DecryptFailed)
    ensures r.out.Failure? ==> r.out.error in {InitFailed, KeyUnavailable, DecryptFailed}
    ensures !Types.Truthy(r.svc.key) ==> r.out.Failure? && r.out.error != DecryptFailed
    ensures Types.Truthy(svc.key) ==> r.svc == svc
    ensures Types.Truthy(r.svc.key) ==>
              (r.out.Success? <==> Open(c, r.svc.key.value, ciphertext).Some?) &&
              (r.out.Success? ==> Open(c, r.svc.key.value, ciphertext) == Some(r.out.value))
  {
    var k := EnsureKey(svc, draws);
    match k.out
    case Failure(e) => Step(k.svc, Failure(e))
    case Success(key) =>
      match Open(c, key, ciphertext)
      case None => Step(k.svc, Failure(DecryptFailed))
      case Some(p) => Step(k.svc, Success(p))
  }

  /** The encrypt failure modes agree with decrypt's: with no key after
      lazy initialization, both report the same key error. */
  lemma NoKeySameError(c: Cipher, svc: Service, draws: Draws, iv: Iv, plaintext: string, ciphertext: string)
    ensures Encrypt(c, svc, draws, iv, plaintext).out.Failure? <==> Decrypt(c, svc, draws, ciphertext).out in {Failure(InitFailed), Failure(KeyUnavailable)}
    ensures Encrypt(c, svc, draws, iv, plaintext).out.Failure? ==>
              Encrypt(c, svc, draws, iv, plaintext).out == Decrypt(c, svc, draws, ciphertext).out
  {
    var e := Encrypt(c, svc, draws, iv, plaintext);
    var d := Decrypt(c, svc, draws, ciphertext);
    assert e.svc == d.svc;
  }

  /** Round trip: whatever `encrypt` returns, `decrypt` on the service it
      leaves behind returns the plaintext, without touching the service. */
  lemma EncryptDecrypt(c: Cipher, svc: Service, draws: Draws, draws': Draws, iv: Iv, plaintext: string)
    requires Sound(c)
    ensures var e := Encrypt(c, svc, draws, iv, plaintext);
            e.out.Success? ==> Decrypt(c, e.svc, draws', e.out.value) == Step(e.svc, Success(plaintext))
  {
    var e := Encrypt(c, svc, draws, iv, plaintext);
    if e.out.Success? {
      SealOpen(c, e.svc.key.value, iv, plaintext);
    }
  }

  /** With a key in memory, encryption cannot fail, so every string round-trips. */
  lemma EncryptDecryptKeyed(c: Cipher, svc: Service, draws: Draws, iv: Iv, plaintext: string)
    requires Sound(c) && Types.Truthy(svc.key)
    ensures Encrypt(c, svc, draws, iv, plaintext).out.Success?
    ensures Decrypt(c, svc, draws, Encrypt(c, svc, draws, iv, plaintext).out.value).out == Success(plaintext)
  {
    EncryptDecrypt(c, svc, draws, draws, iv, plaintext);
  }

  // ---------------------------------------------------------------------
  // Objects, hashes and random tokens
  // ---------------------------------------------------------------------

  /** `JSON.stringify` / `JSON.parse` for one value type. */
  datatype Codec<!T> = Codec(ser: T -> string, parse: string -> Option<T>)

  ghost predicate Lossless<T(!new)>(j: Codec<T>) {
    forall x: T {:trigger j.ser(x)} :: j.parse(j.ser(x)) == Some(x)
  }

  function EncryptObject<T>(c: Cipher, j: Codec<T>, svc: Service, draws: Draws, iv: Iv, x: T): Step<string> {
    Encrypt(c, svc, draws, iv, j.ser(x))
  }

  function DecryptObject<T>(c: Cipher, j: Codec<T>, svc: Service, draws: Draws, ciphertext: string): (r: Step<T>)
    ensures r.svc == Decrypt(c, svc, draws, ciphertext).svc
    ensures r.out.Success? ==> Decrypt(c, svc, draws, ciphertext).out.Success?
  {
    var d := Decrypt(c, svc, draws, ciphertext);
    match d.out
    case Failure(e) => Step(d.svc, Failure(e))
    case Success(text) =>
      match j.parse(text)
      case None => Step(d.svc, Failure(ParseFailed))
      case Some(v) => Step(d.svc, Success(v))
  }

  /** Objects round-trip through `encryptObject`/`decryptObject` whenever the
      JSON encoding of their type is lossless. */
  lemma ObjectRoundTrip<T(!new)>(c: Cipher, j: Codec<T>, svc: Service, draws: Draws, iv: Iv, x: T)
    requires Sound(c) && Lossless(j)
    ensures var e := EncryptObject(c, j, svc, draws, iv, x);
            e.out.Success? ==> DecryptObject(c, j, e.svc, draws, e.out.value) == Step(e.svc, Success(x))
  {
    EncryptDecrypt(c, svc, draws, draws, iv, j.ser(x));
    assert j.parse(j.ser(x)) == Some(x);
  }

  /** `verifyHash`: the hash of the plaintext equals the given hash. */
  function VerifyHash(hash: string -> string, plaintext: string, h: string): bool {
    hash(plaintext) == h
  }

  /** A value always verifies against its own hash, and against no hash
      that differs from it. */
  lemma VerifyOwnHash(hash: string -> string, plaintext: string, h: string)
    ensures VerifyHash(hash, plaintext, hash(plaintext))
    ensures h != hash(plaintext) ==> !VerifyHash(hash, plaintext, h)
  {
  }

  predicate IsB64Char(ch: char) {
    ('A' <= ch <= 'Z') || ('a' <= ch <= 'z') || ('0' <= ch <= '9') || ch == '+' || ch == '/'
  }

  /** Standard padded Base64 text ending in exactly `pad` '=' characters. */
  predicate PaddedBase64(s: string, pad: nat) {
    pad <= 2 && pad <= |s| && |s| % 4 == 0 &&
    (forall i :: 0 <= i < |s| - pad ==> IsB64Char(s[i])) &&
    (forall i :: |s| - pad <= i < |s| ==> s[i] == '=')
  }

  function UrlChar(ch: char): char {
    if ch == '+' then '-' else if ch == '/' then '_' else ch
  }

  /** The three replacements of `generateSecureRandom`: '+' to '-', '/' to
      '_', and every '=' dropped. */
  function UrlSafe(s: string): (r: string)
    ensures '+' !in r && '/' !in r && '=' !in r
    ensures |r| <= |s|
  {
    if s == [] then []
    else (if s[0] == '=' then [] else [UrlChar(s[0])]) + UrlSafe(s[1..])
  }

  function StdChar(ch: char): char {
    if ch == '-' then '+' else if ch == '_' then '/' else ch
  }

  /** The inverse mapping: back to the standard alphabet, re-padded to a
      multiple of four. */
  function Restore(u: string): string {
    seq(|u|, i requires 0 <= i < |u| => StdChar(u[i])) + seq((4 - |u| % 4) % 4, _ => '=')
  }

  lemma UrlSafeAppend(a: string, b: string)
    ensures UrlSafe(a + b) == UrlSafe(a) + UrlSafe(b)
  {
    if a != [] {
      assert (a + b)[1..] == a[1..] + b;
      UrlSafeAppend(a[1..], b);
    } else {
      assert a + b == b;
    }
  }

  lemma {:induction false} UrlSafeBody(s: string)
    requires forall i :: 0 <= i < |s| ==> IsB64Char(s[i])
    ensures |UrlSafe(s)| == |s|
    ensures forall i :: 0 <= i < |s| ==> UrlSafe(s)[i] == UrlChar(s[i])
  {
    if s != [] {
      UrlSafeBody(s[1..]);
    }
  }

  lemma {:induction false} UrlSafePadding(n: nat)
    ensures UrlSafe(seq(n, _ => '=')) == []
  {
    if n > 0 {
      assert seq(n, _ => '=')[1..] == seq(n - 1, _ => '=');
      UrlSafePadding(n - 1);
    }
  }

  lemma PadCount(len: nat, pad: nat)
    requires len % 4 == 0 && pad <= 2 && pad <= len
    ensures (4 - (len - pad) % 4) % 4 == pad
  {
  }

  lemma {:induction false} RestoreBody(body: string)
    requires forall i :: 0 <= i < |body| ==> IsB64Char(body[i])
    ensures seq(|UrlSafe(body)|, i requires 0 <= i < |UrlSafe(body)| => StdChar(UrlSafe(body)[i])) == body
  {
    UrlSafeBody(body);
  }

  /** The token loses no information: standard Base64 is recovered from it. */
  lemma RestoreUrlSafe(s: string, pad: nat)
    requires PaddedBase64(s, pad)
    ensures Restore(UrlSafe(s)) == s
  {
    var body := s[..|s| - pad];
    var tail := s[|s| - pad..];
    assert s == body + tail;
    assert tail == seq(pad, _ => '=');
    UrlSafeAppend(body, tail);
    UrlSafePadding(pad);
    assert UrlSafe(s) == UrlSafe(body);
    UrlSafeBody(body);
    RestoreBody(body);
    PadCount(|s|, pad);
  }

  // ---------------------------------------------------------------------
  // Key store maintenance
  // ---------------------------------------------------------------------

  /** `getStoredKey`: the keychain credential if the keychain can be read;
      only a keychain that throws sends the lookup to encrypted storage. */
  function GetStoredKey(v: Vault): (r: Result<string, EncError>)
    ensures v.keychain.readOk ==> (r.Success? <==> v.keychain.item.Some?)
    ensures v.keychain.readOk && r.Success? ==> Some(r.value) == v.keychain.item
    ensures !v.keychain.readOk && r.Success? ==> Some(r.value) == v.storage.item && r.value != ""
    ensures !v.keychain.readOk ==> (r.Success? <==> v.storage.readOk && Types.Truthy(v.storage.item))
    ensures r.Failure? ==> r.error == NoStoredKey || (r.error == VaultError && !v.keychain.readOk && !v.storage.readOk)
  {
    if v.keychain.readOk then
      if v.keychain.item.Some? then Success(v.keychain.item.value) else Failure(NoStoredKey)
    else if !v.storage.readOk then Failure(VaultError)
    else if Types.Truthy(v.storage.item) then Success(v.storage.item.value)
    else Failure(NoStoredKey)
  }

  /** `clearKeys`: reset the keychain, then remove the stored key, then
      forget the in-memory key; a failing step swallows the error and
      skips the rest. */
  function ClearKeys(svc: Service): (r: Service)
    ensures r.key == svc.key || r.key.None?
    ensures r.vault.keychain.item == (if svc.vault.keychain.writeOk then None else svc.vault.keychain.item)
    ensures r.vault.storage.item.None? <==> (svc.vault.keychain.writeOk && svc.vault.storage.writeOk) || svc.vault.storage.item.None?
    ensures r.vault.storage.item.Some? ==> r.vault.storage.item == svc.vault.storage.item
    // the key is only forgotten once both backends are cleared
    ensures r.key.None? ==> (r.vault.keychain.item.None? && r.vault.storage.item.None?) || svc.key.None?
  {
    var v := svc.vault;
    if !v.keychain.writeOk then svc
    else
      var v1 := v.(keychain := v.keychain.(item := None));
      if !v.storage.writeOk then svc.(vault := v1)
      else Service(None, v1.(storage := v1.storage.(item := None)))
  }

  /** When both removals succeed, nothing of the old key remains: the key
      is gone from memory, `getStoredKey` finds none, and the next
      initialization stores a freshly drawn key. */
  lemma ClearThenRestart(svc: Service, draws: Draws)
    requires svc.vault.keychain.writeOk && svc.vault.storage.writeOk
    ensures var r := ClearKeys(svc);
            r.key.None? && GetStoredKey(r.vault).Failure? &&
            (r.vault.keychain.readOk || r.vault.storage.readOk ==> GetStoredKey(r.vault) == Failure(NoStoredKey))
    ensures var i := Initialize(ClearKeys(svc), draws);
            i.out.Success? ==> i.svc.key in {Some(draws.first), Some(draws.second)}
  {
  }

  // ---------------------------------------------------------------------
  // Key rotation
  // ---------------------------------------------------------------------

  /** The loop of `rotateKey`: for each item, decrypt with the old key, then
      encrypt with the key `getStoredKey` reads back. `ivAt(n)` is the IV
      the n-th encryption draws. */
  function Reencrypt(c: Cipher, oldKey: Option<string>, svc: Service, draws: Draws,
                     ivAt: nat -> Iv, items: seq<string>, n: nat): (r: Step<seq<string>>)
    ensures r.out.Success? ==> |r.out.value| == |items|
    ensures Types.Truthy(oldKey) ==> r.svc.vault == svc.vault
    ensures r.out.Success? && |items| == 0 ==> r.svc == svc
    ensures Types.Truthy(oldKey) && r.out.Success? && |items| > 0 ==>
              GetStoredKey(svc.vault).Success? && r.svc.key == Some(GetStoredKey(svc.vault).value) &&
              Types.Truthy(r.svc.key)
    decreases |items|
  {
    if items == [] then Step(svc, Success([]))
    else
      var d := Decrypt(c, svc.(key := oldKey), draws, items[0]);
      if d.out.Failure? then Step(d.svc, Failure(d.out.error))
      else match GetStoredKey(d.svc.vault)
        case Failure(e) => Step(d.svc, Failure(e))
        case Success(k) =>
          var e := Encrypt(c, d.svc.(key := Some(k)), draws, ivAt(n), d.out.value);
          if e.out.Failure? then Step(e.svc, Failure(e.out.error))
          else
            var rest := Reencrypt(c, oldKey, e.svc, draws, ivAt, items[1..], n + 1);
            if rest.out.Failure? then rest
            else Step(rest.svc, Success([e.out.value] + rest.out.value))
  }

  /** `rotateKey`: generate and persist a new key, re-encrypt every item,
      and on any failure put the old in-memory key back and rethrow. */
  function RotateKey(c: Cipher, svc: Service, draws: Draws, newKey: KeyText,
                     ivAt: nat -> Iv, data: seq<string>): (r: Step<seq<string>>)
    ensures r.out.Failure? ==> r.svc.key == svc.key
    ensures r.out.Success? ==> |r.out.value| == |data|
    // the new key is persisted before any item is touched, and a failure
    // does not take it back
    ensures Types.Truthy(svc.key) && (svc.vault.keychain.writeOk || svc.vault.storage.writeOk) ==>
              r.svc.vault.keychain.item == Some(newKey) || r.svc.vault.storage.item == Some(newKey)
  {
    var g := GenerateAndStore(svc, newKey);
    if g.out.Failure? then Step(g.svc.(key := svc.key), Failure(g.out.error))
    else
      var re := Reencrypt(c, svc.key, g.svc, draws, ivAt, data, 0);
      if re.out.Failure? then Step(re.svc.(key := svc.key), Failure(re.out.error))
      else re
  }

  /** Every re-encrypted item opens, under the key the service ends with,
      to the plaintext its input opened to under the old key. */
  lemma {:induction false} ReencryptOpens(c: Cipher, oldKey: Option<string>, svc: Service, draws: Draws,
                                          ivAt: nat -> Iv, items: seq<string>, n: nat)
    requires Sound(c) && Types.Truthy(oldKey)
    ensures var r := Reencrypt(c, oldKey, svc, draws, ivAt, items, n);
            r.out.Success? && |items| > 0 ==>
              forall i :: 0 <= i < |items| ==>
                Open(c, oldKey.value, items[i]).Some? &&
                Open(c, r.svc.key.value, r.out.value[i]) == Open(c, oldKey.value, items[i])
    decreases |items|
  {
    var r := Reencrypt(c, oldKey, svc, draws, ivAt, items, n);
    if items != [] && r.out.Success? {
      var d := Decrypt(c, svc.(key := oldKey), draws, items[0]);
      var k := GetStoredKey(d.svc.vault).value;
      var e := Encrypt(c, d.svc.(key := Some(k)), draws, ivAt(n), d.out.value);
      var rest := Reencrypt(c, oldKey, e.svc, draws, ivAt, items[1..], n + 1);
      assert r.out.value == [e.out.value] + rest.out.value;
      SealOpen(c, k, ivAt(n), d.out.value);
      ReencryptOpens(c, oldKey, e.svc, draws, ivAt, items[1..], n + 1);
      assert r.svc.key == Some(k);
      forall i | 0 <= i < |items|
        ensures Open(c, oldKey.value, items[i]).Some?
        ensures Open(c, r.svc.key.value, r.out.value[i]) == Open(c, oldKey.value, items[i])
      {
        if i > 0 {
          assert items[i] == items[1..][i - 1];
          assert r.out.value[i] == rest.out.value[i - 1];
        }
      }
    }
  }

  /** A successful rotation keeps length and order, and item i of the
      output decrypts under the service's new key to the plaintext of item
      i of the input. */
  lemma RotateKeySuccess(c: Cipher, svc: Service, draws: Draws, newKey: KeyText, ivAt: nat -> Iv, data: seq<string>)
    requires Sound(c) && Types.Truthy(svc.key)
    ensures var r := RotateKey(c, svc, draws, newKey, ivAt, data);
            r.out.Success? ==>
              |r.out.value| == |data| && Types.Truthy(r.svc.key) && Persisted(r.svc) &&
              forall i :: 0 <= i < |data| ==>
                Decrypt(c, svc, draws, data[i]).out.Success? &&
                Decrypt(c, r.svc, draws, r.out.value[i]).out == Decrypt(c, svc, draws, data[i]).out
  {
    var r := RotateKey(c, svc, draws, newKey, ivAt, data);
    var g := GenerateAndStore(svc, newKey);
    if r.out.Success? {
      ReencryptOpens(c, svc.key, g.svc, draws, ivAt, data, 0);
      assert svc.(key := svc.key) == svc;
      if |data| > 0 {
        var k := GetStoredKey(g.svc.vault);
        assert r.svc.key == Some(k.value);
      }
    }
  }

  /** As written, a rotation that fails part-way puts the old key back in
      memory while the vault keeps the new one: after a restart the service
      picks up a key that none of the data was encrypted under. */
  lemma RotateKeyFailureDiverges(c: Cipher, svc: Service, draws: Draws, newKey: KeyText,
                                 ivAt: nat -> Iv, data: seq<string>)
    requires Types.Truthy(svc.key) && svc.key != Some(newKey)
    requires svc.vault.keychain.readOk && svc.vault.keychain.writeOk
    requires |data| > 0 && Open(c, svc.key.value, data[0]).None?
    ensures var r := RotateKey(c, svc, draws, newKey, ivAt, data);
            r.out == Failure(DecryptFailed) && r.svc.key == svc.key &&
            Initialize(Service(None, r.svc.vault), draws).svc.key == Some(newKey) &&
            Initialize(Service(None, r.svc.vault), draws).svc.key != r.svc.key
  {
  }

  /** A concrete instance: an item stored before encryption was enabled
      (no ':' in it) makes the rotation fail after the keychain was
      overwritten. */
  lemma RotateKeyFailureExample(c: Cipher, draws: Draws, ivAt: nat -> Iv)
    ensures var svc := Service(Some("old"), Vault(Backend(Some("old"), true, true), Backend(None, true, true)));
            var r := RotateKey(c, svc, draws, "new", ivAt, ["plain"]);
            r.out.Failure? && r.svc.key == Some("old") && r.svc.vault.keychain.item == Some("new")
  {
    CountAbsent("plain", ':');
  }

  /** Re-encryption under two known keys, all in memory: `None` as soon as
      one item does not decrypt under the old key. */
  function ReencryptUnder(c: Cipher, oldKey: string, newKey: string, ivAt: nat -> Iv,
                          items: seq<string>, n: nat): (r: Option<seq<string>>)
    ensures r.Some? ==> |r.value| == |items|
    ensures r.None? ==> exists i :: 0 <= i < |items| && Open(c, oldKey, items[i]).None?
    decreases |items|
  {
    if items == [] then Some([])
    else match (Open(c, oldKey, items[0]), ReencryptUnder(c, oldKey, newKey, ivAt, items[1..], n + 1))
      case (Some(p), Some(rest)) => Some([Seal(c, newKey, ivAt(n), p)] + rest)
      case (None, _) => None
      case (_, None) =>
        var i :| 0 <= i < |items[1..]| && Open(c, oldKey, items[1..][i]).None?;
        assert items[i + 1] == items[1..][i];
        None
  }

  /** Corrected rotation: re-encrypt everything first and persist the new
      key only when every item succeeded, so a failure changes nothing. */
  function RotateKeyAtomic(c: Cipher, svc: Service, newKey: KeyText, ivAt: nat -> Iv,
                           data: seq<string>): (r: Step<seq<string>>)
    ensures r.out.Failure? ==> r.svc == svc
    ensures r.out.Success? ==> r.svc.key == Some(newKey) && Persisted(r.svc) && |r.out.value| == |data|
    ensures (Types.Truthy(svc.key) && (svc.vault.keychain.writeOk || svc.vault.storage.writeOk) &&
             forall i :: 0 <= i < |data| ==> Open(c, svc.key.value, data[i]).Some?) ==> r.out.Success?
  {
    if !Types.Truthy(svc.key) then Step(svc, Failure(KeyUnavailable))
    else match ReencryptUnder(c, svc.key.value, newKey, ivAt, data, 0)
      case None => Step(svc, Failure(DecryptFailed))
      case Some(out) =>
        var g := GenerateAndStore(svc, newKey);
        if g.out.Failure? then Step(svc, Failure(g.out.error))
        else Step(g.svc, Success(out))
  }

  lemma {:induction false} ReencryptUnderOpens(c: Cipher, oldKey: string, newKey: string, ivAt: nat -> Iv,
                                               items: seq<string>, n: nat)
    requires Sound(c)
    ensures var r := ReencryptUnder(c, oldKey, newKey, ivAt, items, n);
            r.Some? ==> forall i :: 0 <= i < |items| ==>
              Open(c, oldKey, items[i]).Some? && Open(c, newKey, r.value[i]) == Open(c, oldKey, items[i])
    decreases |items|
  {
    var r := ReencryptUnder(c, oldKey, newKey, ivAt, items, n);
    if items != [] && r.Some? {
      var p := Open(c, oldKey, items[0]).value;
      var rest := ReencryptUnder(c, oldKey, newKey, ivAt, items[1..], n + 1);
      SealOpen(c, newKey, ivAt(n), p);
      ReencryptUnderOpens(c, oldKey, newKey, ivAt, items[1..], n + 1);
      forall i | 0 <= i < |items|
        ensures Open(c, oldKey, items[i]).Some?
        ensures Open(c, newKey, r.value[i]) == Open(c, oldKey, items[i])
      {
        if i > 0 {
          assert items[i] == items[1..][i - 1];
          assert r.value[i] == rest.value[i - 1];
        }
      }
    }
  }

  /** The corrected rotation keeps memory and vault in step: after success
      the new key is both in memory and persisted, and every output opens
      under it to the plaintext of the matching input. */
  lemma RotateKeyAtomicCorrect(c: Cipher, svc: Service, newKey: KeyText, ivAt: nat -> Iv, data: seq<string>)
    requires Sound(c)
    ensures var r := RotateKeyAtomic(c, svc, newKey, ivAt, data);
            r.out.Success? ==>
              Persisted(r.svc) &&
              forall i :: 0 <= i < |data| ==>
                Open(c, svc.key.value, data[i]).Some? &&
                Open(c, newKey, r.out.value[i]) == Open(c, svc.key.value, data[i])
  {
    if Types.Truthy(svc.key) {
      ReencryptUnderOpens(c, svc.key.value, newKey, ivAt, data, 0);
    }
  }
}

=== FILE: journal.dfy ===
/** The journal orchestrator (src/contexts/JournalContext.tsx): the
    in-memory list of entries, kept in plaintext, over the record store,
    which holds `clientIdentifier`, `sessionNotes` and message contents as
    ciphertext. Every call threads the encryption service's state, because
    the first encryption or decryption may initialise its key. */
module Journal {
  import opened Wrappers
  import opened Types
  import opened Text
  import Seqs
  import Encryption
  import Database
  import SqlLike

  /** The context's state: `entries`, `currentEntry`, the store and the
      encryption service. */
  datatype State = State(
    entries: seq<JournalEntry>,
    current: Option<JournalEntry>,
    db: Database.Db,
    svc: Encryption.Service)

  /** The cipher and the keys a lazy initialisation would draw. */
  datatype Env = Env(cipher: Encryption.Cipher, draws: Encryption.Draws)

  /** What a context call rethrows: an encryption error or a failed
      statement. */
  datatype JournalError = Crypto(reason: Encryption.EncError) | Storage(failure: Database.DbError)

  // ---------------------------------------------------------------------
  // Sealing and opening the two sensitive fields
  // ---------------------------------------------------------------------

  /** An entry as stored: both sensitive fields sealed under `key`. */
  function Sealed(c: Encryption.Cipher, key: string, iv1: Encryption.Iv, iv2: Encryption.Iv, e: JournalEntry): (r: JournalEntry)
    ensures r.(clientIdentifier := e.clientIdentifier, sessionNotes := e.sessionNotes) == e
    ensures IsPrefix(Encryption.Hex(iv1), r.clientIdentifier)
  {
    e.(clientIdentifier := Encryption.Seal(c, key, iv1, e.clientIdentifier),
       sessionNotes := Encryption.Seal(c, key, iv2, e.sessionNotes))
  }

  /** An entry with both sensitive fields opened under `key`, or `None` if
      either does not open. */
  function Opened(c: Encryption.Cipher, key: string, e: JournalEntry): (r: Option<JournalEntry>)
    ensures r.Some? <==>
              Encryption.Open(c, key, e.clientIdentifier).Some? && Encryption.Open(c, key, e.sessionNotes).Some?
    ensures r.Some? ==>
              r.value.(clientIdentifier := e.clientIdentifier, sessionNotes := e.sessionNotes) == e &&
              Encryption.Open(c, key, e.clientIdentifier) == Some(r.value.clientIdentifier) &&
              Encryption.Open(c, key, e.sessionNotes) == Some(r.value.sessionNotes)
  {
    match (Encryption.Open(c, key, e.clientIdentifier), Encryption.Open(c, key, e.sessionNotes))
    case (Some(ci), Some(notes)) => Some(e.(clientIdentifier := ci, sessionNotes := notes))
    case _ => None
  }

  /** Under a sound cipher, a sealed entry opens to itself. */
  lemma OpenSealed(c: Encryption.Cipher, key: string, iv1: Encryption.Iv, iv2: Encryption.Iv, e: JournalEntry)
    ensures Encryption.Sound(c) ==> Opened(c, key, Sealed(c, key, iv1, iv2, e)) == Some(e)
  {
    if Encryption.Sound(c) {
      Encryption.SealOpen(c, key, iv1, e.clientIdentifier);
      Encryption.SealOpen(c, key, iv2, e.sessionNotes);
    }
  }

  /** Decrypting one entry: `clientIdentifier`, then `sessionNotes`; the
      first failure is thrown. */
  function RevealEntry(env: Env, svc: Encryption.Service, e: JournalEntry): (r: Encryption.Step<JournalEntry>)
    ensures r.out.Success? ==> Truthy(r.svc.key) && Opened(env.cipher, r.svc.key.value, e) == Some(r.out.value)
    ensures Truthy(r.svc.key) && r.out.Failure? ==> Opened(env.cipher, r.svc.key.value, e).None?
    ensures Truthy(svc.key) ==> r.svc == svc
  {
    var d1 := Encryption.Decrypt(env.cipher, svc, env.draws, e.clientIdentifier);
    match d1.out
    case Failure(err) => Encryption.Step(d1.svc, Failure(err))
    case Success(ci) =>
      var d2 := Encryption.Decrypt(env.cipher, d1.svc, env.draws, e.sessionNotes);
      match d2.out
      case Failure(err) => Encryption.Step(d2.svc, Failure(err))
      case Success(notes) => Encryption.Step(d2.svc, Success(e.(clientIdentifier := ci, sessionNotes := notes)))
  }

  // ---------------------------------------------------------------------
  // loadEntries
  // ---------------------------------------------------------------------

  /** The mapping step of `loadEntries`: each entry decrypted, or kept as
      stored when its decryption throws. */
  function RevealOrKeep(env: Env, svc: Encryption.Service, es: seq<JournalEntry>): (r: (Encryption.Service, seq<JournalEntry>))
    ensures |r.1| == |es|
    ensures forall i :: 0 <= i < |es| ==> r.1[i].id == es[i].id && r.1[i].sessionDate == es[i].sessionDate
    ensures forall i :: 0 <= i < |es| ==>
              r.1[i] == es[i] || (Truthy(r.0.key) && Opened(env.cipher, r.0.key.value, es[i]) == Some(r.1[i]))
    // with a key already in memory, the outcome is exactly "opens, or kept"
    ensures Truthy(svc.key) ==> r.0 == svc
    ensures Truthy(svc.key) ==>
              forall i :: 0 <= i < |es| ==> r.1[i] == Opened(env.cipher, svc.key.value, es[i]).GetOr(es[i])
    decreases |es|
  {
    if es == [] then (svc, [])
    else
      var h := RevealEntry(env, svc, es[0]);
      var head := if h.out.Success? then h.out.value else es[0];
      var rest := RevealOrKeep(env, h.svc, es[1..]);
      (rest.0, [head] + rest.1)
  }

  /** A stable sort by `sessionDate`, most recent first (the comparator
      `b - a`): each entry is placed before the first one not later than it. */
  function SortByDateDesc(es: seq<JournalEntry>): (r: seq<JournalEntry>)
    ensures Database.SortedDesc(r)
    decreases |es|
  {
    if es == [] then [] else Database.InsertByDate(SortByDateDesc(es[1..]), es[0])
  }

  /** The sort is a permutation. */
  lemma {:induction false} SortPermutes(es: seq<JournalEntry>)
    ensures multiset(SortByDateDesc(es)) == multiset(es)
    decreases |es|
  {
    if es != [] {
      SortPermutes(es[1..]);
      assert es == [es[0]] + es[1..];
    }
  }

  /** Sorting entries that are already in order changes nothing. */
  lemma {:induction false} SortSortedIsIdentity(es: seq<JournalEntry>)
    requires Database.SortedDesc(es)
    ensures SortByDateDesc(es) == es
    decreases |es|
  {
    if es != [] {
      var tail := es[1..];
      assert Database.SortedDesc(tail) by {
        forall i, j | 0 <= i < j < |tail| ensures tail[i].sessionDate >= tail[j].sessionDate {
          assert tail[i] == es[i + 1] && tail[j] == es[j + 1];
        }
      }
      SortSortedIsIdentity(tail);
      assert tail == [] || tail[0].sessionDate <= es[0].sessionDate;
      assert [es[0]] + tail == es;
    }
  }

  /** A list matching every row of the table, one for one by id and date,
      is in date order and names every row exactly once. */
  lemma SameKeysSameOrder(db: Database.Db, loaded: seq<JournalEntry>, es: seq<JournalEntry>)
    requires Database.SortedDesc(loaded) && Database.DistinctIds(loaded)
    requires forall e :: e in loaded <==> e.id in db.entries && e == Database.ParseEntry(e.id, db.entries[e.id])
    requires |es| == |loaded|
    requires forall i :: 0 <= i < |loaded| ==> es[i].id == loaded[i].id && es[i].sessionDate == loaded[i].sessionDate
    ensures Database.SortedDesc(es) && Database.DistinctIds(es)
    ensures forall i :: 0 <= i < |es| ==>
              es[i].id in db.entries && loaded[i] == Database.ParseEntry(es[i].id, db.entries[es[i].id])
    ensures forall id :: id in db.entries <==> exists i :: 0 <= i < |es| && es[i].id == id
  {
    forall i | 0 <= i < |es|
      ensures es[i].id in db.entries && loaded[i] == Database.ParseEntry(es[i].id, db.entries[es[i].id])
    {
      assert loaded[i] in loaded;
    }
    forall id | id in db.entries
      ensures exists i :: 0 <= i < |es| && es[i].id == id
    {
      var e := Database.ParseEntry(id, db.entries[id]);
      assert e in loaded;
      var i :| 0 <= i < |loaded| && loaded[i] == e;
      assert es[i].id == id;
    }
  }

  /** Each entry of a list that opens or keeps the table's rows one for one
      is its row, opened or kept. */
  lemma OpenedOrKept(c: Encryption.Cipher, svc0: Encryption.Service, svc: Encryption.Service, db: Database.Db,
                     loaded: seq<JournalEntry>, es: seq<JournalEntry>)
    requires |es| == |loaded|
    requires forall i :: 0 <= i < |es| ==>
               es[i].id in db.entries && loaded[i] == Database.ParseEntry(es[i].id, db.entries[es[i].id])
    requires forall i :: 0 <= i < |loaded| ==>
               es[i] == loaded[i] || (Truthy(svc.key) && Opened(c, svc.key.value, loaded[i]) == Some(es[i]))
    requires Truthy(svc0.key) ==> svc == svc0
    requires Truthy(svc0.key) ==>
               forall i :: 0 <= i < |loaded| ==> es[i] == Opened(c, svc0.key.value, loaded[i]).GetOr(loaded[i])
    ensures forall i :: 0 <= i < |es| ==>
              var raw := Database.ParseEntry(es[i].id, db.entries[es[i].id]);
              es[i] == raw || (Truthy(svc.key) && Opened(c, svc.key.value, raw) == Some(es[i]))
    ensures Truthy(svc0.key) ==>
              forall i :: 0 <= i < |es| ==>
                var raw := Database.ParseEntry(es[i].id, db.entries[es[i].id]);
                es[i] == Opened(c, svc0.key.value, raw).GetOr(raw)
  {
  }

  /** `loadEntries`: every stored entry, decrypted where it decrypts, most
      recent session first. */
  method LoadEntries(env: Env, st: State) returns (r: State)
    ensures r.db == st.db && r.current == st.current
    ensures Database.SortedDesc(r.entries) && Database.DistinctIds(r.entries)
    ensures forall id :: id in st.db.entries <==> exists i :: 0 <= i < |r.entries| && r.entries[i].id == id
    ensures forall i :: 0 <= i < |r.entries| ==>
              var raw := Database.ParseEntry(r.entries[i].id, st.db.entries[r.entries[i].id]);
              r.entries[i] == raw ||
              (Truthy(r.svc.key) && Opened(env.cipher, r.svc.key.value, raw) == Some(r.entries[i]))
    ensures Truthy(st.svc.key) ==> r.svc == st.svc
    ensures Truthy(st.svc.key) ==>
              forall i :: 0 <= i < |r.entries| ==>
                var raw := Database.ParseEntry(r.entries[i].id, st.db.entries[r.entries[i].id]);
                r.entries[i] == Opened(env.cipher, st.svc.key.value, raw).GetOr(raw)
  {
    var loaded := Database.GetAllEntries(st.db);
    var revealed := RevealOrKeep(env, st.svc, loaded);
    var es := revealed.1;
    SameKeysSameOrder(st.db, loaded, es);
    OpenedOrKept(env.cipher, st.svc, revealed.0, st.db, loaded, es);
    SortSortedIsIdentity(es);
    var sorted := SortByDateDesc(es);
    r := State(sorted, st.current, st.db, revealed.0);
  }

  // ---------------------------------------------------------------------
  // createEntry, getEntry
  // ---------------------------------------------------------------------

  /** The key in memory, `""` when there is none. */
  function KeyOf(svc: Encryption.Service): string {
    svc.key.GetOr("")
  }

  /** Every stored entry opens under `key`. */
  ghost predicate AllOpen(c: Encryption.Cipher, key: string, db: Database.Db) {
    forall id :: id in db.entries ==> Opened(c, key, Database.ParseEntry(id, db.entries[id])).Some?
  }

  /** The entry `createEntry` builds from the caller's fields. */
  function NewEntry(d: EntryDraft, id: string, now: Millis): (e: JournalEntry)
    ensures e.id == id && e.createdAt == now && e.updatedAt == now
  {
    JournalEntry(id, d.clientIdentifier, d.sessionDate, d.sessionNotes, d.emotionalState, d.tags,
                 now, now, d.aiConversationId)
  }

  /** `createEntry(entryData)`: seal both sensitive fields, insert, and put
      the plaintext entry first in memory; the id and `now` come from the
      caller (`uuid.v4()`, the clock). */
  function CreateEntry(env: Env, st: State, d: EntryDraft, id: string, now: Millis,
                       iv1: Encryption.Iv, iv2: Encryption.Iv): (r: (State, Result<string, JournalError>))
    ensures r.1.Success? <==> Truthy(r.0.svc.key) && id !in st.db.entries
    ensures r.1.Success? ==> r.1.value == id && r.0.entries == [NewEntry(d, id, now)] + st.entries
    ensures r.1.Failure? ==> r.0.entries == st.entries && r.0.db == st.db
    ensures r.0.current == st.current
    ensures r.0.db.entries - {id} == st.db.entries - {id}
    ensures r.0.db.conversations == st.db.conversations && r.0.db.settings == st.db.settings
    // what reaches the store is ciphertext under the fresh IVs ...
    ensures r.1.Success? ==> id in r.0.db.entries && IsPrefix(Encryption.Hex(iv1), r.0.db.entries[id].clientIdentifier)
    // ... that opens to the entry, with an empty link stored as null
    ensures r.1.Success? && Encryption.Sound(env.cipher) ==>
              Opened(env.cipher, KeyOf(r.0.svc), Database.ParseEntry(id, r.0.db.entries[id])) ==
                Some(Database.Normalize(NewEntry(d, id, now)))
    ensures Truthy(st.svc.key) ==> r.0.svc == st.svc
  {
    var e1 := Encryption.Encrypt(env.cipher, st.svc, env.draws, iv1, d.clientIdentifier);
    if e1.out.Failure? then (st.(svc := e1.svc), Failure(Crypto(e1.out.error)))
    else
      var e2 := Encryption.Encrypt(env.cipher, e1.svc, env.draws, iv2, d.sessionNotes);
      var entry := NewEntry(d, id, now);
      var sealed := Sealed(env.cipher, KeyOf(e2.svc), iv1, iv2, entry);
      match Database.CreateEntry(st.db, sealed)
      case Failure(err) => (st.(svc := e2.svc), Failure(Storage(err)))
      case Success(db) =>
        OpenSealed(env.cipher, KeyOf(e2.svc), iv1, iv2, Database.Normalize(entry));
        (State([entry] + st.entries, st.current, db, e2.svc), Success(id))
  }

  /** `getEntry(id)`: the stored entry decrypted, or null when it is
      missing or does not decrypt. */
  function GetEntry(env: Env, st: State, id: string): (r: (Encryption.Service, Option<JournalEntry>))
    ensures r.1.Some? ==>
              id in st.db.entries && Truthy(r.0.key) &&
              Opened(env.cipher, KeyOf(r.0), Database.ParseEntry(id, st.db.entries[id])) == r.1
    ensures id !in st.db.entries ==> r == (st.svc, None)
    ensures Truthy(st.svc.key) ==> r.0 == st.svc
    ensures Truthy(st.svc.key) && id in st.db.entries ==>
              r.1 == Opened(env.cipher, KeyOf(st.svc), Database.ParseEntry(id, st.db.entries[id]))
  {
    match Database.GetEntry(st.db, id)
    case None => (st.svc, None)
    case Some(e) =>
      var d := RevealEntry(env, st.svc, e);
      if d.out.Success? then (d.svc, Some(d.out.value)) else (d.svc, None)
  }

  /** What `createEntry` stores, `getEntry` gives back, with an empty
      conversation link read as null. */
  lemma CreateThenGet(env: Env, st: State, d: EntryDraft, id: string, now: Millis,
                      iv1: Encryption.Iv, iv2: Encryption.Iv)
    requires Encryption.Sound(env.cipher)
    ensures var c := CreateEntry(env, st, d, id, now, iv1, iv2);
            c.1.Success? ==> GetEntry(env, c.0, id) == (c.0.svc, Some(Database.Normalize(NewEntry(d, id, now))))
  {
  }

  // ---------------------------------------------------------------------
  // updateEntry, deleteEntry
  // ---------------------------------------------------------------------

  /** `{ ...entry, ...updates, updatedAt }` for the fields a patch can carry. */
  function Patched(e: JournalEntry, p: Database.EntryPatch, now: Millis): (r: JournalEntry)
    ensures r.id == e.id && r.createdAt == e.createdAt && r.updatedAt == now
  {
    Database.ParseEntry(e.id, Database.ApplyPatch(Database.RowOf(e), p, now))
  }

  /** `prev.map(...)`: the entries with that id patched, the rest as they were. */
  function PatchWhere(es: seq<JournalEntry>, id: string, p: Database.EntryPatch, now: Millis): (r: seq<JournalEntry>)
    ensures |r| == |es|
    ensures forall i :: 0 <= i < |es| && es[i].id != id ==> r[i] == es[i]
    ensures forall i :: 0 <= i < |es| && es[i].id == id ==> r[i] == Patched(es[i], p, now)
  {
    seq(|es|, i requires 0 <= i < |es| => if es[i].id == id then Patched(es[i], p, now) else es[i])
  }

  /** Seals one optional field; an absent field needs no key. */
  function SealField(env: Env, svc: Encryption.Service, v: Option<string>, iv: Encryption.Iv): (r: Encryption.Step<Option<string>>)
    ensures v.None? ==> r == Encryption.Step(svc, Success(None))
    ensures r.out.Failure? <==> v.Some? && !Truthy(r.svc.key)
    ensures r.out.Success? && v.Some? ==>
              Truthy(r.svc.key) && r.out.value == Some(Encryption.Seal(env.cipher, KeyOf(r.svc), iv, v.value))
    ensures Truthy(svc.key) ==> r.svc == svc
  {
    match v
    case None => Encryption.Step(svc, Success(None))
    case Some(x) =>
      var e := Encryption.Encrypt(env.cipher, svc, env.draws, iv, x);
      match e.out
      case Failure(err) => Encryption.Step(e.svc, Failure(err))
      case Success(ct) => Encryption.Step(e.svc, Success(Some(ct)))
  }

  /** `updateEntry(id, updates)`: seal the supplied sensitive fields,
      update the row, and patch the entry in memory and `currentEntry`. An
      unknown id changes no row and no entry. */
  function UpdateEntry(env: Env, st: State, id: string, p: Database.EntryPatch, now: Millis,
                       iv1: Encryption.Iv, iv2: Encryption.Iv): (r: (State, Result<(), JournalError>))
    // only sealing can fail, and only for lack of a key
    ensures r.1.Failure? ==> (p.clientIdentifier.Some? || p.sessionNotes.Some?) && !Truthy(r.0.svc.key)
    ensures r.1.Failure? ==> r.0 == st.(svc := r.0.svc)
    ensures r.1.Success? ==> r.0.entries == PatchWhere(st.entries, id, p, now)
    ensures r.1.Success? ==>
              r.0.current == (if st.current.Some? && st.current.value.id == id
                              then Some(Patched(st.current.value, p, now)) else st.current)
    ensures r.0.db.entries.Keys == st.db.entries.Keys && r.0.db.entries - {id} == st.db.entries - {id}
    ensures r.0.db.conversations == st.db.conversations && r.0.db.settings == st.db.settings
    ensures Truthy(st.svc.key) ==> r.0.svc == st.svc && r.1.Success?
    ensures p.clientIdentifier.None? && p.sessionNotes.None? ==> r.0.svc == st.svc && r.1.Success?
    // the row reads back as the patched plaintext
    ensures r.1.Success? && id in st.db.entries && Encryption.Sound(env.cipher) &&
            Opened(env.cipher, KeyOf(r.0.svc), Database.ParseEntry(id, st.db.entries[id])).Some? ==>
              Opened(env.cipher, KeyOf(r.0.svc), Database.ParseEntry(id, r.0.db.entries[id])) ==
                Some(Patched(Opened(env.cipher, KeyOf(r.0.svc), Database.ParseEntry(id, st.db.entries[id])).value, p, now))
  {
    var s1 := SealField(env, st.svc, p.clientIdentifier, iv1);
    if s1.out.Failure? then (st.(svc := s1.svc), Failure(Crypto(s1.out.error)))
    else
      var s2 := SealField(env, s1.svc, p.sessionNotes, iv2);
      if s2.out.Failure? then (st.(svc := s2.svc), Failure(Crypto(s2.out.error)))
      else
        var sealed := p.(clientIdentifier := s1.out.value, sessionNotes := s2.out.value);
        var db := Database.UpdateEntry(st.db, id, sealed, now);
        var current := if st.current.Some? && st.current.value.id == id
                       then Some(Patched(st.current.value, p, now)) else st.current;
        var r := State(PatchWhere(st.entries, id, p, now), current, db, s2.svc);
        if id in st.db.entries then
          UpdateOpens(env.cipher, KeyOf(s2.svc), id, st.db.entries[id], p, sealed, now, iv1, iv2);
          (r, Success(()))
        else (r, Success(()))
  }

  /** Opening commutes with patching when the sensitive fields of the
      stored patch are the sealed fields of the plaintext patch. */
  lemma UpdateOpens(c: Encryption.Cipher, key: string, id: string, row: Database.EntryRow,
                    p: Database.EntryPatch, sealed: Database.EntryPatch, now: Millis,
                    iv1: Encryption.Iv, iv2: Encryption.Iv)
    requires sealed == p.(clientIdentifier := sealed.clientIdentifier, sessionNotes := sealed.sessionNotes)
    requires p.clientIdentifier.None? ==> sealed.clientIdentifier.None?
    requires p.clientIdentifier.Some? ==> sealed.clientIdentifier == Some(Encryption.Seal(c, key, iv1, p.clientIdentifier.value))
    requires p.sessionNotes.None? ==> sealed.sessionNotes.None?
    requires p.sessionNotes.Some? ==> sealed.sessionNotes == Some(Encryption.Seal(c, key, iv2, p.sessionNotes.value))
    ensures var before := Opened(c, key, Database.ParseEntry(id, row));
            Encryption.Sound(c) && before.Some? ==>
              Opened(c, key, Database.ParseEntry(id, Database.ApplyPatch(row, sealed, now))) == Some(Patched(before.value, p, now))
  {
    if Encryption.Sound(c) {
      if p.clientIdentifier.Some? {
        Encryption.SealOpen(c, key, iv1, p.clientIdentifier.value);
      }
      if p.sessionNotes.Some? {
        Encryption.SealOpen(c, key, iv2, p.sessionNotes.value);
      }
    }
  }

  /** `deleteEntry(id)`: the row, then its conversations, then the entry in
      memory and `currentEntry` if it is that entry. */
  function DeleteEntry(st: State, id: string): (r: State)
    ensures Database.GetEntry(r.db, id).None? && !Database.HasConversation(r.db, id)
    ensures forall e :: e in r.entries <==> e in st.entries && e.id != id
    ensures Seqs.IsSubseq(r.entries, st.entries)
    ensures r.current == (if st.current.Some? && st.current.value.id == id then None else st.current)
    ensures forall k :: k != id && k in st.db.entries ==> Database.GetEntry(r.db, k) == Database.GetEntry(st.db, k)
    ensures r.svc == st.svc
  {
    var db := Database.DeleteConversation(Database.DeleteEntry(st.db, id), id);
    var current := if st.current.Some? && st.current.value.id == id then None else st.current;
    State(Seqs.Filter(st.entries, (e: JournalEntry) => e.id != id), current, db, st.svc)
  }

  // ---------------------------------------------------------------------
  // Queries: every result decrypted, or `[]`
  // ---------------------------------------------------------------------

  /** `Promise.all(results.map(decrypt))`: every entry decrypted, or the
      first failure. */
  function RevealEach(env: Env, svc: Encryption.Service, es: seq<JournalEntry>): (r: Encryption.Step<seq<JournalEntry>>)
    ensures r.out.Success? ==>
              |r.out.value| == |es| &&
              forall i :: 0 <= i < |es| ==>
                Truthy(r.svc.key) && Opened(env.cipher, KeyOf(r.svc), es[i]) == Some(r.out.value[i])
    ensures Truthy(svc.key) ==> r.svc == svc
    ensures Truthy(svc.key) ==>
              (r.out.Success? <==> forall i :: 0 <= i < |es| ==> Opened(env.cipher, KeyOf(svc), es[i]).Some?)
    decreases |es|
  {
    if es == [] then Encryption.Step(svc, Success([]))
    else
      var h := RevealEntry(env, svc, es[0]);
      match h.out
      case Failure(err) => Encryption.Step(h.svc, Failure(err))
      case Success(head) =>
        var rest := RevealEach(env, h.svc, es[1..]);
        match rest.out
        case Failure(err) =>
          if Truthy(svc.key) then
            TailFailureFails(env.cipher, KeyOf(svc), es);
            Encryption.Step(rest.svc, Failure(err))
          else Encryption.Step(rest.svc, Failure(err))
        case Success(tail) =>
          OpenedCons(env.cipher, KeyOf(rest.svc), es, head, tail);
          Encryption.Step(rest.svc, Success([head] + tail))
  }

  /** An entry of the tail that does not open is an entry of the list. */
  lemma TailFailureFails(c: Encryption.Cipher, key: string, es: seq<JournalEntry>)
    requires |es| > 0
    requires !forall i :: 0 <= i < |es[1..]| ==> Opened(c, key, es[1..][i]).Some?
    ensures !forall i :: 0 <= i < |es| ==> Opened(c, key, es[i]).Some?
  {
    var i :| 0 <= i < |es[1..]| && Opened(c, key, es[1..][i]).None?;
    assert es[1..][i] == es[i + 1];
  }

  /** Opening the head and each entry of the tail opens each entry of the
      list, in place. */
  lemma OpenedCons(c: Encryption.Cipher, key: string, es: seq<JournalEntry>, head: JournalEntry, tail: seq<JournalEntry>)
    requires |es| > 0 && Opened(c, key, es[0]) == Some(head)
    requires |tail| == |es| - 1
    requires forall i :: 0 <= i < |es[1..]| ==> Opened(c, key, es[1..][i]) == Some(tail[i])
    ensures forall i :: 0 <= i < |es| ==> Opened(c, key, es[i]) == Some(([head] + tail)[i])
  {
    forall i | 0 <= i < |es| ensures Opened(c, key, es[i]) == Some(([head] + tail)[i]) {
      if i > 0 {
        assert es[i] == es[1..][i - 1];
      }
    }
  }

  /** The query calls' `catch` as evidently intended, with the
      `Promise.all` awaited inside the `try`: a decryption failure gives
      `[]`. */
  function RevealOrEmpty(env: Env, svc: Encryption.Service, es: seq<JournalEntry>): (r: (Encryption.Service, seq<JournalEntry>))
    ensures r.1 == [] || |r.1| == |es|
    ensures r.1 != [] ==>
              forall i :: 0 <= i < |es| ==> Opened(env.cipher, KeyOf(r.0), es[i]) == Some(r.1[i])
    ensures Truthy(svc.key) ==> r.0 == svc
    ensures Truthy(svc.key) && (forall i :: 0 <= i < |es| ==> Opened(env.cipher, KeyOf(svc), es[i]).Some?) ==>
              |r.1| == |es| && forall i :: 0 <= i < |es| ==> Opened(env.cipher, KeyOf(svc), es[i]) == Some(r.1[i])
  {
    var d := RevealEach(env, svc, es);
    if d.out.Success? then (d.svc, d.out.value) else (d.svc, [])
  }

  /** A row whose client identifier has no `:` never opens, so a query
      that returns it rejects as written and gives `[]` once the `catch`
      covers decryption. */
  lemma PlainRowRejects(env: Env, svc: Encryption.Service, es: seq<JournalEntry>, i: nat)
    requires Truthy(svc.key) && i < |es| && ':' !in es[i].clientIdentifier
    ensures RevealEach(env, svc, es).out.Failure?
    ensures RevealOrEmpty(env, svc, es) == (svc, [])
  {
    CountAbsent(es[i].clientIdentifier, ':');
    assert Opened(env.cipher, KeyOf(svc), es[i]).None?;
  }

  /** The selected rows all open exactly when every selected stored entry
      opens. */
  lemma RowsOpenIffSelectionOpens(c: Encryption.Cipher, key: string, db: Database.Db, rows: seq<JournalEntry>,
                                  sel: JournalEntry -> bool)
    requires forall e :: e in rows <==> e.id in db.entries && sel(e) && e == Database.ParseEntry(e.id, db.entries[e.id])
    ensures (forall i :: 0 <= i < |rows| ==> Opened(c, key, rows[i]).Some?) <==>
            (forall id :: id in db.entries && sel(Database.ParseEntry(id, db.entries[id])) ==>
               Opened(c, key, Database.ParseEntry(id, db.entries[id])).Some?)
  {
    if forall i :: 0 <= i < |rows| ==> Opened(c, key, rows[i]).Some? {
      forall id | id in db.entries && sel(Database.ParseEntry(id, db.entries[id]))
        ensures Opened(c, key, Database.ParseEntry(id, db.entries[id])).Some?
      {
        var x := Database.ParseEntry(id, db.entries[id]);
        assert x in rows;
        var i :| 0 <= i < |rows| && rows[i] == x;
      }
    } else {
      var i :| 0 <= i < |rows| && Opened(c, key, rows[i]).None?;
      assert rows[i] in rows;
    }
  }

  /** When every selected row opened, each selected stored entry's opening
      is among the results. */
  lemma SelectedAmongRevealed(c: Encryption.Cipher, key: string, db: Database.Db, rows: seq<JournalEntry>,
                              revealed: seq<JournalEntry>, sel: JournalEntry -> bool)
    requires forall e :: e in rows <==> e.id in db.entries && sel(e) && e == Database.ParseEntry(e.id, db.entries[e.id])
    requires |revealed| == |rows| && forall i :: 0 <= i < |rows| ==> Opened(c, key, rows[i]) == Some(revealed[i])
    ensures forall id :: id in db.entries && sel(Database.ParseEntry(id, db.entries[id])) ==>
              Opened(c, key, Database.ParseEntry(id, db.entries[id])).Some? &&
              Opened(c, key, Database.ParseEntry(id, db.entries[id])).value in revealed
  {
    forall id | id in db.entries && sel(Database.ParseEntry(id, db.entries[id]))
      ensures Opened(c, key, Database.ParseEntry(id, db.entries[id])).Some? &&
              Opened(c, key, Database.ParseEntry(id, db.entries[id])).value in revealed
    {
      var x := Database.ParseEntry(id, db.entries[id]);
      assert x in rows;
      var i :| 0 <= i < |rows| && rows[i] == x;
      assert revealed[i] in revealed;
    }
  }

  /** Opening keeps the date and the id, so the store's order and the
      distinct ids carry over to the decrypted list. */
  lemma OpenedKeepsOrder(c: Encryption.Cipher, key: string, es: seq<JournalEntry>, r: seq<JournalEntry>)
    requires Database.SortedDesc(es) && Database.DistinctIds(es)
    requires r == [] || (|r| == |es| && forall i :: 0 <= i < |es| ==> Opened(c, key, es[i]) == Some(r[i]))
    ensures Database.SortedDesc(r) && Database.DistinctIds(r)
  {
    if r != [] {
      assert forall i :: 0 <= i < |es| ==> r[i].id == es[i].id && r[i].sessionDate == es[i].sessionDate;
    }
  }

  /** `searchEntries(query)` as written: the rows whose tags match
      `%query%`, decrypted. The `Promise.all` is returned without `await`,
      so its rejection passes the `catch`: a row that does not decrypt
      rejects the call. */
  method SearchEntriesAsWritten(env: Env, st: State, tagsJson: seq<string> -> string, query: string)
    returns (svc: Encryption.Service, r: Result<seq<JournalEntry>, Encryption.EncError>)
    ensures r.Success? ==> Database.SortedDesc(r.value) && Database.DistinctIds(r.value)
    ensures r.Success? ==>
              forall e :: e in r.value ==>
                e.id in st.db.entries && SqlLike.Like(tagsJson(e.tags), SqlLike.ContainsPattern(query)) &&
                Opened(env.cipher, KeyOf(svc), Database.ParseEntry(e.id, st.db.entries[e.id])) == Some(e)
    ensures Truthy(st.svc.key) ==> svc == st.svc
    // with a key, the call rejects exactly when some matching row does not open
    ensures Truthy(st.svc.key) ==>
              (r.Success? <==>
                 forall id :: id in st.db.entries &&
                              SqlLike.Like(tagsJson(st.db.entries[id].tags), SqlLike.ContainsPattern(query)) ==>
                   Opened(env.cipher, KeyOf(st.svc), Database.ParseEntry(id, st.db.entries[id])).Some?)
    ensures Truthy(st.svc.key) && r.Success? ==>
              forall id :: id in st.db.entries &&
                           SqlLike.Like(tagsJson(st.db.entries[id].tags), SqlLike.ContainsPattern(query)) ==>
                Opened(env.cipher, KeyOf(st.svc), Database.ParseEntry(id, st.db.entries[id])).value in r.value
  {
    var rows := Database.SearchEntries(st.db, tagsJson, query);
    var d := RevealEach(env, st.svc, rows);
    svc, r := d.svc, d.out;
    var revealed := if r.Success? then r.value else [];
    var sel := (e: JournalEntry) => SqlLike.Like(tagsJson(e.tags), SqlLike.ContainsPattern(query));
    OpenedKeepsOrder(env.cipher, KeyOf(svc), rows, revealed);
    RevealedSelection(env.cipher, KeyOf(svc), st.db, rows, revealed, sel, false);
    if Truthy(st.svc.key) {
      RowsOpenIffSelectionOpens(env.cipher, KeyOf(svc), st.db, rows, sel);
      if r.Success? {
        SelectedAmongRevealed(env.cipher, KeyOf(svc), st.db, rows, revealed, sel);
      }
    }
  }

  /** `searchEntries(query)` as evidently intended, with the decryptions
      awaited inside the `try`: the rows whose tags match `%query%`,
      decrypted, or `[]` if any does not decrypt. */
  method SearchEntries(env: Env, st: State, tagsJson: seq<string> -> string, query: string)
    returns (svc: Encryption.Service, r: seq<JournalEntry>)
    ensures Database.SortedDesc(r) && Database.DistinctIds(r)
    ensures forall e :: e in r ==>
              e.id in st.db.entries && SqlLike.Like(tagsJson(e.tags), SqlLike.ContainsPattern(query)) &&
              Opened(env.cipher, KeyOf(svc), Database.ParseEntry(e.id, st.db.entries[e.id])) == Some(e)
    ensures Truthy(st.svc.key) ==> svc == st.svc
    ensures Truthy(st.svc.key) && AllOpen(env.cipher, KeyOf(st.svc), st.db) ==>
              forall id :: id in st.db.entries &&
                           SqlLike.Like(tagsJson(st.db.entries[id].tags), SqlLike.ContainsPattern(query)) ==>
                Opened(env.cipher, KeyOf(st.svc), Database.ParseEntry(id, st.db.entries[id])).value in r
  {
    var rows := Database.SearchEntries(st.db, tagsJson, query);
    var d := RevealOrEmpty(env, st.svc, rows);
    svc, r := d.0, d.1;
    OpenedKeepsOrder(env.cipher, KeyOf(svc), rows, r);
    RevealedSelection(env.cipher, KeyOf(svc), st.db, rows, r,
                      (e: JournalEntry) => SqlLike.Like(tagsJson(e.tags), SqlLike.ContainsPattern(query)),
                      Truthy(st.svc.key));
  }

  /** `getEntriesByDateRange(start, end)` as written: the rows dated
      within both bounds, decrypted; as in `searchEntries`, a row that does
      not decrypt rejects the call past its `catch`. */
  method GetEntriesByDateRangeAsWritten(env: Env, st: State, start: Millis, end: Millis)
    returns (svc: Encryption.Service, r: Result<seq<JournalEntry>, Encryption.EncError>)
    ensures r.Success? ==> Database.SortedDesc(r.value) && Database.DistinctIds(r.value)
    ensures r.Success? ==>
              forall e :: e in r.value ==>
                e.id in st.db.entries && start <= e.sessionDate <= end &&
                Opened(env.cipher, KeyOf(svc), Database.ParseEntry(e.id, st.db.entries[e.id])) == Some(e)
    ensures Truthy(st.svc.key) ==> svc == st.svc
    // with a key, the call rejects exactly when some row in range does not open
    ensures Truthy(st.svc.key) ==>
              (r.Success? <==>
                 forall id :: id in st.db.entries && start <= st.db.entries[id].sessionDate <= end ==>
                   Opened(env.cipher, KeyOf(st.svc), Database.ParseEntry(id, st.db.entries[id])).Some?)
    ensures Truthy(st.svc.key) && r.Success? ==>
              forall id :: id in st.db.entries && start <= st.db.entries[id].sessionDate <= end ==>
                Opened(env.cipher, KeyOf(st.svc), Database.ParseEntry(id, st.db.entries[id])).value in r.value
  {
    var rows := Database.GetEntriesByDateRange(st.db, start, end);
    var d := RevealEach(env, st.svc, rows);
    svc, r := d.svc, d.out;
    var revealed := if r.Success? then r.value else [];
    var sel := (e: JournalEntry) => start <= e.sessionDate <= end;
    OpenedKeepsOrder(env.cipher, KeyOf(svc), rows, revealed);
    RevealedSelection(env.cipher, KeyOf(svc), st.db, rows, revealed, sel, false);
    if Truthy(st.svc.key) {
      RowsOpenIffSelectionOpens(env.cipher, KeyOf(svc), st.db, rows, sel);
      if r.Success? {
        SelectedAmongRevealed(env.cipher, KeyOf(svc), st.db, rows, revealed, sel);
      }
    }
  }

  /** `getEntriesByDateRange(start, end)` as evidently intended: the rows
      dated within both bounds, decrypted, or `[]` if any does not
      decrypt. */
  method GetEntriesByDateRange(env: Env, st: State, start: Millis, end: Millis)
    returns (svc: Encryption.Service, r: seq<JournalEntry>)
    ensures Database.SortedDesc(r) && Database.DistinctIds(r)
    ensures forall e :: e in r ==>
              e.id in st.db.entries && start <= e.sessionDate <= end &&
              Opened(env.cipher, KeyOf(svc), Database.ParseEntry(e.id, st.db.entries[e.id])) == Some(e)
    ensures Truthy(st.svc.key) ==> svc == st.svc
    ensures Truthy(st.svc.key) && AllOpen(env.cipher, KeyOf(st.svc), st.db) ==>
              forall id :: id in st.db.entries && start <= st.db.entries[id].sessionDate <= end ==>
                Opened(env.cipher, KeyOf(st.svc), Database.ParseEntry(id, st.db.entries[id])).value in r
  {
    var rows := Database.GetEntriesByDateRange(st.db, start, end);
    var d := RevealOrEmpty(env, st.svc, rows);
    svc, r := d.0, d.1;
    OpenedKeepsOrder(env.cipher, KeyOf(svc), rows, r);
    RevealedSelection(env.cipher, KeyOf(svc), st.db, rows, r, (e: JournalEntry) => start <= e.sessionDate <= end,
                      Truthy(st.svc.key));
  }

  /** The rows a query selects, opened: each result is the opening of a
      selected stored row, and when every row opens, every selected row's
      opening is a result. */
  lemma RevealedSelection(c: Encryption.Cipher, key: string, db: Database.Db, rows: seq<JournalEntry>,
                          revealed: seq<JournalEntry>, sel: JournalEntry -> bool, complete: bool)
    requires forall e :: e in rows <==> e.id in db.entries && sel(e) && e == Database.ParseEntry(e.id, db.entries[e.id])
    requires revealed == [] || |revealed| == |rows|
    requires revealed != [] ==> forall i :: 0 <= i < |rows| ==> Opened(c, key, rows[i]) == Some(revealed[i])
    requires complete && (forall i :: 0 <= i < |rows| ==> Opened(c, key, rows[i]).Some?) ==>
               |revealed| == |rows| && forall i :: 0 <= i < |rows| ==> Opened(c, key, rows[i]) == Some(revealed[i])
    ensures forall e :: e in revealed ==>
              e.id in db.entries && sel(Database.ParseEntry(e.id, db.entries[e.id])) &&
              Opened(c, key, Database.ParseEntry(e.id, db.entries[e.id])) == Some(e)
    ensures complete && AllOpen(c, key, db) ==>
              forall id :: id in db.entries && sel(Database.ParseEntry(id, db.entries[id])) ==>
                Opened(c, key, Database.ParseEntry(id, db.entries[id])).value in revealed
  {
    forall e | e in revealed
      ensures e.id in db.entries && sel(Database.ParseEntry(e.id, db.entries[e.id])) &&
              Opened(c, key, Database.ParseEntry(e.id, db.entries[e.id])) == Some(e)
    {
      var i :| 0 <= i < |revealed| && revealed[i] == e;
      assert rows[i] in rows;
    }
    if complete && AllOpen(c, key, db) {
      forall j | 0 <= j < |rows|
        ensures Opened(c, key, rows[j]).Some?
      {
        assert rows[j] in rows;
      }
      forall id | id in db.entries && sel(Database.ParseEntry(id, db.entries[id]))
        ensures Opened(c, key, Database.ParseEntry(id, db.entries[id])).value in revealed
      {
        var x := Database.ParseEntry(id, db.entries[id]);
        assert x in rows;
        var i :| 0 <= i < |rows| && rows[i] == x;
        assert revealed[i] in revealed;
      }
    }
  }

  // ---------------------------------------------------------------------
  // getEntriesByClient
  // ---------------------------------------------------------------------

  /** `getEntriesByClient(clientId)` as written: the id is encrypted under
      a fresh IV and compared for equality with the stored ciphertexts. */
  method GetEntriesByClientAsWritten(env: Env, st: State, clientId: string, iv: Encryption.Iv)
    returns (svc: Encryption.Service, r: Result<seq<JournalEntry>, Encryption.EncError>)
    ensures r.Success? ==>
              forall e :: e in r.value ==>
                e.id in st.db.entries &&
                Opened(env.cipher, KeyOf(svc), Database.ParseEntry(e.id, st.db.entries[e.id])) == Some(e)
    // no stored row was sealed under this IV, so nothing is found
    ensures (forall id :: id in st.db.entries ==> !IsPrefix(Encryption.Hex(iv), st.db.entries[id].clientIdentifier)) ==>
              r == Success([])
    // only a matched row that does not open rejects the call
    ensures r.Failure? ==>
              exists id :: id in st.db.entries &&
                           Opened(env.cipher, KeyOf(svc), Database.ParseEntry(id, st.db.entries[id])).None?
    ensures Truthy(st.svc.key) ==> svc == st.svc
    ensures Truthy(st.svc.key) && AllOpen(env.cipher, KeyOf(st.svc), st.db) ==> r.Success?
  {
    var probe := Encryption.Encrypt(env.cipher, st.svc, env.draws, iv, clientId);
    if probe.out.Failure? {
      // the `catch` covers the awaited encryption
      return probe.svc, Success([]);
    }
    var rows := Database.GetEntriesByClient(st.db, probe.out.value);
    assert IsPrefix(Encryption.Hex(iv), probe.out.value);
    if |rows| > 0 {
      assert rows[0] in rows;
    }
    var d := RevealEach(env, probe.svc, rows);
    svc, r := d.svc, d.out;
    if r.Success? {
      forall e | e in r.value
        ensures e.id in st.db.entries &&
                Opened(env.cipher, KeyOf(svc), Database.ParseEntry(e.id, st.db.entries[e.id])) == Some(e)
      {
        var i :| 0 <= i < |r.value| && r.value[i] == e;
        assert rows[i] in rows;
      }
    } else {
      var i :| 0 <= i < |rows| && Opened(env.cipher, KeyOf(svc), rows[i]).None?;
      assert rows[i] in rows;
    }
  }

  /** Filtering keeps the date order and the distinct ids. */
  lemma {:induction false} FilterKeepsOrder(es: seq<JournalEntry>, keep: JournalEntry -> bool)
    requires Database.SortedDesc(es) && Database.DistinctIds(es)
    ensures Database.SortedDesc(Seqs.Filter(es, keep)) && Database.DistinctIds(Seqs.Filter(es, keep))
    decreases |es|
  {
    if |es| > 0 {
      var tail := es[1..];
      Database.TailOrdered(es);
      FilterKeepsOrder(tail, keep);
      if keep(es[0]) {
        var rest := Seqs.Filter(tail, keep);
        assert Seqs.Filter(es, keep) == [es[0]] + rest;
        Database.ConsOrdered(es[0], rest);
      }
    }
  }

  /** `getEntriesByClient(clientId)` as evidently intended: decrypt the
      entries and keep those whose client identifier is `clientId`. */
  method GetEntriesByClient(env: Env, st: State, clientId: string)
    returns (svc: Encryption.Service, r: seq<JournalEntry>)
    ensures Database.SortedDesc(r) && Database.DistinctIds(r)
    ensures forall e :: e in r ==>
              e.clientIdentifier == clientId && e.id in st.db.entries &&
              Opened(env.cipher, KeyOf(svc), Database.ParseEntry(e.id, st.db.entries[e.id])) == Some(e)
    ensures Truthy(st.svc.key) ==> svc == st.svc
    ensures Truthy(st.svc.key) && AllOpen(env.cipher, KeyOf(st.svc), st.db) ==>
              forall id :: id in st.db.entries &&
                           Opened(env.cipher, KeyOf(st.svc), Database.ParseEntry(id, st.db.entries[id])).value.clientIdentifier == clientId ==>
                Opened(env.cipher, KeyOf(st.svc), Database.ParseEntry(id, st.db.entries[id])).value in r
  {
    var rows := Database.GetAllEntries(st.db);
    var d := RevealOrEmpty(env, st.svc, rows);
    svc := d.0;
    OpenedKeepsOrder(env.cipher, KeyOf(svc), rows, d.1);
    var keep := (e: JournalEntry) => e.clientIdentifier == clientId;
    FilterKeepsOrder(d.1, keep);
    r := Seqs.Filter(d.1, keep);
    FilteredFromStore(env.cipher, KeyOf(svc), st.db, rows, d.1, keep, clientId);
    if Truthy(st.svc.key) {
      FilterFindsAll(env.cipher, KeyOf(svc), st.db, rows, d.1, keep, clientId);
    }
  }

  /** Filtering the opened rows yields only entries of that client, each
      the opening of its stored row. */
  lemma FilteredFromStore(c: Encryption.Cipher, key: string, db: Database.Db, rows: seq<JournalEntry>,
                          revealed: seq<JournalEntry>, keep: JournalEntry -> bool, clientId: string)
    requires forall e :: e in rows <==> e.id in db.entries && e == Database.ParseEntry(e.id, db.entries[e.id])
    requires revealed == [] || (|revealed| == |rows| && forall i :: 0 <= i < |rows| ==> Opened(c, key, rows[i]) == Some(revealed[i]))
    requires forall e :: keep(e) <==> e.clientIdentifier == clientId
    ensures forall e :: e in Seqs.Filter(revealed, keep) ==>
              e.clientIdentifier == clientId && e.id in db.entries &&
              Opened(c, key, Database.ParseEntry(e.id, db.entries[e.id])) == Some(e)
  {
    forall e | e in Seqs.Filter(revealed, keep)
      ensures e.clientIdentifier == clientId && e.id in db.entries &&
              Opened(c, key, Database.ParseEntry(e.id, db.entries[e.id])) == Some(e)
    {
      var i :| 0 <= i < |revealed| && revealed[i] == e;
      assert rows[i] in rows;
    }
  }

  /** When every row opens, each stored entry of that client is found. */
  lemma FilterFindsAll(c: Encryption.Cipher, key: string, db: Database.Db, rows: seq<JournalEntry>,
                       revealed: seq<JournalEntry>, keep: JournalEntry -> bool, clientId: string)
    requires forall e :: e in rows <==> e.id in db.entries && e == Database.ParseEntry(e.id, db.entries[e.id])
    requires (forall i :: 0 <= i < |rows| ==> Opened(c, key, rows[i]).Some?) ==>
               |revealed| == |rows| && forall i :: 0 <= i < |rows| ==> Opened(c, key, rows[i]) == Some(revealed[i])
    requires forall e :: keep(e) <==> e.clientIdentifier == clientId
    ensures AllOpen(c, key, db) ==>
              forall id :: id in db.entries &&
                           Opened(c, key, Database.ParseEntry(id, db.entries[id])).value.clientIdentifier == clientId ==>
                Opened(c, key, Database.ParseEntry(id, db.entries[id])).value in Seqs.Filter(revealed, keep)
  {
    if AllOpen(c, key, db) {
      forall j | 0 <= j < |rows|
        ensures Opened(c, key, rows[j]).Some?
      {
        assert rows[j] in rows;
      }
      forall id | id in db.entries &&
                  Opened(c, key, Database.ParseEntry(id, db.entries[id])).value.clientIdentifier == clientId
        ensures Opened(c, key, Database.ParseEntry(id, db.entries[id])).value in Seqs.Filter(revealed, keep)
      {
        var x := Database.ParseEntry(id, db.entries[id]);
        assert x in rows;
        var i :| 0 <= i < |rows| && rows[i] == x;
        assert revealed[i] in revealed;
      }
    }
  }

  /** An entry just created under one IV: a lookup under any other IV
      misses it, while decrypting and filtering finds it. */
  lemma ClientLookupMissesNewEntry(env: Env, st: State, d: EntryDraft, id: string, now: Millis,
                                   iv1: Encryption.Iv, iv2: Encryption.Iv, probe: Encryption.Iv)
    requires Encryption.Sound(env.cipher)
    requires st.db.entries == map[] && probe != iv1
    requires CreateEntry(env, st, d, id, now, iv1, iv2).1.Success?
    ensures var after := CreateEntry(env, st, d, id, now, iv1, iv2).0;
            Truthy(after.svc.key) &&
            (forall k :: k in after.db.entries ==> !IsPrefix(Encryption.Hex(probe), after.db.entries[k].clientIdentifier)) &&
            AllOpen(env.cipher, KeyOf(after.svc), after.db) &&
            Opened(env.cipher, KeyOf(after.svc), Database.ParseEntry(id, after.db.entries[id])).value.clientIdentifier == d.clientIdentifier
  {
    var after := CreateEntry(env, st, d, id, now, iv1, iv2).0;
    assert after.db.entries.Keys == {id};
    var stored := after.db.entries[id].clientIdentifier;
    if IsPrefix(Encryption.Hex(probe), stored) {
      assert stored[..32] == Encryption.Hex(iv1) && stored[..32] == Encryption.Hex(probe);
      Encryption.HexInjective(iv1, probe);
    }
  }

  // ---------------------------------------------------------------------
  // Conversations: message contents are sealed one by one
  // ---------------------------------------------------------------------

  /** `stored` is `plain` with every content sealed: each opens under
      `key` to the plaintext message, and nothing else differs. */
  predicate MessagesOpen(c: Encryption.Cipher, key: string, stored: seq<Message>, plain: seq<Message>) {
    |stored| == |plain| &&
    forall i :: 0 <= i < |stored| ==>
      plain[i] == stored[i].(content := plain[i].content) &&
      Encryption.Open(c, key, stored[i].content) == Some(plain[i].content)
  }

  /** Encrypts every message's content, the i-th under `ivAt(n + i)`; the
      first failure is thrown. An empty list needs no key. */
  function SealMessages(env: Env, svc: Encryption.Service, ivAt: nat -> Encryption.Iv, ms: seq<Message>, n: nat)
    : (r: Encryption.Step<seq<Message>>)
    ensures r.out.Failure? ==> |ms| > 0 && !Truthy(r.svc.key)
    ensures r.out.Success? ==> |r.out.value| == |ms|
    ensures r.out.Success? && |ms| > 0 ==> Truthy(r.svc.key)
    ensures r.out.Success? ==>
              forall i :: 0 <= i < |ms| ==>
                r.out.value[i] == ms[i].(content := Encryption.Seal(env.cipher, KeyOf(r.svc), ivAt(n + i), ms[i].content))
    ensures Truthy(svc.key) || ms == [] ==> r.svc == svc && r.out.Success?
    decreases |ms|
  {
    if ms == [] then Encryption.Step(svc, Success([]))
    else
      var h := Encryption.Encrypt(env.cipher, svc, env.draws, ivAt(n), ms[0].content);
      match h.out
      case Failure(err) => Encryption.Step(h.svc, Failure(err))
      case Success(ct) =>
        var rest := SealMessages(env, h.svc, ivAt, ms[1..], n + 1);
        assert forall i :: 1 <= i < |ms| ==> ms[i] == ms[1..][i - 1];
        Encryption.Step(rest.svc, Success([ms[0].(content := ct)] + rest.out.value))
  }

  /** Decrypts every message's content; the first failure is thrown. */
  function OpenMessages(env: Env, svc: Encryption.Service, ms: seq<Message>): (r: Encryption.Step<seq<Message>>)
    ensures r.out.Success? ==> MessagesOpen(env.cipher, KeyOf(r.svc), ms, r.out.value)
    ensures r.out.Success? && |ms| > 0 ==> Truthy(r.svc.key)
    ensures Truthy(svc.key) || ms == [] ==> r.svc == svc
    ensures Truthy(svc.key) ==>
              (r.out.Success? <==> forall i :: 0 <= i < |ms| ==> Encryption.Open(env.cipher, KeyOf(svc), ms[i].content).Some?)
    decreases |ms|
  {
    if ms == [] then Encryption.Step(svc, Success([]))
    else
      var h := Encryption.Decrypt(env.cipher, svc, env.draws, ms[0].content);
      match h.out
      case Failure(err) => Encryption.Step(h.svc, Failure(err))
      case Success(text) =>
        var rest := OpenMessages(env, h.svc, ms[1..]);
        match rest.out
        case Failure(err) => Encryption.Step(rest.svc, Failure(err))
        case Success(tail) =>
          assert forall i :: 1 <= i < |ms| ==> ms[i] == ms[1..][i - 1];
          Encryption.Step(rest.svc, Success([ms[0].(content := text)] + tail))
  }

  /** Under a sound cipher, sealed messages open to the originals. */
  lemma SealedMessagesOpen(env: Env, svc: Encryption.Service, ivAt: nat -> Encryption.Iv, ms: seq<Message>, n: nat)
    ensures var s := SealMessages(env, svc, ivAt, ms, n);
            Encryption.Sound(env.cipher) && s.out.Success? ==>
              MessagesOpen(env.cipher, KeyOf(s.svc), s.out.value, ms) &&
              OpenMessages(env, s.svc, s.out.value) == Encryption.Step(s.svc, Success(ms))
  {
    var s := SealMessages(env, svc, ivAt, ms, n);
    if Encryption.Sound(env.cipher) && s.out.Success? {
      forall i | 0 <= i < |ms|
        ensures Encryption.Open(env.cipher, KeyOf(s.svc), s.out.value[i].content) == Some(ms[i].content)
      {
        Encryption.SealOpen(env.cipher, KeyOf(s.svc), ivAt(n + i), ms[i].content);
      }
      OpenedMessagesAreUnique(env, s.svc, s.out.value, ms);
    }
  }

  /** When every content opens to the matching plaintext, decryption
      yields exactly the plaintext messages. */
  lemma {:induction false} OpenedMessagesAreUnique(env: Env, svc: Encryption.Service, stored: seq<Message>, plain: seq<Message>)
    requires MessagesOpen(env.cipher, KeyOf(svc), stored, plain)
    requires Truthy(svc.key) || stored == []
    ensures OpenMessages(env, svc, stored) == Encryption.Step(svc, Success(plain))
    decreases |stored|
  {
    if stored != [] {
      assert MessagesOpen(env.cipher, KeyOf(svc), stored[1..], plain[1..]) by {
        forall i | 0 <= i < |stored[1..]|
          ensures plain[1..][i] == stored[1..][i].(content := plain[1..][i].content) &&
                  Encryption.Open(env.cipher, KeyOf(svc), stored[1..][i].content) == Some(plain[1..][i].content)
        {
          assert stored[1..][i] == stored[i + 1] && plain[1..][i] == plain[i + 1];
        }
      }
      OpenedMessagesAreUnique(env, svc, stored[1..], plain[1..]);
      var h := Encryption.Decrypt(env.cipher, svc, env.draws, stored[0].content);
      assert h == Encryption.Step(svc, Success(plain[0].content));
      assert stored[0].(content := plain[0].content) == plain[0];
      assert plain == [plain[0]] + plain[1..];
    }
  }

  /** `entries.find(e => e.id === id)`: the first entry with that id. */
  function FindEntry(es: seq<JournalEntry>, id: string): (r: Option<JournalEntry>)
    ensures r.Some? ==> r.value in es && r.value.id == id
    ensures r.None? <==> forall e :: e in es ==> e.id != id
    ensures r.Some? ==> exists i :: 0 <= i < |es| && es[i] == r.value && forall j :: 0 <= j < i ==> es[j].id != id
    decreases |es|
  {
    if es == [] then None
    else if es[0].id == id then Some(es[0])
    else
      var r := FindEntry(es[1..], id);
      assert forall e :: e in es[1..] ==> e in es;
      assert forall e :: e in es ==> e == es[0] || e in es[1..];
      if r.Some? then
        var i :| 0 <= i < |es[1..]| && es[1..][i] == r.value && forall j :: 0 <= j < i ==> es[1..][j].id != id;
        assert es[i + 1] == r.value;
        assert forall j :: 1 <= j < i + 1 ==> es[j] == es[1..][j - 1];
        r
      else r
  }

  /** The patch that links an entry to a conversation. */
  function LinkPatch(conversationId: string): (p: Database.EntryPatch)
    ensures p == Database.NO_CHANGES.(aiConversationId := Some(conversationId))
  {
    Database.EntryPatch(None, None, None, None, None, Some(conversationId))
  }

  /** `saveConversation(conversation)`: seal the message contents, upsert
      the row, and link the entry to the conversation unless the entry in
      memory already has a non-empty link (an entry missing from memory
      counts as unlinked). */
  function SaveConversation(env: Env, st: State, conv: Conversation, ivAt: nat -> Encryption.Iv, now: Millis)
    : (r: (State, Result<(), JournalError>))
    ensures r.1.Failure? ==> r.0 == st.(svc := r.0.svc)
    ensures r.1.Failure? ==> (|conv.messages| > 0 && !Truthy(r.0.svc.key)) ||
                             (!Database.HasConversation(st.db, conv.entryId) && conv.id in st.db.conversations)
    ensures Truthy(st.svc.key) || conv.messages == [] ==> r.0.svc == st.svc
    ensures r.1.Success? ==> r.0.db.entries.Keys == st.db.entries.Keys && r.0.db.settings == st.db.settings
    // the link
    ensures r.1.Success? ==>
              var known := FindEntry(st.entries, conv.entryId);
              if known.Some? && Truthy(known.value.aiConversationId) then
                r.0.entries == st.entries && r.0.current == st.current && r.0.db.entries == st.db.entries
              else
                r.0.entries == PatchWhere(st.entries, conv.entryId, LinkPatch(conv.id), now) &&
                (conv.entryId in st.db.entries ==>
                   r.0.db.entries[conv.entryId].aiConversationId == Some(conv.id))
    // a first conversation for the entry is stored sealed and opens to the messages
    ensures r.1.Success? && !Database.HasConversation(st.db, conv.entryId) ==>
              conv.id in r.0.db.conversations &&
              r.0.db.conversations[conv.id].entryId == conv.entryId &&
              (Encryption.Sound(env.cipher) ==>
                 MessagesOpen(env.cipher, KeyOf(r.0.svc), r.0.db.conversations[conv.id].messages, conv.messages))
  {
    var sm := SealMessages(env, st.svc, ivAt, conv.messages, 0);
    if sm.out.Failure? then (st.(svc := sm.svc), Failure(Crypto(sm.out.error)))
    else
      match Database.SaveConversation(st.db, conv.(messages := sm.out.value))
      case Failure(err) => (st.(svc := sm.svc), Failure(Storage(err)))
      case Success(db) =>
        SealedMessagesOpen(env, st.svc, ivAt, conv.messages, 0);
        var saved := st.(db := db, svc := sm.svc);
        var known := FindEntry(st.entries, conv.entryId);
        if known.Some? && Truthy(known.value.aiConversationId) then (saved, Success(()))
        else
          var u := UpdateEntry(env, saved, conv.entryId, LinkPatch(conv.id), now, ivAt(0), ivAt(0));
          (u.0, Success(()))
  }

  /** `getConversation(entryId)`: the entry's conversation with every
      message decrypted, or null when there is none or a message does not
      decrypt. */
  method GetConversation(env: Env, st: State, entryId: string)
    returns (svc: Encryption.Service, r: Option<Conversation>)
    ensures r.Some? ==>
              r.value.id in st.db.conversations && r.value.entryId == entryId &&
              var row := st.db.conversations[r.value.id];
              r.value == Database.ParseConversation(r.value.id, row).(messages := r.value.messages) &&
              MessagesOpen(env.cipher, KeyOf(svc), row.messages, r.value.messages)
    ensures !Database.HasConversation(st.db, entryId) ==> r.None? && svc == st.svc
    ensures Truthy(st.svc.key) ==> svc == st.svc
    // with one conversation per entry, whose messages all open, it is found
    ensures Truthy(st.svc.key) && Database.UniqueLinks(st.db) ==>
              forall id, plain :: id in st.db.conversations && st.db.conversations[id].entryId == entryId &&
                                  MessagesOpen(env.cipher, KeyOf(st.svc), st.db.conversations[id].messages, plain) ==>
                r == Some(Database.ParseConversation(id, st.db.conversations[id]).(messages := plain))
  {
    var found := Database.GetConversation(st.db, entryId);
    if found.None? {
      return st.svc, None;
    }
    var conv := found.value;
    var om := OpenMessages(env, st.svc, conv.messages);
    svc := om.svc;
    if om.out.Failure? {
      r := None;
    } else {
      r := Some(conv.(messages := om.out.value));
    }
    forall id, plain | id in st.db.conversations && st.db.conversations[id].entryId == entryId &&
                       Truthy(st.svc.key) && Database.UniqueLinks(st.db) &&
                       MessagesOpen(env.cipher, KeyOf(st.svc), st.db.conversations[id].messages, plain)
      ensures r == Some(Database.ParseConversation(id, st.db.conversations[id]).(messages := plain))
    {
      assert id == conv.id;
      OpenedMessagesAreUnique(env, st.svc, conv.messages, plain);
    }
  }

  /** What `saveConversation` stores for an entry without a conversation,
      `getConversation` gives back: the unique row for that entry, whose
      messages open to the saved ones. */
  lemma SaveThenGetConversation(env: Env, st: State, conv: Conversation, ivAt: nat -> Encryption.Iv, now: Millis)
    requires Encryption.Sound(env.cipher) && Database.UniqueLinks(st.db)
    requires !Database.HasConversation(st.db, conv.entryId)
    ensures var r := SaveConversation(env, st, conv, ivAt, now);
            r.1.Success? ==>
              Database.UniqueLinks(r.0.db) &&
              (forall id :: id in r.0.db.conversations && r.0.db.conversations[id].entryId == conv.entryId ==> id == conv.id) &&
              MessagesOpen(env.cipher, KeyOf(r.0.svc), r.0.db.conversations[conv.id].messages, conv.messages) &&
              Database.ParseConversation(conv.id, r.0.db.conversations[conv.id]).(messages := conv.messages) ==
                conv.(summary := Database.StoredLink(conv.summary), insights := Some(conv.insights.GetOr([])))
  {
    var r := SaveConversation(env, st, conv, ivAt, now);
    if r.1.Success? {
      var sm := SealMessages(env, st.svc, ivAt, conv.messages, 0);
      var sealedConv := conv.(messages := sm.out.value);
      Database.SaveThenGetConversation(st.db, sealedConv);
    }
  }
}

=== FILE: journalscreen.dfy ===
/** The journal list (src/screens/JournalScreen.tsx): the search filter
    over the entries in memory, the emotion colour of a card, the tag
    preview and the reflection indicator. */
module JournalScreen {
  import opened Wrappers
  import opened Types
  import opened Text
  import Seqs

  // ---------------------------------------------------------------------
  // Search
  // ---------------------------------------------------------------------

  /** `s.toLowerCase().includes(q.toLowerCase())`. */
  predicate Contains(s: string, q: string) {
    Includes(Lower(s), Lower(q))
  }

  /** An entry matches when the query occurs, ignoring case, in its client
      identifier, its notes, or one of its tags. */
  predicate Matches(e: JournalEntry, q: string) {
    Contains(e.clientIdentifier, q) || Contains(e.sessionNotes, q) ||
    exists i :: 0 <= i < |e.tags| && Contains(e.tags[i], q)
  }

  /** The search effect: all entries for an empty query, else those that
      match, in their order. */
  function Visible(entries: seq<JournalEntry>, q: string): (r: seq<JournalEntry>)
    ensures q == "" ==> r == entries
    ensures q != "" ==> forall e :: e in r <==> e in entries && Matches(e, q)
    ensures q != "" ==> forall e :: multiset(r)[e] == if Matches(e, q) then multiset(entries)[e] else 0
    ensures Seqs.IsSubseq(r, entries)
  {
    if q == "" then
      Seqs.FilterKeepsAll(entries, (e: JournalEntry) => true);
      entries
    else Seqs.Filter(entries, (e: JournalEntry) => Matches(e, q))
  }

  /** An occurrence of an occurrence is an occurrence. */
  lemma IncludesTransitive(a: string, b: string, c: string)
    requires Includes(a, b) && Includes(b, c)
    ensures Includes(a, c)
  {
    var i :| 0 <= i <= |a| - |b| && OccursAt(a, b, i);
    var j :| 0 <= j <= |b| - |c| && OccursAt(b, c, j);
    assert b == a[i..i + |b|];
    assert c == b[j..j + |c|];
    assert forall k :: 0 <= k < |c| ==> a[i + j + k] == b[j + k] == c[k];
    assert a[i + j..i + j + |c|] == c;
    assert OccursAt(a, c, i + j);
  }

  /** Typing more of a query only narrows the list: when the shorter query
      occurs in the longer one, every entry the longer one shows, the
      shorter one shows too. */
  lemma NarrowingQuery(entries: seq<JournalEntry>, shorter: string, longer: string)
    requires Includes(Lower(longer), Lower(shorter))
    ensures forall e :: e in Visible(entries, longer) ==> e in Visible(entries, shorter)
  {
    if shorter != "" && longer != "" {
      forall e | e in Visible(entries, longer)
        ensures Matches(e, shorter)
      {
        if Contains(e.clientIdentifier, longer) {
          IncludesTransitive(Lower(e.clientIdentifier), Lower(longer), Lower(shorter));
        } else if Contains(e.sessionNotes, longer) {
          IncludesTransitive(Lower(e.sessionNotes), Lower(longer), Lower(shorter));
        } else {
          var i :| 0 <= i < |e.tags| && Contains(e.tags[i], longer);
          IncludesTransitive(Lower(e.tags[i]), Lower(longer), Lower(shorter));
        }
      }
    }
  }

  /** An entry is found by its own client identifier, in any case. */
  lemma FoundByClient(entries: seq<JournalEntry>, e: JournalEntry)
    requires e in entries
    ensures e in Visible(entries, e.clientIdentifier)
  {
    assert OccursAt(Lower(e.clientIdentifier), Lower(e.clientIdentifier), 0);
  }

  // ---------------------------------------------------------------------
  // Cards
  // ---------------------------------------------------------------------

  /** The theme colours a card can take. */
  datatype EmotionColor = Positive | Neutral | Negative | AnxiousColor | FrustratedColor | SadColor | OverwhelmedColor

  /** `getEmotionColor(emotion)`: the table's colour, neutral for a name
      the table lacks. */
  function ColorOf(name: string): (c: EmotionColor)
    ensures ParseEmotion(name).None? ==> c == Neutral
  {
    match ParseEmotion(name)
    case None => Neutral
    case Some(e) =>
      match e
      case Calm => Positive
      case Confident => Positive
      case Satisfied => Positive
      case Hopeful => Positive
      case Engaged => Positive
      case Anxious => AnxiousColor
      case Frustrated => FrustratedColor
      case Sad => SadColor
      case Overwhelmed => OverwhelmedColor
      case Uncertain => Neutral
      case Concerned => Neutral
      case Exhausted => Negative
  }

  /** Five emotions read as positive, two as neutral, one as negative, and
      four have a colour of their own. */
  lemma ColorGroups(e: EmotionType)
    ensures ColorOf(EmotionName(e)) == Positive <==> e in {Calm, Confident, Satisfied, Hopeful, Engaged}
    ensures ColorOf(EmotionName(e)) == Neutral <==> e in {Uncertain, Concerned}
    ensures ColorOf(EmotionName(e)) == Negative <==> e == Exhausted
  {
    EmotionNamesRoundTrip();
  }

  /** The tag row of a card: shown when there are tags, with at most three
      tags and a "+N more" count for the rest. */
  datatype TagPreview = TagPreview(visible: bool, shown: seq<string>, more: Option<int>)

  function PreviewTags(tags: seq<string>): (r: TagPreview)
    ensures r.visible <==> |tags| > 0
    ensures |r.shown| <= 3 && Seqs.IsSubseq(r.shown, tags)
    ensures |tags| <= 3 ==> r.shown == tags && r.more.None?
    ensures |tags| > 3 ==> r.shown == tags[..3] && r.more == Some(|tags| - 3)
    ensures r.more.Some? ==> |r.shown| + r.more.value == |tags|
  {
    var shown := if |tags| <= 3 then tags else tags[..3];
    PrefixIsSubseq(tags, |shown|);
    assert shown == tags[..|shown|];
    TagPreview(|tags| > 0, shown, if |tags| > 3 then Some(|tags| - 3) else None)
  }

  lemma {:induction false} PrefixIsSubseq(s: seq<string>, n: nat)
    requires n <= |s|
    ensures Seqs.IsSubseq(s[..n], s)
    decreases |s|
  {
    if n > 0 {
      PrefixIsSubseq(s[1..], n - 1);
      assert s[..n][0] == s[0];
      assert s[..n][1..] == s[1..][..n - 1];
    }
  }

  /** The "Reflection" marker: the entry has a non-empty conversation link. */
  predicate ShowsReflection(e: JournalEntry) {
    Truthy(e.aiConversationId)
  }
}

=== FILE: llm.dfy ===
/** The pure parts of the supervisor model service
    (src/services/LLMService.ts): the built-in reflection prompts and their
    selection, the context lines sent with a request, the prompt text, the
    keyword dispatch of the development replies, and configuration
    updates. The native model is a foreign bridge and is not modelled. */
module Llm {
  import opened Wrappers
  import opened Types
  import opened Text

  // ---------------------------------------------------------------------
  // Configuration
  // ---------------------------------------------------------------------

  datatype LlmConfig = LlmConfig(
    modelPath: string,
    maxTokens: int,
    temperature: real,
    topP: Option<real>,
    topK: Option<int>,
    contextWindow: int)

  const DEFAULT_CONFIG: LlmConfig :=
    LlmConfig("models/reflect-model.gguf", 512, 0.7, Some(0.9), Some(40), 2048)

  /** A `Partial<LLMConfig>`: `None` marks a key that is absent. */
  datatype ConfigPatch = ConfigPatch(
    modelPath: Option<string>,
    maxTokens: Option<int>,
    temperature: Option<real>,
    topP: Option<real>,
    topK: Option<int>,
    contextWindow: Option<int>)

  /** `updateConfig(updates)`: `{ ...config, ...updates }`. */
  function UpdateConfig(cfg: LlmConfig, p: ConfigPatch): LlmConfig {
    LlmConfig(
      p.modelPath.GetOr(cfg.modelPath),
      p.maxTokens.GetOr(cfg.maxTokens),
      p.temperature.GetOr(cfg.temperature),
      if p.topP.Some? then p.topP else cfg.topP,
      if p.topK.Some? then p.topK else cfg.topK,
      p.contextWindow.GetOr(cfg.contextWindow))
  }

  /** Only the supplied keys change, each to the supplied value. */
  lemma UpdateConfigOnlySupplied(cfg: LlmConfig, p: ConfigPatch)
    ensures var r := UpdateConfig(cfg, p);
            (p.modelPath.None? ==> r.modelPath == cfg.modelPath) &&
            (p.maxTokens.None? ==> r.maxTokens == cfg.maxTokens) &&
            (p.temperature.None? ==> r.temperature == cfg.temperature) &&
            (p.topP.None? ==> r.topP == cfg.topP) &&
            (p.topK.None? ==> r.topK == cfg.topK) &&
            (p.contextWindow.None? ==> r.contextWindow == cfg.contextWindow)
    ensures var r := UpdateConfig(cfg, p);
            (p.modelPath.Some? ==> r.modelPath == p.modelPath.value) &&
            (p.maxTokens.Some? ==> r.maxTokens == p.maxTokens.value) &&
            (p.temperature.Some? ==> r.temperature == p.temperature.value) &&
            (p.topP.Some? ==> r.topP == p.topP) &&
            (p.topK.Some? ==> r.topK == p.topK) &&
            (p.contextWindow.Some? ==> r.contextWindow == p.contextWindow.value)
    ensures UpdateConfig(cfg, ConfigPatch(None, None, None, None, None, None)) == cfg
  {
  }

  // ---------------------------------------------------------------------
  // Reflection prompts
  // ---------------------------------------------------------------------

  const CT_1: ReflectionPrompt := ReflectionPrompt("ct_1", Countertransference,
    "What feelings did you notice arising in yourself during this session?",
    ["How might these feelings be informing your understanding of the client?",
     "Are there any patterns in your emotional responses across sessions?"],
    Some(Psychodynamic))

  const CT_2: ReflectionPrompt := ReflectionPrompt("ct_2", Countertransference,
    "Did any moment in the session trigger a personal memory or association for you?",
    ["How might this personal connection be influencing your therapeutic stance?",
     "What boundaries might need attention here?"],
    Some(Psychodynamic))

  const B_1: ReflectionPrompt := ReflectionPrompt("b_1", Boundaries,
    "Were there any moments where professional boundaries felt challenged or unclear?",
    ["What made the boundary feel uncertain in that moment?",
     "How did you navigate this challenge?",
     "What might you do differently next time?"],
    Some(Integrative))

  const E_1: ReflectionPrompt := ReflectionPrompt("e_1", Ethical,
    "Did any ethical considerations arise during this session?",
    ["What ethical principles are most relevant here?",
     "Are there any consultation needs arising from this situation?",
     "How are you documenting this consideration?"],
    Some(Integrative))

  const C_1: ReflectionPrompt := ReflectionPrompt("c_1", Clinical,
    "What clinical hypothesis are you forming about this client's presentation?",
    ["What evidence supports this hypothesis?",
     "What alternative explanations might be worth considering?",
     "How will you explore this further in future sessions?"],
    Some(Cbt))

  const SC_1: ReflectionPrompt := ReflectionPrompt("sc_1", SelfCare,
    "How are you feeling after this session in terms of your own wellbeing?",
    ["What do you need right now to process this session?",
     "Are there any self-care practices that would be helpful?",
     "How is your overall caseload affecting you currently?"],
    Some(PersonCentered))

  /** The built-in prompts of a category, in table order. Professional
      development and supervision preparation have none. */
  function PromptsFor(cat: ReflectionCategory): seq<ReflectionPrompt> {
    match cat
    case Countertransference => [CT_1, CT_2]
    case Boundaries => [B_1]
    case Ethical => [E_1]
    case Clinical => [C_1]
    case SelfCare => [SC_1]
    case ProfessionalDevelopment => []
    case SupervisionPrep => []
  }

  /** Every built-in prompt is filed under its own category. */
  lemma PromptsMatchCategory(cat: ReflectionCategory)
    ensures forall p :: p in PromptsFor(cat) ==> p.category == cat && p.framework.Some?
    ensures |PromptsFor(cat)| <= 2
  {
  }

  /** Prompt i is the first of `ps` with framework `fw`. */
  predicate FirstWithFramework(ps: seq<ReflectionPrompt>, fw: TherapeuticFramework, i: int) {
    0 <= i < |ps| && ps[i].framework == Some(fw) &&
    forall j :: 0 <= j < i ==> ps[j].framework != Some(fw)
  }

  /** `prompts.find(p => p.framework === framework)`. */
  function FindFramework(ps: seq<ReflectionPrompt>, fw: TherapeuticFramework): (r: Option<ReflectionPrompt>)
    ensures r.None? <==> forall p :: p in ps ==> p.framework != Some(fw)
    ensures r.Some? ==> exists i :: FirstWithFramework(ps, fw, i) && ps[i] == r.value
    decreases |ps|
  {
    if ps == [] then None
    else if ps[0].framework == Some(fw) then
      assert FirstWithFramework(ps, fw, 0);
      Some(ps[0])
    else
      var r := FindFramework(ps[1..], fw);
      assert forall p :: p in ps ==> p == ps[0] || p in ps[1..];
      if r.Some? then
        var i :| FirstWithFramework(ps[1..], fw, i) && ps[1..][i] == r.value;
        assert FirstWithFramework(ps, fw, i + 1);
        r
      else r
  }

  /** `getReflectionPrompt(category, framework?)`. */
  function GetReflectionPrompt(cat: ReflectionCategory, fw: Option<TherapeuticFramework>): (r: Option<ReflectionPrompt>)
    ensures r.None? <==> PromptsFor(cat) == []
    ensures r.Some? ==> r.value in PromptsFor(cat)
    // a prompt of the requested framework wins, the first one of them
    ensures fw.Some? && (exists p :: p in PromptsFor(cat) && p.framework == fw) ==>
              exists i :: FirstWithFramework(PromptsFor(cat), fw.value, i) && r == Some(PromptsFor(cat)[i])
    // otherwise the category's first prompt
    ensures (fw.None? || forall p :: p in PromptsFor(cat) ==> p.framework != fw) && PromptsFor(cat) != [] ==>
              r == Some(PromptsFor(cat)[0])
  {
    var ps := PromptsFor(cat);
    var found := if fw.Some? then FindFramework(ps, fw.value) else None;
    if found.Some? then found
    else if ps == [] then None
    else Some(ps[0])
  }

  /** Some concrete selections: a framework the category lacks falls back
      to the first prompt, and an empty category yields null. */
  lemma ReflectionPromptExamples()
    ensures GetReflectionPrompt(Countertransference, Some(Cbt)).value.id == "ct_1"
    ensures GetReflectionPrompt(Clinical, Some(Cbt)).value.id == "c_1"
    ensures GetReflectionPrompt(SelfCare, None).value.id == "sc_1"
    ensures GetReflectionPrompt(ProfessionalDevelopment, Some(Systemic)).None?
    ensures GetReflectionPrompt(SupervisionPrep, None).None?
  {
  }

  // ---------------------------------------------------------------------
  // Request context and prompt
  // ---------------------------------------------------------------------

  /** The speaker label of a history line. */
  function Label(r: Role): (s: string)
    ensures s == "Therapist" <==> r == UserRole
    ensures s == "Supervisor" <==> r != UserRole
  {
    if r == UserRole then "Therapist" else "Supervisor"
  }

  /** One history line: `<label>: <content>`. */
  function Line(m: Message): string {
    Label(m.role) + ": " + m.content
  }

  /** `s.slice(-n)`: the last n elements, or all of them. */
  function LastN<T>(s: seq<T>, n: nat): (r: seq<T>)
    ensures |r| == if |s| <= n then |s| else n
    ensures r == s[|s| - |r|..]
  {
    if |s| <= n then s else s[|s| - n..]
  }

  /** `buildContext(history, entryContext?)`: the session notes first, when
      non-empty, then the last ten messages as labelled lines. */
  function BuildContext(history: seq<Message>, entryContext: Option<string>): (r: seq<string>)
    ensures |r| <= 11
    ensures var off := if Truthy(entryContext) then 1 else 0;
            var recent := LastN(history, 10);
            |r| == off + |recent| &&
            forall i :: 0 <= i < |recent| ==> r[off + i] == Line(recent[i])
    ensures Truthy(entryContext) ==> r[0] == "Session Notes: " + entryContext.value
  {
    var head := if Truthy(entryContext) then ["Session Notes: " + entryContext.value] else [];
    head + seq(|LastN(history, 10)|, i requires 0 <= i < |LastN(history, 10)| => Line(LastN(history, 10)[i]))
  }

  /** A message older than the last ten never reaches the context, and
      each of the last ten does, in order. */
  lemma ContextKeepsRecentInOrder(history: seq<Message>, entryContext: Option<string>, k: int)
    requires 0 <= k < |history|
    ensures var r := BuildContext(history, entryContext);
            var off := if Truthy(entryContext) then 1 else 0;
            var start := if |history| <= 10 then 0 else |history| - 10;
            (k >= start ==> r[off + k - start] == Line(history[k])) &&
            |r| - off == |history| - start
  {
  }

  /** `generateSessionSummary` sends no history and the notes as context:
      the context is the one notes line, or empty for empty notes. */
  lemma SummaryContext(notes: string)
    ensures notes != "" ==> BuildContext([], Some(notes)) == ["Session Notes: " + notes]
    ensures notes == "" ==> BuildContext([], Some(notes)) == []
  {
  }

  const USER_MARK: string := "\n\nUser: "
  const ASSISTANT_MARK: string := "\n\nAssistant:"

  /** The prompt `generateResponse` sends: the system prompt, the user
      turn, and an open assistant turn. */
  function FullPrompt(system: string, message: string): (r: string)
    ensures |r| == |system| + |message| + 20
    ensures r[..|system|] == system
    ensures r[|system|..|system| + 8] == USER_MARK
    ensures r[|system| + 8..|r| - 12] == message
    ensures r[|r| - 12..] == ASSISTANT_MARK
  {
    system + USER_MARK + message + ASSISTANT_MARK
  }

  /** The message can be read back off the prompt, so distinct messages
      give distinct prompts. */
  lemma FullPromptInjective(system: string, m1: string, m2: string)
    requires FullPrompt(system, m1) == FullPrompt(system, m2)
    ensures m1 == m2
  {
    var r := FullPrompt(system, m1);
    assert m1 == r[|system| + 8..|r| - 12];
  }

  /** The stop sequences passed to the bridge. */
  const STOP_SEQUENCES: seq<string> := ["\nUser:", "\n\nUser:"]

  /** What `generateResponse` hands to the native bridge. */
  datatype BridgeRequest = BridgeRequest(
    prompt: string,
    context: seq<string>,
    maxTokens: int,
    temperature: real,
    topP: Option<real>,
    topK: Option<int>,
    stopSequences: seq<string>)

  function RequestFor(cfg: LlmConfig, system: string, message: string,
                      history: seq<Message>, entryContext: Option<string>): (r: BridgeRequest)
    ensures r.prompt == FullPrompt(system, message) && r.context == BuildContext(history, entryContext)
    ensures r.maxTokens == cfg.maxTokens && r.temperature == cfg.temperature
    ensures r.topP == cfg.topP && r.topK == cfg.topK
    ensures r.stopSequences == STOP_SEQUENCES
  {
    BridgeRequest(FullPrompt(system, message), BuildContext(history, entryContext),
                  cfg.maxTokens, cfg.temperature, cfg.topP, cfg.topK, STOP_SEQUENCES)
  }

  /** With the default configuration the bridge is asked for 512 tokens
      at temperature 0.7, top-p 0.9 and top-k 40. */
  lemma DefaultRequest(system: string, message: string, history: seq<Message>, entryContext: Option<string>)
    ensures var r := RequestFor(DEFAULT_CONFIG, system, message, history, entryContext);
            r.maxTokens == 512 && r.temperature == 0.7 && r.topP == Some(0.9) && r.topK == Some(40)
  {
  }

  // ---------------------------------------------------------------------
  // Development replies
  // ---------------------------------------------------------------------

  /** The five canned replies, by topic. */
  datatype MockReply = FeelingsReply | DifficultyReply | BoundaryReply | TransferenceReply | ReflectiveReply

  predicate AboutFeelings(m: string) { Mentions(m, "feeling") || Mentions(m, "felt") }
  predicate AboutDifficulty(m: string) { Mentions(m, "difficult") || Mentions(m, "challenging") }
  predicate AboutBoundaries(m: string) { Mentions(m, "boundary") || Mentions(m, "boundaries") }
  predicate AboutTransference(m: string) { Mentions(m, "counter") || Mentions(m, "transference") }

  /** `generateMockResponse`: the first keyword group the lowercased
      message mentions picks the reply. */
  function MockResponse(message: string): (r: MockReply)
    ensures r == FeelingsReply <==> AboutFeelings(message)
    ensures r == DifficultyReply <==> !AboutFeelings(message) && AboutDifficulty(message)
    ensures r == BoundaryReply <==>
              !AboutFeelings(message) && !AboutDifficulty(message) && AboutBoundaries(message)
    ensures r == TransferenceReply <==>
              !AboutFeelings(message) && !AboutDifficulty(message) && !AboutBoundaries(message) &&
              AboutTransference(message)
    ensures r == ReflectiveReply <==>
              !AboutFeelings(message) && !AboutDifficulty(message) && !AboutBoundaries(message) &&
              !AboutTransference(message)
  {
    if AboutFeelings(message) then FeelingsReply
    else if AboutDifficulty(message) then DifficultyReply
    else if AboutBoundaries(message) then BoundaryReply
    else if AboutTransference(message) then TransferenceReply
    else ReflectiveReply
  }

  /** The reply ignores case: a message and its lower-cased form draw the
      same reply. */
  lemma MockResponseIgnoresCase(m: string)
    ensures MockResponse(Lower(m)) == MockResponse(m)
  {
    LowerIdempotent(m);
  }

  /** The match ignores ASCII case, and an earlier group wins over a later
      one: "Felt a boundary" gets the feelings reply. */
  lemma MockResponseExample()
    ensures MockResponse("Felt a boundary") == FeelingsReply
    ensures Mentions("Felt a boundary", "boundary")
  {
    var l := Lower("Felt a boundary");
    assert l[0..4] == "felt";
    assert OccursAt(l, "felt", 0);
    assert l[7..15] == "boundary";
    assert OccursAt(l, "boundary", 7);
  }

  /** Whatever the message, exactly one reply is chosen, and the default
      one only when no keyword is mentioned; "countertransference" falls
      in the transference group through "counter". */
  lemma MockResponseGroups(message: string)
    ensures Mentions(message, "countertransference") ==> Mentions(message, "counter")
    ensures Mentions(message, "countertransference") && MockResponse(message) != FeelingsReply &&
            MockResponse(message) != DifficultyReply && MockResponse(message) != BoundaryReply ==>
              MockResponse(message) == TransferenceReply
  {
    if Mentions(message, "countertransference") {
      var l := Lower(message);
      var i :| 0 <= i <= |l| - 19 && OccursAt(l, "countertransference", i);
      assert l[i..i + 7] == l[i..i + 19][..7] == "counter";
      assert OccursAt(l, "counter", i);
    }
  }
}

=== FILE: navigation.dfy ===
/** The root stack (src/navigation/RootNavigator.tsx): which screens are
    registered for a given authentication state and first-launch flag. */
module Navigation {
  import opened Wrappers
  import Types
  import Auth

  datatype Route =
    | Onboarding | AuthRoute
    | Main | EntryDetail | NewEntry | Conversation | Settings | Analytics | Export | About

  /** The screens behind the PIN. */
  predicate Protected(r: Route) {
    !(r == Onboarding || r == AuthRoute)
  }

  /** Registered for an authenticated user, in declaration order. */
  const APP_ROUTES: seq<Route> := [Main, EntryDetail, NewEntry, Conversation, Settings, Analytics, Export, About]

  /** `checkFirstLaunch`, run once on mount: a first launch is one with no
      user in the context at that moment. */
  function FirstLaunch(user: Option<Types.User>): (r: bool)
    ensures r <==> user.None?
  {
    !user.Some?
  }

  /** The registered screens, in order; `None` while the first-launch
      check is pending, when nothing is rendered. The first entry is the
      screen shown. */
  function Routes(isAuthenticated: bool, isFirstLaunch: Option<bool>): (r: Option<seq<Route>>)
    ensures r.None? <==> isFirstLaunch.None?
    ensures r.Some? && isAuthenticated ==> r.value == APP_ROUTES
    ensures r.Some? && !isAuthenticated ==>
              AuthRoute in r.value && (Onboarding in r.value <==> isFirstLaunch.value) &&
              forall i :: 0 <= i < |r.value| ==> !Protected(r.value[i])
  {
    match isFirstLaunch
    case None => None
    case Some(first) =>
      if isAuthenticated then Some(APP_ROUTES)
      else if first then Some([Onboarding, AuthRoute])
      else Some([AuthRoute])
  }

  /** The screen on top: onboarding on a first launch, the lock screen
      otherwise, and the tab navigator once authenticated. No route is
      registered twice. */
  lemma ShownScreen(isAuthenticated: bool, first: bool)
    ensures var rs := Routes(isAuthenticated, Some(first)).value;
            |rs| > 0 &&
            rs[0] == (if isAuthenticated then Main else if first then Onboarding else AuthRoute) &&
            forall i, j :: 0 <= i < j < |rs| ==> rs[i] != rs[j]
  {
  }

  /** The header title of a screen; `None` where the header is hidden. */
  function Title(r: Route): (t: Option<string>)
    ensures t.None? <==> r in {Onboarding, AuthRoute, Main}
  {
    match r
    case Onboarding => None
    case AuthRoute => None
    case Main => None
    case EntryDetail => Some("Session Entry")
    case NewEntry => Some("New Entry")
    case Conversation => Some("Reflect")
    case Settings => Some("Settings")
    case Analytics => Some("Insights")
    case Export => Some("Export Data")
    case About => Some("About Reflect")
  }

  /** The gatekeeper drives the stack: a successful `login` swaps in the
      app screens, while `logout` and `lockApp` leave only the lock screen
      (and onboarding) registered. */
  lemma GateDrivesStack(g: Auth.Gate, pin: Option<string>, now: Types.Millis, bio: Auth.BioOutcome, first: bool)
    ensures Auth.Login(g, pin, now, bio).ok ==>
              Routes(Auth.Login(g, pin, now, bio).gate.auth.isAuthenticated, Some(first)) == Some(APP_ROUTES)
    ensures var rs := Routes(Auth.Logout(g).auth.isAuthenticated, Some(first)).value;
            AuthRoute in rs && forall i :: 0 <= i < |rs| ==> !Protected(rs[i])
    ensures var rs := Routes(Auth.LockApp(g).auth.isAuthenticated, Some(first)).value;
            AuthRoute in rs && forall i :: 0 <= i < |rs| ==> !Protected(rs[i])
  {
  }
}

=== FILE: newentry.dfy ===
/** The new-entry form (src/screens/NewEntryScreen.tsx): validation before
    `createEntry`, the tag list, and the "Create Another" reset. */
module NewEntry {
  import opened Wrappers
  import opened Types
  import opened Text
  import Seqs

  /** The form's fields. The date picker gives `sessionDate`. */
  datatype Form = Form(
    clientIdentifier: string,
    sessionDate: Millis,
    sessionNotes: string,
    emotion: EmotionType,
    intensity: Intensity,
    tags: seq<string>,
    tagInput: string)

  /** The form when the screen opens at time `now`. */
  function InitialForm(now: Millis): (f: Form)
    ensures f.tags == [] && f.emotion == Calm && f.intensity == 3 && f.sessionDate == now
  {
    Form("", now, "", Calm, 3, [], "")
  }

  /** What pressing Save does: one of two alerts, or a call to
      `createEntry` with this draft. */
  datatype SaveOutcome = MissingClient | MissingNotes | Submit(draft: EntryDraft)

  /** `handleSave`. */
  function HandleSave(f: Form): (r: SaveOutcome)
    ensures r == MissingClient <==> AllSpace(f.clientIdentifier)
    ensures r == MissingNotes <==> !AllSpace(f.clientIdentifier) && AllSpace(f.sessionNotes)
    ensures r.Submit? <==> !AllSpace(f.clientIdentifier) && !AllSpace(f.sessionNotes)
    ensures r.Submit? ==>
              r.draft.clientIdentifier == Trim(f.clientIdentifier) && r.draft.clientIdentifier != "" &&
              r.draft.sessionNotes == Trim(f.sessionNotes) && r.draft.sessionNotes != "" &&
              r.draft.sessionDate == f.sessionDate &&
              r.draft.emotionalState == EmotionalState(f.emotion, f.intensity, None, None) &&
              r.draft.tags == f.tags && r.draft.aiConversationId.None?
  {
    var client := Trim(f.clientIdentifier);
    var notes := Trim(f.sessionNotes);
    if client == "" then MissingClient
    else if notes == "" then MissingNotes
    else Submit(EntryDraft(client, f.sessionDate, notes, EmotionalState(f.emotion, f.intensity, None, None), f.tags, None))
  }

  /** A submitted draft is already trimmed: filling a form with it and
      saving again submits the same draft. */
  lemma SubmittedDraftIsStable(f: Form)
    requires HandleSave(f).Submit?
    ensures var d := HandleSave(f).draft;
            HandleSave(f.(clientIdentifier := d.clientIdentifier, sessionNotes := d.sessionNotes)) == HandleSave(f)
  {
    TrimIdempotent(f.clientIdentifier);
    TrimIdempotent(f.sessionNotes);
  }

  /** Every tag is non-empty and has no surrounding whitespace, and no tag
      occurs twice. */
  predicate GoodTags(tags: seq<string>) {
    Seqs.Distinct(tags) && forall i :: 0 <= i < |tags| ==> tags[i] != "" && Trim(tags[i]) == tags[i]
  }

  /** `addTag`: the trimmed input is appended when it is non-empty and not
      yet a tag, and only then is the input cleared. */
  function AddTag(f: Form): (r: Form)
    ensures var t := Trim(f.tagInput);
            if t != "" && t !in f.tags then r == f.(tags := f.tags + [t], tagInput := "")
            else r == f
    ensures GoodTags(f.tags) ==> GoodTags(r.tags)
  {
    var t := Trim(f.tagInput);
    if t != "" && t !in f.tags then
      TrimIdempotent(f.tagInput);
      AppendKeepsGood(f.tags, t);
      f.(tags := f.tags + [t], tagInput := "")
    else f
  }

  lemma AppendKeepsGood(tags: seq<string>, t: string)
    requires t != "" && Trim(t) == t && t !in tags
    ensures GoodTags(tags) ==> GoodTags(tags + [t])
  {
    if GoodTags(tags) {
      var r := tags + [t];
      forall i, j | 0 <= i < j < |r| ensures r[i] != r[j] {
        assert r[i] == tags[i];
        if j == |tags| {
          assert r[i] in tags;
        } else {
          assert r[j] == tags[j];
        }
      }
      forall i | 0 <= i < |r| ensures r[i] != "" && Trim(r[i]) == r[i] {
        if i < |tags| {
          assert r[i] == tags[i];
        }
      }
    }
  }

  /** `removeTag(tag)`: every copy of the tag goes, the rest keep their
      order. */
  function RemoveTag(f: Form, tag: string): (r: Form)
    ensures tag !in r.tags
    ensures forall t :: t in r.tags <==> t in f.tags && t != tag
    ensures Seqs.IsSubseq(r.tags, f.tags)
    ensures r == f.(tags := r.tags)
    ensures GoodTags(f.tags) ==> GoodTags(r.tags)
  {
    var keep := (t: string) => t != tag;
    FilterKeepsGood(f.tags, keep);
    f.(tags := Seqs.Filter(f.tags, keep))
  }

  lemma FilterKeepsGood(tags: seq<string>, keep: string -> bool)
    ensures GoodTags(tags) ==> GoodTags(Seqs.Filter(tags, keep))
  {
    if GoodTags(tags) {
      var kept := Seqs.Filter(tags, keep);
      Seqs.FilterDistinct(tags, keep);
      assert forall i :: 0 <= i < |kept| ==> kept[i] in tags;
    }
  }

  /** Removing a tag that was just added gives back the earlier list. */
  lemma RemoveAfterAppend(s: seq<string>, t: string)
    requires t !in s
    ensures Seqs.Filter(s + [t], (x: string) => x != t) == s
  {
    var keep := (x: string) => x != t;
    Seqs.FilterAppendRejected(s, t, keep);
    Seqs.FilterKeepsAll(s, keep);
  }

  /** Adding a tag and removing it again restores the tag list. */
  lemma AddThenRemove(f: Form)
    requires Trim(f.tagInput) != "" && Trim(f.tagInput) !in f.tags
    ensures RemoveTag(AddTag(f), Trim(f.tagInput)).tags == f.tags
  {
    RemoveAfterAppend(f.tags, Trim(f.tagInput));
  }

  /** "Create Another": the identifier, notes, emotion, intensity and tags
      go back to their initial values; the session date and the tag input
      are kept. */
  function CreateAnother(f: Form): (r: Form)
    ensures r == InitialForm(f.sessionDate).(tagInput := f.tagInput)
    ensures r.sessionDate == f.sessionDate && r.tagInput == f.tagInput
  {
    f.(clientIdentifier := "", sessionNotes := "", emotion := Calm, intensity := 3, tags := [])
  }

  /** Saving straight after "Create Another" only raises the missing
      identifier alert. */
  lemma CreateAnotherThenSave(f: Form)
    ensures HandleSave(CreateAnother(f)) == MissingClient
  {
  }
}

=== FILE: seqs.dfy ===
/** Sequence helpers shared by the list screens: JavaScript's
    `Array.prototype.filter`, the subsequence order it preserves, and
    duplicate-freedom. */
module Seqs {

  /** `a` can be obtained from `s` by deleting elements, keeping the order
      of the rest. */
  predicate IsSubseq<T(==)>(a: seq<T>, s: seq<T>)
    decreases |s|
  {
    if |a| == 0 then true
    else if |s| == 0 then false
    else (a[0] == s[0] && IsSubseq(a[1..], s[1..])) || IsSubseq(a, s[1..])
  }

  predicate Distinct<T(==)>(s: seq<T>) {
    forall i, j :: 0 <= i < j < |s| ==> s[i] != s[j]
  }

  /** `s.filter(keep)`: the elements satisfying `keep`, in their original
      order. */
  function Filter<T(==, !new)>(s: seq<T>, keep: T -> bool): (r: seq<T>)
    ensures |r| <= |s|
    ensures forall x :: x in r <==> x in s && keep(x)
    // each kept element as often as in `s`
    ensures forall x :: multiset(r)[x] == if keep(x) then multiset(s)[x] else 0
    ensures IsSubseq(r, s)
    decreases |s|
  {
    if |s| == 0 then []
    else
      var rest := Filter(s[1..], keep);
      assert s == [s[0]] + s[1..];
      assert multiset(s) == multiset([s[0]]) + multiset(s[1..]);
      if keep(s[0]) then
        var r := [s[0]] + rest;
        assert r[1..] == rest && multiset(r) == multiset([s[0]]) + multiset(rest);
        r
      else
        rest
  }

  /** A filter that rejects nothing returns its input. */
  lemma {:induction false} FilterKeepsAll<T(!new)>(s: seq<T>, keep: T -> bool)
    requires forall i :: 0 <= i < |s| ==> keep(s[i])
    ensures Filter(s, keep) == s
    decreases |s|
  {
    if |s| > 0 {
      FilterKeepsAll(s[1..], keep);
    }
  }

  /** An element the filter rejects, appended at the end, leaves no trace. */
  lemma {:induction false} FilterAppendRejected<T(!new)>(s: seq<T>, x: T, keep: T -> bool)
    requires !keep(x)
    ensures Filter(s + [x], keep) == Filter(s, keep)
    decreases |s|
  {
    var u := s + [x];
    if s == [] {
      assert u[1..] == [];
    } else {
      assert u[0] == s[0] && u[1..] == s[1..] + [x];
      FilterAppendRejected(s[1..], x, keep);
    }
  }

  /** Filtering a duplicate-free list leaves it duplicate-free. */
  lemma {:induction false} FilterDistinct<T(!new)>(s: seq<T>, keep: T -> bool)
    requires Distinct(s)
    ensures Distinct(Filter(s, keep))
    decreases |s|
  {
    if |s| > 0 {
      DistinctTail(s);
      FilterDistinct(s[1..], keep);
      var rest := Filter(s[1..], keep);
      if keep(s[0]) {
        assert Filter(s, keep) == [s[0]] + rest;
        DistinctCons(s[0], rest);
      } else {
        assert Filter(s, keep) == rest;
      }
    }
  }

  lemma DistinctTail<T>(s: seq<T>)
    requires Distinct(s) && |s| > 0
    ensures Distinct(s[1..]) && s[0] !in s[1..]
  {
    forall i, j | 0 <= i < j < |s[1..]|
      ensures s[1..][i] != s[1..][j]
    {
      assert s[1..][i] == s[i + 1] && s[1..][j] == s[j + 1];
    }
    forall k | 0 <= k < |s[1..]|
      ensures s[1..][k] != s[0]
    {
      assert s[1..][k] == s[k + 1];
    }
  }

  lemma DistinctCons<T>(x: T, r: seq<T>)
    requires Distinct(r) && x !in r
    ensures Distinct([x] + r)
  {
    var xr := [x] + r;
    forall i, j | 0 <= i < j < |xr|
      ensures xr[i] != xr[j]
    {
      assert xr[j] == r[j - 1];
      if i > 0 {
        assert xr[i] == r[i - 1];
      }
    }
  }

  /** Putting the head back in front of a tail that gained `e` gives the
      whole sequence with `e` added. */
  lemma ConsAdded<T>(s: seq<T>, rest: seq<T>, e: T)
    requires |s| > 0
    requires multiset(rest) == multiset(s[1..]) + multiset{e}
    ensures multiset([s[0]] + rest) == multiset(s) + multiset{e}
    ensures forall x :: x in [s[0]] + rest <==> x in s || x == e
  {
    assert s == [s[0]] + s[1..];
    forall x
      ensures x in [s[0]] + rest <==> x in s || x == e
    {
      assert x in [s[0]] + rest <==> x in multiset([s[0]] + rest);
      assert x in s <==> x in multiset(s);
    }
  }
}

=== FILE: settings.dfy ===
/** App preferences (src/contexts/SettingsContext.tsx): defaults, the
    saved JSON object laid over them, updates and reset. The JSON text in
    AsyncStorage is modelled by the object it parses to; a value that does
    not parse is `Malformed`. */
module Settings {
  import opened Wrappers
  import opened Types

  const DEFAULT_SETTINGS: UserSettings :=
    UserSettings(false, 15, Auto, Medium, true, false, None)

  /** A `Partial<UserSettings>`: `None` marks a key that is absent. */
  datatype SettingsPatch = SettingsPatch(
    biometricsEnabled: Option<bool>,
    sessionTimeout: Option<int>,
    themeMode: Option<ThemeMode>,
    fontSize: Option<FontSize>,
    autoBackup: Option<bool>,
    reminderEnabled: Option<bool>,
    reminderTime: Option<string>)

  const NO_UPDATES: SettingsPatch := SettingsPatch(None, None, None, None, None, None, None)

  /** The object `JSON.stringify(settings)` writes: every key that is set. */
  function Full(s: UserSettings): SettingsPatch {
    SettingsPatch(Some(s.biometricsEnabled), Some(s.sessionTimeout), Some(s.themeMode), Some(s.fontSize),
                  Some(s.autoBackup), Some(s.reminderEnabled), s.reminderTime)
  }

  /** `{ ...base, ...patch }`. */
  function Overlay(base: UserSettings, p: SettingsPatch): (r: UserSettings)
    ensures r.reminderTime == (if p.reminderTime.Some? then p.reminderTime else base.reminderTime)
  {
    UserSettings(
      p.biometricsEnabled.GetOr(base.biometricsEnabled),
      p.sessionTimeout.GetOr(base.sessionTimeout),
      p.themeMode.GetOr(base.themeMode),
      p.fontSize.GetOr(base.fontSize),
      p.autoBackup.GetOr(base.autoBackup),
      p.reminderEnabled.GetOr(base.reminderEnabled),
      if p.reminderTime.Some? then p.reminderTime else base.reminderTime)
  }

  /** A key the patch leaves out keeps its value; a supplied key takes the
      patch's value; an empty patch changes nothing. */
  lemma OverlayOnlySupplied(base: UserSettings, p: SettingsPatch)
    ensures var r := Overlay(base, p);
            (p.biometricsEnabled.None? ==> r.biometricsEnabled == base.biometricsEnabled) &&
            (p.sessionTimeout.None? ==> r.sessionTimeout == base.sessionTimeout) &&
            (p.themeMode.None? ==> r.themeMode == base.themeMode) &&
            (p.fontSize.None? ==> r.fontSize == base.fontSize) &&
            (p.autoBackup.None? ==> r.autoBackup == base.autoBackup) &&
            (p.reminderEnabled.None? ==> r.reminderEnabled == base.reminderEnabled) &&
            (p.reminderTime.None? ==> r.reminderTime == base.reminderTime)
    ensures var r := Overlay(base, p);
            (p.biometricsEnabled.Some? ==> r.biometricsEnabled == p.biometricsEnabled.value) &&
            (p.sessionTimeout.Some? ==> r.sessionTimeout == p.sessionTimeout.value) &&
            (p.themeMode.Some? ==> r.themeMode == p.themeMode.value) &&
            (p.fontSize.Some? ==> r.fontSize == p.fontSize.value) &&
            (p.autoBackup.Some? ==> r.autoBackup == p.autoBackup.value) &&
            (p.reminderEnabled.Some? ==> r.reminderEnabled == p.reminderEnabled.value)
    ensures Overlay(base, NO_UPDATES) == base
  {
  }

  /** Writing the whole settings object and laying it over anything gives
      back that object, unless it lacks a reminder time the base has. */
  lemma OverlayFull(base: UserSettings, s: UserSettings)
    ensures s.reminderTime.Some? || base.reminderTime.None? ==> Overlay(base, Full(s)) == s
  {
  }

  /** What AsyncStorage holds under `app_settings`. */
  datatype Saved = Missing | Malformed | Stored(patch: SettingsPatch)

  /** `loadSettings` at start-up: the defaults, overlaid with the saved
      object when there is one that parses. */
  function LoadSettings(saved: Saved): (r: UserSettings)
    ensures saved.Stored? ==> r == Overlay(DEFAULT_SETTINGS, saved.patch)
    ensures !saved.Stored? ==> r == DEFAULT_SETTINGS
  {
    match saved
    case Stored(p) => Overlay(DEFAULT_SETTINGS, p)
    case _ => DEFAULT_SETTINGS
  }

  /** The in-memory settings and the saved copy. */
  datatype SettingsStore = SettingsStore(settings: UserSettings, saved: Saved)

  /** `updateSettings`: the new object is set in memory first and then
      written; a failed write is rethrown with memory already updated. */
  function UpdateSettings(st: SettingsStore, updates: SettingsPatch, writeOk: bool): (r: (SettingsStore, bool))
    ensures r.0.settings == Overlay(st.settings, updates)
    ensures r.1 <==> writeOk
    ensures r.1 ==> LoadSettings(r.0.saved) == r.0.settings
    ensures !r.1 ==> r.0.saved == st.saved
  {
    var next := Overlay(st.settings, updates);
    OverlayFull(DEFAULT_SETTINGS, next);
    if writeOk then (SettingsStore(next, Stored(Full(next))), true)
    else (SettingsStore(next, st.saved), false)
  }

  /** `resetSettings`: the defaults, in memory and in storage. */
  function ResetSettings(st: SettingsStore, writeOk: bool): (r: (SettingsStore, bool))
    ensures r.0.settings == DEFAULT_SETTINGS
    ensures r.1 <==> writeOk
    ensures r.1 ==> LoadSettings(r.0.saved) == DEFAULT_SETTINGS
  {
    if writeOk then (SettingsStore(DEFAULT_SETTINGS, Stored(Full(DEFAULT_SETTINGS))), true)
    else (SettingsStore(DEFAULT_SETTINGS, st.saved), false)
  }

  /** The defaults: biometrics off, a 15-minute session timeout, automatic
      theme, medium font, backups on, reminders off. */
  lemma DefaultValues()
    ensures LoadSettings(Missing) == DEFAULT_SETTINGS
    ensures DEFAULT_SETTINGS.biometricsEnabled == false && DEFAULT_SETTINGS.sessionTimeout == 15
    ensures DEFAULT_SETTINGS.themeMode == Auto && DEFAULT_SETTINGS.fontSize == Medium
    ensures DEFAULT_SETTINGS.autoBackup && !DEFAULT_SETTINGS.reminderEnabled
  {
  }

  /** An empty update changes nothing in memory; a second reset is the
      same as the first. */
  lemma UpdateEmptyAndResetIdempotent(st: SettingsStore, writeOk: bool, writeOk': bool)
    ensures UpdateSettings(st, NO_UPDATES, writeOk).0.settings == st.settings
    ensures writeOk && writeOk' ==>
              ResetSettings(ResetSettings(st, writeOk).0, writeOk') == ResetSettings(st, writeOk)
  {
    OverlayOnlySupplied(st.settings, NO_UPDATES);
  }
}

=== FILE: sqllike.dfy ===
/** SQLite's `LIKE` operator without an ESCAPE clause: `%` matches any run
    of characters, `_` matches exactly one, and every other character matches
    itself up to ASCII case. `searchEntries` wraps the query as
    `%query%` and matches it against the serialized tags column. */
module SqlLike {
  import opened Text

  /** `s LIKE p`. */
  predicate Like(s: string, p: string)
    decreases |s| + |p|
  {
    if |p| == 0 then |s| == 0
    else if p[0] == '%' then Like(s, p[1..]) || (|s| > 0 && Like(s[1..], p))
    else |s| > 0 && (p[0] == '_' || LowerChar(p[0]) == LowerChar(s[0])) && Like(s[1..], p[1..])
  }

  /** The query contains neither of LIKE's two wildcard characters. */
  predicate NoWildcard(q: string) {
    forall i :: 0 <= i < |q| ==> q[i] != '%' && q[i] != '_'
  }

  /** The pattern `searchEntries` binds for a query. */
  function ContainsPattern(q: string): (p: string)
    ensures |p| == |q| + 2 && p[0] == '%' && p[|p| - 1] == '%'
    ensures p[1..|p| - 1] == q
  {
    "%" + q + "%"
  }

  lemma LowerCons(s: string)
    requires |s| > 0
    ensures Lower(s) == [LowerChar(s[0])] + Lower(s[1..])
  {
  }

  lemma LowerSlice(s: string, i: int, j: int)
    requires 0 <= i <= j <= |s|
    ensures Lower(s[i..j]) == Lower(s)[i..j]
  {
  }

  /** A lone `%` matches every string. */
  lemma {:induction false} LikeAll(s: string)
    ensures Like(s, "%")
    decreases |s|
  {
    assert "%"[1..] == "";
    if |s| > 0 {
      LikeAll(s[1..]);
    }
  }

  /** `s LIKE q%` for a wildcard-free q: q is a case-folded prefix of s. */
  lemma {:induction false} LikePrefix(s: string, q: string)
    requires NoWildcard(q)
    ensures Like(s, q + "%") <==> IsPrefix(Lower(q), Lower(s))
    decreases |q|
  {
    var p := q + "%";
    if |q| == 0 {
      assert p == "%";
      LikeAll(s);
      assert Lower(s)[..0] == Lower(q);
    } else {
      assert p[0] == q[0];
      assert p[1..] == q[1..] + "%";
      assert p[0] != '%' && p[0] != '_';
      if |s| > 0 {
        LikePrefix(s[1..], q[1..]);
        LowerCons(s);
        LowerCons(q);
        var ls := Lower(s);
        var lq := Lower(q);
        if |q| <= |s| {
          assert ls[..|q|] == [ls[0]] + Lower(s[1..])[..|q| - 1];
        }
        assert lq == [lq[0]] + Lower(q[1..]);
      }
    }
  }

  /** `s LIKE %r` holds iff r matches some suffix of s. */
  lemma {:induction false} LikeAnywhere(s: string, r: string)
    ensures Like(s, "%" + r) <==> exists i :: 0 <= i <= |s| && Like(s[i..], r)
    decreases |s|
  {
    var p := "%" + r;
    assert p[0] == '%' && p[1..] == r;
    assert s[0..] == s;
    if |s| > 0 {
      LikeAnywhere(s[1..], r);
      if Like(s, p) && !Like(s, r) {
        var j :| 0 <= j <= |s| - 1 && Like(s[1..][j..], r);
        assert s[1..][j..] == s[j + 1..];
      }
      if exists i :: 0 <= i <= |s| && Like(s[i..], r) {
        var i :| 0 <= i <= |s| && Like(s[i..], r);
        if i > 0 {
          assert s[1..][i - 1..] == s[i..];
        }
      }
    }
  }

  /** For a query without `%` or `_`, `s LIKE '%q%'` is exactly "q occurs in
      s, ignoring ASCII case". */
  lemma ContainsPatternIsSubstring(s: string, q: string)
    requires NoWildcard(q)
    ensures Like(s, ContainsPattern(q)) <==> Includes(Lower(s), Lower(q))
  {
    var r := q + "%";
    assert ContainsPattern(q) == "%" + r;
    LikeAnywhere(s, r);
    forall i | 0 <= i <= |s|
      ensures Like(s[i..], r) <==> OccursAt(Lower(s), Lower(q), i)
    {
      LikePrefix(s[i..], q);
      LowerSlice(s, i, |s|);
      if |q| <= |s| - i {
        assert Lower(s)[i..][..|q|] == Lower(s)[i..i + |q|];
      }
    }
    if Includes(Lower(s), Lower(q)) {
      var i :| 0 <= i <= |Lower(s)| - |Lower(q)| && OccursAt(Lower(s), Lower(q), i);
      assert Like(s[i..], r);
    }
  }

  /** Wildcards are live: `_` in the query matches any one character, so
      `'%a_c%'` matches "abc" although "a_c" does not occur in it. */
  lemma UnderscoreMatchesAnyChar()
    ensures Like("abc", ContainsPattern("a_c"))
    ensures !Includes(Lower("abc"), Lower("a_c"))
  {
    var p := ContainsPattern("a_c");
    assert p == "%a_c%";
    assert p[1..] == "a_c%";
    assert "a_c%"[1..] == "_c%";
    assert "_c%"[1..] == "c%";
    assert "c%"[1..] == "%";
    LikeAll("");
    assert Like("", "%");
    assert "abc"[1..] == "bc" && "bc"[1..] == "c" && "c"[1..] == "";
    assert Like("c", "c%");
    assert Like("bc", "_c%");
    assert Like("abc", "a_c%");
    assert Like("abc", p);
    assert Lower("abc") == "abc";
    assert Lower("a_c") == "a_c";
    forall i | 0 <= i <= 0 ensures !OccursAt("abc", "a_c", i) {
      assert "abc"[0..3] == "abc";
    }
  }
}

=== FILE: text.dfy ===
/** The JavaScript string operations the app relies on: `toLowerCase`,
    `includes`, `trim`, `split` on one character, and `startsWith`.
    Strings are `seq<char>`; lowering folds ASCII letters only. */
module Text {

  /** JavaScript's `toLowerCase` restricted to ASCII: 'A'..'Z' become
      'a'..'z', everything else is left alone. SQLite's LIKE folds the
      same set of letters. */
  function LowerChar(c: char): (r: char)
    ensures 'A' <= c <= 'Z' ==> r as int == c as int + 32
    ensures !('A' <= c <= 'Z') ==> r == c
  {
    if 'A' <= c <= 'Z' then (c as int + 32) as char else c
  }

  function Lower(s: string): (r: string)
    ensures |r| == |s|
    ensures forall i :: 0 <= i < |s| ==> r[i] == LowerChar(s[i])
  {
    seq(|s|, i requires 0 <= i < |s| => LowerChar(s[i]))
  }

  /** Lowering twice is lowering once. */
  lemma LowerIdempotent(s: string)
    ensures Lower(Lower(s)) == Lower(s)
  {
    assert forall i :: 0 <= i < |s| ==> LowerChar(LowerChar(s[i])) == LowerChar(s[i]);
  }

  predicate IsPrefix(p: string, s: string) {
    |p| <= |s| && s[..|p|] == p
  }

  /** q occurs in s starting at offset i. */
  predicate OccursAt(s: string, q: string, i: int) {
    0 <= i && i + |q| <= |s| && s[i..i + |q|] == q
  }

  /** `s.includes(q)`: q occurs in s at some offset. */
  predicate Includes(s: string, q: string) {
    exists i :: 0 <= i <= |s| - |q| && OccursAt(s, q, i)
  }

  /** `message.toLowerCase().includes(word)`, for a lower-case keyword. */
  predicate Mentions(message: string, word: string) {
    Includes(Lower(message), word)
  }

  lemma IncludesEmpty(s: string)
    ensures Includes(s, "")
  {
    assert OccursAt(s, "", 0);
  }

  lemma IncludesPrefix(s: string, q: string)
    requires IsPrefix(q, s)
    ensures Includes(s, q)
  {
    assert OccursAt(s, q, 0);
  }

  /** The characters JavaScript's `trim` removes: WhiteSpace and
      LineTerminator of ECMA-262 (tab, VT, FF, space, NBSP, BOM, the Zs
      separators, LF, CR, LS, PS). */
  predicate IsSpace(c: char) {
    || c == '\t' || c == '\U{000B}' || c == '\U{000C}' || c == ' '
    || c == '\U{00A0}' || c == '\U{FEFF}' || c == '\U{1680}'
    || ('\U{2000}' <= c <= '\U{200A}') || c == '\U{202F}' || c == '\U{205F}' || c == '\U{3000}'
    || c == '\n' || c == '\r' || c == '\U{2028}' || c == '\U{2029}'
  }

  predicate AllSpace(s: string) {
    forall i :: 0 <= i < |s| ==> IsSpace(s[i])
  }

  /** Number of leading whitespace characters. */
  function LeadingSpace(s: string): (n: nat)
    ensures n <= |s|
    ensures AllSpace(s[..n])
    ensures n < |s| ==> !IsSpace(s[n])
  {
    if |s| == 0 || !IsSpace(s[0]) then 0
    else
      var m := LeadingSpace(s[1..]);
      assert s[1..][..m] == s[1..m + 1];
      m + 1
  }

  /** Number of trailing whitespace characters. */
  function TrailingSpace(s: string): (n: nat)
    ensures n <= |s|
    ensures AllSpace(s[|s| - n..])
    ensures n < |s| ==> !IsSpace(s[|s| - n - 1])
  {
    if |s| == 0 || !IsSpace(s[|s| - 1]) then 0
    else
      var m := TrailingSpace(s[..|s| - 1]);
      m + 1
  }

  /** `s.trim()`: the slice of s between its leading and trailing
      whitespace. */
  function Trim(s: string): (r: string)
    ensures exists a, b :: 0 <= a <= b <= |s| && r == s[a..b] && AllSpace(s[..a]) && AllSpace(s[b..])
    ensures r != [] ==> !IsSpace(r[0]) && !IsSpace(r[|r| - 1])
    ensures r == [] <==> AllSpace(s)
  {
    var a := LeadingSpace(s);
    var t := s[a..];
    var b := TrailingSpace(t);
    var r := t[..|t| - b];
    assert r == s[a..|s| - b];
    assert s[|s| - b..] == t[|t| - b..];
    if r == [] then
      assert t[|t| - b..] == t;
      assert a == |s|;
      assert s[..a] == s;
      r
    else
      assert !IsSpace(s[a]);
      r
  }

  /** Trimming a string without surrounding whitespace changes nothing. */
  lemma TrimIdempotent(s: string)
    ensures Trim(Trim(s)) == Trim(s)
  {
    var r := Trim(s);
    if r != [] {
      assert LeadingSpace(r) == 0;
      assert TrailingSpace(r) == 0;
      assert r[0..] == r;
      assert r[..|r| - 0] == r;
    }
  }

  /** Occurrences of `d` in `s`. */
  function Count(s: string, d: char): nat {
    if |s| == 0 then 0
    else (if s[0] == d then 1 else 0) + Count(s[1..], d)
  }

  lemma CountAbsent(s: string, d: char)
    requires d !in s
    ensures Count(s, d) == 0
  {
    if |s| > 0 {
      assert s == [s[0]] + s[1..];
      CountAbsent(s[1..], d);
    }
  }

  lemma CountAppend(a: string, b: string, d: char)
    ensures Count(a + b, d) == Count(a, d) + Count(b, d)
  {
    if |a| > 0 {
      assert (a + b)[1..] == a[1..] + b;
      CountAppend(a[1..], b, d);
    } else {
      assert a + b == b;
    }
  }

  /** `s.split(d)` for a one-character separator: the maximal d-free runs,
      one more of them than there are separators. */
  function Split(s: string, d: char): (parts: seq<string>)
    ensures |parts| == Count(s, d) + 1
    ensures forall i :: 0 <= i < |parts| ==> d !in parts[i]
    decreases |s|
  {
    if |s| == 0 then [""]
    else
      var rest := Split(s[1..], d);
      if s[0] == d then [""] + rest
      else
        var head := [s[0]] + rest[0];
        [head] + rest[1..]
  }

  /** `parts.join(d)`: the inverse of `Split`. */
  function Join(parts: seq<string>, d: char): string
    requires |parts| > 0
  {
    if |parts| == 1 then parts[0] else parts[0] + [d] + Join(parts[1..], d)
  }

  /** Splitting and re-joining gives back the string. */
  lemma {:induction false} JoinSplit(s: string, d: char)
    ensures Join(Split(s, d), d) == s
    decreases |s|
  {
    if |s| > 0 {
      var rest := Split(s[1..], d);
      JoinSplit(s[1..], d);
      if s[0] == d {
        assert Split(s, d) == [""] + rest;
        assert ([""] + rest)[1..] == rest;
        assert s == [d] + s[1..];
      } else {
        var parts := Split(s, d);
        assert parts[0] == [s[0]] + rest[0];
        if |rest| == 1 {
          assert parts == [[s[0]] + rest[0]];
        } else {
          assert parts[1..] == rest[1..];
          assert Join(rest, d) == rest[0] + [d] + Join(rest[1..], d);
        }
      }
    }
  }

  /** Joining separator-free parts and splitting again gives back the
      parts. */
  lemma {:induction false} SplitJoin(parts: seq<string>, d: char)
    requires |parts| > 0
    requires forall i :: 0 <= i < |parts| ==> d !in parts[i]
    ensures Split(Join(parts, d), d) == parts
    decreases |parts|, |parts[0]|
  {
    if |parts[0]| > 0 {
      var p0 := parts[0];
      var tail := [p0[1..]] + parts[1..];
      assert p0 == [p0[0]] + p0[1..];
      assert forall i :: 0 <= i < |tail| ==> d !in tail[i] by {
        forall i | 0 <= i < |tail| ensures d !in tail[i] {
          if i > 0 { assert tail[i] == parts[i]; }
        }
      }
      assert tail[1..] == parts[1..];
      SplitJoin(tail, d);
      var s := Join(parts, d);
      assert |parts| > 1 ==> Join(tail, d) == p0[1..] + [d] + Join(parts[1..], d);
      assert s == [p0[0]] + Join(tail, d);
      assert s[1..] == Join(tail, d);
      assert s[0] == p0[0] && p0[0] != d;
      assert [p0[0]] + p0[1..] == p0;
    } else if |parts| > 1 {
      var s := Join(parts, d);
      assert s == [d] + Join(parts[1..], d);
      assert s[1..] == Join(parts[1..], d);
      SplitJoin(parts[1..], d);
      assert [""] + parts[1..] == parts;
    }
  }
}

=== FILE: types.dfy ===
/** The shared records of the app (src/types/index.ts). Dates are integer
    milliseconds since the epoch; a TypeScript optional field is an
    `Option`. */
module Types {
  import opened Wrappers

  /** A `Date`, as milliseconds since the epoch. */
  type Millis = int

  /** The twelve emotion names a journal entry can record. */
  datatype EmotionType =
    | Calm | Anxious | Frustrated | Sad | Overwhelmed | Confident
    | Uncertain | Satisfied | Concerned | Hopeful | Exhausted | Engaged

  const ALL_EMOTIONS: seq<EmotionType> :=
    [Calm, Anxious, Frustrated, Sad, Overwhelmed, Confident,
     Uncertain, Satisfied, Concerned, Hopeful, Exhausted, Engaged]

  /** The string a serialized entry carries for each emotion. */
  function EmotionName(e: EmotionType): string {
    match e
    case Calm => "calm"
    case Anxious => "anxious"
    case Frustrated => "frustrated"
    case Sad => "sad"
    case Overwhelmed => "overwhelmed"
    case Confident => "confident"
    case Uncertain => "uncertain"
    case Satisfied => "satisfied"
    case Concerned => "concerned"
    case Hopeful => "hopeful"
    case Exhausted => "exhausted"
    case Engaged => "engaged"
  }

  /** Reads an emotion name back; anything that is not one of the twelve
      names is rejected. */
  function ParseEmotion(s: string): (r: Option<EmotionType>)
    ensures r.Some? ==> EmotionName(r.value) == s
    ensures r.None? ==> forall e :: EmotionName(e) != s
  {
    if s == "calm" then Some(Calm)
    else if s == "anxious" then Some(Anxious)
    else if s == "frustrated" then Some(Frustrated)
    else if s == "sad" then Some(Sad)
    else if s == "overwhelmed" then Some(Overwhelmed)
    else if s == "confident" then Some(Confident)
    else if s == "uncertain" then Some(Uncertain)
    else if s == "satisfied" then Some(Satisfied)
    else if s == "concerned" then Some(Concerned)
    else if s == "hopeful" then Some(Hopeful)
    else if s == "exhausted" then Some(Exhausted)
    else if s == "engaged" then Some(Engaged)
    else None
  }

  lemma ParseEmotionName(e: EmotionType)
    ensures ParseEmotion(EmotionName(e)) == Some(e)
  {
  }

  /** The emotion type has exactly twelve variants, each with its own name,
      and every name reads back as its emotion. */
  lemma EmotionNamesRoundTrip()
    ensures |ALL_EMOTIONS| == 12
    ensures forall e :: e in ALL_EMOTIONS
    ensures forall i, j :: 0 <= i < j < 12 ==> EmotionName(ALL_EMOTIONS[i]) != EmotionName(ALL_EMOTIONS[j])
    ensures forall e :: ParseEmotion(EmotionName(e)) == Some(e)
  {
    forall e ensures e in ALL_EMOTIONS {
      var i := match e
        case Calm => 0 case Anxious => 1 case Frustrated => 2 case Sad => 3
        case Overwhelmed => 4 case Confident => 5 case Uncertain => 6 case Satisfied => 7
        case Concerned => 8 case Hopeful => 9 case Exhausted => 10 case Engaged => 11;
      assert ALL_EMOTIONS[i] == e;
    }
    forall e ensures ParseEmotion(EmotionName(e)) == Some(e) {
      ParseEmotionName(e);
    }
    forall i, j | 0 <= i < j < 12 ensures EmotionName(ALL_EMOTIONS[i]) != EmotionName(ALL_EMOTIONS[j]) {
      ParseEmotionName(ALL_EMOTIONS[i]);
      ParseEmotionName(ALL_EMOTIONS[j]);
    }
  }

  /** Intensity is one of 1..5 (1 = low, 5 = high). */
  type Intensity = i: int | 1 <= i <= 5 witness 1

  datatype EmotionalState = EmotionalState(
    primary: EmotionType,
    intensity: Intensity,
    secondary: Option<seq<EmotionType>>,
    notes: Option<string>)

  /** A journal entry. `clientIdentifier` and `sessionNotes` hold plaintext
      in memory and ciphertext in the store. */
  datatype JournalEntry = JournalEntry(
    id: string,
    clientIdentifier: string,
    sessionDate: Millis,
    sessionNotes: string,
    emotionalState: EmotionalState,
    tags: seq<string>,
    createdAt: Millis,
    updatedAt: Millis,
    aiConversationId: Option<string>)

  /** The part of an entry a caller supplies when creating one (the entry
      minus `id`, `createdAt` and `updatedAt`). */
  datatype EntryDraft = EntryDraft(
    clientIdentifier: string,
    sessionDate: Millis,
    sessionNotes: string,
    emotionalState: EmotionalState,
    tags: seq<string>,
    aiConversationId: Option<string>)

  /** Who wrote a message: exactly one of three roles. */
  datatype Role = UserRole | AssistantRole | SystemRole

  function RoleName(r: Role): string {
    match r
    case UserRole => "user"
    case AssistantRole => "assistant"
    case SystemRole => "system"
  }

  function ParseRole(s: string): (r: Option<Role>)
    ensures r.Some? ==> RoleName(r.value) == s
    ensures r.None? ==> forall x :: RoleName(x) != s
  {
    if s == "user" then Some(UserRole)
    else if s == "assistant" then Some(AssistantRole)
    else if s == "system" then Some(SystemRole)
    else None
  }

  datatype MessageMetadata = MessageMetadata(
    tokens: Option<int>,
    processingTime: Option<int>,
    emotionalTone: Option<EmotionType>,
    suggestedActions: Option<seq<string>>)

  datatype Message = Message(
    id: string,
    role: Role,
    content: string,
    timestamp: Millis,
    metadata: Option<MessageMetadata>)

  /** A conversation belongs to exactly one entry, named by `entryId`. */
  datatype Conversation = Conversation(
    id: string,
    entryId: string,
    messages: seq<Message>,
    createdAt: Millis,
    updatedAt: Millis,
    summary: Option<string>,
    insights: Option<seq<string>>)

  /** The authentication flags; `failedAttempts` counts consecutive failed
      logins. */
  datatype AuthState = AuthState(
    isAuthenticated: bool,
    isLocked: bool,
    failedAttempts: nat,
    lastAuthTime: Option<Millis>)

  datatype ThemeMode = Light | Dark | Auto
  datatype FontSize = Small | Medium | Large

  datatype UserSettings = UserSettings(
    biometricsEnabled: bool,
    sessionTimeout: int,
    themeMode: ThemeMode,
    fontSize: FontSize,
    autoBackup: bool,
    reminderEnabled: bool,
    reminderTime: Option<string>)

  datatype User = User(id: string, createdAt: Millis, lastLogin: Millis, settings: UserSettings)

  datatype ReflectionCategory =
    | Countertransference | Boundaries | Ethical | Clinical | SelfCare
    | ProfessionalDevelopment | SupervisionPrep

  datatype TherapeuticFramework = Psychodynamic | Cbt | PersonCentered | Systemic | Integrative

  datatype ReflectionPrompt = ReflectionPrompt(
    id: string,
    category: ReflectionCategory,
    prompt: string,
    followUps: seq<string>,
    framework: Option<TherapeuticFramework>)

  /** JavaScript truthiness of an optional string: present and non-empty. */
  predicate Truthy(s: Option<string>) {
    s.Some? && s.value != ""
  }
}

=== FILE: webdemo.dfy ===
/** The browser demo (easy-deploy/app.js): a four-digit PIN gate, a
    journal kept in local storage, a keyword chat, and the view switcher.
    The page itself and `location.reload()` are modelled by their effect
    on the stored items and on what the next load shows. */
module WebDemo {
  import opened Wrappers
  import opened Text
  import Seqs

  /** The only PIN the demo accepts. */
  const DEMO_PIN: string := "1234"

  /** The mood recorded when none was picked (U+1F610, neutral face). */
  const NEUTRAL_MOOD: string := "\U{1F610}"

  /** An entry as stored: `id` is `Date.now()`, `date` an ISO string. */
  datatype WebEntry = WebEntry(id: int, title: string, content: string, mood: string, date: string)

  /** The two local-storage items. A missing `journalEntries` reads as the
      empty list, so it is kept as one. */
  datatype Storage = Storage(isLoggedIn: Option<string>, journalEntries: seq<WebEntry>)

  /** `window.onload`: the journal is shown iff the stored flag is the
      string 'true'. */
  predicate ShowsMainOnLoad(st: Storage) {
    st.isLoggedIn == Some("true")
  }

  // ---------------------------------------------------------------------
  // PIN gate
  // ---------------------------------------------------------------------

  /** What one `input` event on the PIN field does. */
  datatype PinResult = PinResult(storage: Storage, showMain: bool, field: string, dots: seq<bool>, wrongPinAlert: bool)

  function PinInput(st: Storage, pin: string): (r: PinResult)
    ensures |r.dots| == 4
    // below and above four digits only the dots follow the input
    ensures |pin| != 4 ==>
              r.storage == st && !r.showMain && !r.wrongPinAlert && r.field == pin &&
              forall k :: 0 <= k < 4 ==> (r.dots[k] <==> k < |pin|)
    ensures |pin| == 4 && pin == DEMO_PIN ==>
              r.storage == st.(isLoggedIn := Some("true")) && r.showMain && !r.wrongPinAlert
    ensures |pin| == 4 && pin != DEMO_PIN ==>
              r.storage == st && !r.showMain && r.wrongPinAlert && r.field == "" &&
              forall k :: 0 <= k < 4 ==> !r.dots[k]
  {
    var dots := seq(4, k => k + 1 <= |pin|);
    if |pin| == 4 then
      if pin == DEMO_PIN then PinResult(st.(isLoggedIn := Some("true")), true, pin, dots, false)
      else PinResult(st, false, "", seq(4, k => false), true)
    else PinResult(st, false, pin, dots, false)
  }

  /** The gate opens for exactly one input, and the opening is remembered
      across reloads. */
  lemma OnlyDemoPinOpens(st: Storage, pin: string)
    ensures PinInput(st, pin).showMain <==> pin == DEMO_PIN
    ensures PinInput(st, pin).showMain ==> ShowsMainOnLoad(PinInput(st, pin).storage)
    ensures !PinInput(st, pin).showMain ==> PinInput(st, pin).storage == st
  {
  }

  /** `logout`: the flag goes, the journal stays; the reload shows the PIN
      gate. */
  function Logout(st: Storage): (r: Storage)
    ensures !ShowsMainOnLoad(r) && r.journalEntries == st.journalEntries
  {
    st.(isLoggedIn := None)
  }

  /** `clearData` after the confirmation dialog: both items go. */
  function ClearData(st: Storage, confirmed: bool): (r: Storage)
    ensures confirmed ==> r == Storage(None, []) && !ShowsMainOnLoad(r)
    ensures !confirmed ==> r == st
  {
    if confirmed then Storage(None, []) else st
  }

  // ---------------------------------------------------------------------
  // Journal
  // ---------------------------------------------------------------------

  /** The new-entry modal: its two fields, the mood variable, and whether a
      mood button is highlighted. */
  datatype Form = Form(title: string, content: string, selectedMood: string, highlighted: bool)

  /** A click on a mood button. */
  function SelectMood(f: Form, mood: string): (r: Form)
    ensures r.selectedMood == mood && r.highlighted
    ensures r.title == f.title && r.content == f.content
  {
    f.(selectedMood := mood, highlighted := true)
  }

  /** `closeNewEntry`: the fields and the highlight are cleared; the mood
      variable is not. */
  function CloseNewEntry(f: Form): (r: Form)
    ensures r.title == "" && r.content == "" && !r.highlighted
    ensures r.selectedMood == f.selectedMood
  {
    f.(title := "", content := "", highlighted := false)
  }

  /** The outcome of `saveEntry`. */
  datatype Saved = Saved(storage: Storage, form: Form, alert: bool)

  /** `saveEntry` at time `now` (also the ISO string `iso`): both fields
      must be non-empty; the new entry goes first. */
  function SaveEntry(st: Storage, f: Form, now: int, iso: string): (r: Saved)
    ensures r.alert <==> f.title == "" || f.content == ""
    ensures r.alert ==> r.storage == st && r.form == f
    ensures !r.alert ==>
              r.storage.isLoggedIn == st.isLoggedIn &&
              |r.storage.journalEntries| == |st.journalEntries| + 1 &&
              r.storage.journalEntries[1..] == st.journalEntries &&
              r.storage.journalEntries[0] ==
                WebEntry(now, f.title, f.content, if f.selectedMood == "" then NEUTRAL_MOOD else f.selectedMood, iso) &&
              r.form == CloseNewEntry(f)
  {
    if f.title == "" || f.content == "" then Saved(st, f, true)
    else
      var mood := if f.selectedMood == "" then NEUTRAL_MOOD else f.selectedMood;
      Saved(st.(journalEntries := [WebEntry(now, f.title, f.content, mood, iso)] + st.journalEntries),
            CloseNewEntry(f), false)
  }

  /** The mood survives the reset: after saving an entry with a picked
      mood, the next entry saved without touching the buttons records the
      same mood, although no button shows as selected. */
  lemma MoodCarriesOver(st: Storage, f: Form, mood: string, t1: string, c1: string, t2: string, c2: string,
                        now1: int, now2: int, iso1: string, iso2: string)
    requires mood != "" && t1 != "" && c1 != "" && t2 != "" && c2 != ""
    ensures var first := SaveEntry(st, SelectMood(f, mood).(title := t1, content := c1), now1, iso1);
            var next := first.form.(title := t2, content := c2);
            !next.highlighted &&
            SaveEntry(first.storage, next, now2, iso2).storage.journalEntries[0].mood == mood
  {
  }

  /** The search box: an entry is listed when its title or content
      contains the lowercased term, in the stored order. */
  predicate Hit(e: WebEntry, term: string) {
    Includes(Lower(e.title), Lower(term)) || Includes(Lower(e.content), Lower(term))
  }

  function Search(entries: seq<WebEntry>, term: string): (r: seq<WebEntry>)
    ensures forall e :: e in r <==> e in entries && Hit(e, term)
    ensures forall e :: multiset(r)[e] == if Hit(e, term) then multiset(entries)[e] else 0
    ensures Seqs.IsSubseq(r, entries)
  {
    Seqs.Filter(entries, (e: WebEntry) => Hit(e, term))
  }

  /** An empty search lists every entry. */
  lemma EmptySearchListsAll(entries: seq<WebEntry>)
    ensures Search(entries, "") == entries
  {
    forall e | e in entries
      ensures Hit(e, "")
    {
      IncludesEmpty(Lower(e.title));
    }
    Seqs.FilterKeepsAll(entries, (e: WebEntry) => Hit(e, ""));
  }

  /** `viewEntry(id)`: the first stored entry with that id. */
  function ViewEntry(entries: seq<WebEntry>, id: int): (r: Option<WebEntry>)
    ensures r.Some? ==> r.value in entries && r.value.id == id
    ensures r.None? <==> forall e :: e in entries ==> e.id != id
    // the first entry with that id
    ensures r.Some? ==> exists i :: 0 <= i < |entries| && entries[i] == r.value &&
                                    forall j :: 0 <= j < i ==> entries[j].id != id
  {
    if |entries| == 0 then None
    else if entries[0].id == id then Some(entries[0])
    else
      var r := ViewEntry(entries[1..], id);
      if r.Some? then FirstPastHead(entries, id, r.value); r else r
  }

  /** A first occurrence in the tail is a first occurrence in the list when
      the head does not match. */
  lemma FirstPastHead(entries: seq<WebEntry>, id: int, v: WebEntry)
    requires |entries| > 0 && entries[0].id != id
    requires exists i :: 0 <= i < |entries[1..]| && entries[1..][i] == v &&
                         forall j :: 0 <= j < i ==> entries[1..][j].id != id
    ensures exists i :: 0 <= i < |entries| && entries[i] == v &&
                        forall j :: 0 <= j < i ==> entries[j].id != id
  {
    var i :| 0 <= i < |entries[1..]| && entries[1..][i] == v &&
             forall j :: 0 <= j < i ==> entries[1..][j].id != id;
    assert entries[i + 1] == v;
    forall j | 0 <= j < i + 1
      ensures entries[j].id != id
    {
      if j > 0 { assert entries[j] == entries[1..][j - 1]; }
    }
  }

  /** A just-saved entry is the one its id opens, even when an older entry
      carries the same millisecond id. */
  lemma ViewSaved(st: Storage, f: Form, now: int, iso: string)
    requires f.title != "" && f.content != ""
    ensures var r := SaveEntry(st, f, now, iso);
            ViewEntry(r.storage.journalEntries, now) == Some(r.storage.journalEntries[0])
  {
  }

  // ---------------------------------------------------------------------
  // Chat
  // ---------------------------------------------------------------------

  /** The canned replies; `Musing` stands for the random pick among five
      open questions. */
  datatype WebReply = Greeting | Down | Anger | Joy | Anxiety | Guidance | Musing

  predicate SaysHello(m: string) { Mentions(m, "hello") || Mentions(m, "hi") }
  predicate SaysSad(m: string) { Mentions(m, "sad") || Mentions(m, "depressed") }
  predicate SaysAngry(m: string) { Mentions(m, "angry") || Mentions(m, "mad") }
  predicate SaysHappy(m: string) { Mentions(m, "happy") || Mentions(m, "good") }
  predicate SaysAnxious(m: string) { Mentions(m, "anxious") || Mentions(m, "worried") }

  /** `getAIResponse`: the first keyword group the lowercased message
      mentions picks the reply. */
  function AiResponse(m: string): (r: WebReply)
    ensures r == Greeting <==> SaysHello(m)
    ensures r == Down <==> !SaysHello(m) && SaysSad(m)
    ensures r == Anger <==> !SaysHello(m) && !SaysSad(m) && SaysAngry(m)
    ensures r == Joy <==> !SaysHello(m) && !SaysSad(m) && !SaysAngry(m) && SaysHappy(m)
    ensures r == Anxiety <==> !SaysHello(m) && !SaysSad(m) && !SaysAngry(m) && !SaysHappy(m) && SaysAnxious(m)
    ensures r == Guidance <==>
              !SaysHello(m) && !SaysSad(m) && !SaysAngry(m) && !SaysHappy(m) && !SaysAnxious(m) && Mentions(m, "help")
  {
    if SaysHello(m) then Greeting
    else if SaysSad(m) then Down
    else if SaysAngry(m) then Anger
    else if SaysHappy(m) then Joy
    else if SaysAnxious(m) then Anxiety
    else if Mentions(m, "help") then Guidance
    else Musing
  }

  /** The reply ignores case: a message and its lower-cased form draw the
      same reply. */
  lemma AiResponseIgnoresCase(m: string)
    ensures AiResponse(Lower(m)) == AiResponse(m)
  {
    LowerIdempotent(m);
  }

  /** "hi" is matched anywhere, so "I think I'm sad" is greeted rather than
      consoled. */
  lemma HiInsideWords()
    ensures AiResponse("I think I'm sad") == Greeting
  {
    var l := Lower("I think I'm sad");
    assert l[3..5] == "hi";
    assert OccursAt(l, "hi", 3);
  }

  /** A chat line: what the user typed, or the reply it drew. */
  datatype ChatLine = UserLine(text: string) | AiLine(reply: WebReply)

  /** The chat: the lines shown, and the messages whose one-second reply
      timer is still running, oldest first (equal delays fire in the order
      they were set). */
  datatype Chat = Chat(history: seq<ChatLine>, pending: seq<string>)

  /** `sendMessage`: a non-blank message is shown at once and its reply
      is scheduled. */
  function SendMessage(c: Chat, input: string): (r: Chat)
    ensures Trim(input) == "" ==> r == c
    ensures Trim(input) != "" ==>
              r.history == c.history + [UserLine(Trim(input))] && r.pending == c.pending + [Trim(input)]
  {
    var message := Trim(input);
    if message == "" then c
    else Chat(c.history + [UserLine(message)], c.pending + [message])
  }

  /** The oldest reply timer fires: its reply is shown. With no timer
      running, nothing happens. */
  function ReplyDue(c: Chat): (r: Chat)
    ensures c.pending == [] ==> r == c
    ensures c.pending != [] ==>
              r.history == c.history + [AiLine(AiResponse(c.pending[0]))] && r.pending == c.pending[1..]
  {
    if c.pending == [] then c
    else Chat(c.history + [AiLine(AiResponse(c.pending[0]))], c.pending[1..])
  }

  /** The user lines of a history, in order. */
  function UserTexts(h: seq<ChatLine>): (r: seq<string>)
    ensures |r| <= |h|
    decreases |h|
  {
    if |h| == 0 then []
    else UserTexts(h[..|h| - 1]) + (if h[|h| - 1].UserLine? then [h[|h| - 1].text] else [])
  }

  /** The replies of a history, in order. */
  function Replies(h: seq<ChatLine>): (r: seq<WebReply>)
    ensures |r| <= |h|
    decreases |h|
  {
    if |h| == 0 then []
    else Replies(h[..|h| - 1]) + (if h[|h| - 1].AiLine? then [h[|h| - 1].reply] else [])
  }

  /** The chat is consistent when the replies shown answer the first user
      lines one for one, and the running timers belong to exactly the
      user lines not yet answered. */
  predicate Consistent(c: Chat) {
    var u := UserTexts(c.history);
    var a := Replies(c.history);
    |a| <= |u| && c.pending == u[|a|..] &&
    forall k :: 0 <= k < |a| ==> a[k] == AiResponse(u[k])
  }

  lemma AppendUser(h: seq<ChatLine>, m: string)
    ensures UserTexts(h + [UserLine(m)]) == UserTexts(h) + [m]
    ensures Replies(h + [UserLine(m)]) == Replies(h)
  {
    assert (h + [UserLine(m)])[..|h|] == h;
  }

  lemma AppendReply(h: seq<ChatLine>, w: WebReply)
    ensures UserTexts(h + [AiLine(w)]) == UserTexts(h)
    ensures Replies(h + [AiLine(w)]) == Replies(h) + [w]
  {
    assert (h + [AiLine(w)])[..|h|] == h;
  }

  /** The empty chat is consistent, and sending and replying keep it so:
      every message is answered, in the order sent, by the reply it
      draws. */
  lemma StepsKeepConsistent(c: Chat, input: string)
    requires Consistent(c)
    ensures Consistent(Chat([], []))
    ensures Consistent(SendMessage(c, input))
    ensures Consistent(ReplyDue(c))
  {
    SendKeepsConsistent(c, input);
    ReplyKeepsConsistent(c);
  }

  lemma {:induction false} SendKeepsConsistent(c: Chat, input: string)
    requires Consistent(c)
    ensures Consistent(SendMessage(c, input))
  {
    var m := Trim(input);
    if m != "" {
      var u := UserTexts(c.history);
      var a := Replies(c.history);
      AppendUser(c.history, m);
      var u' := u + [m];
      assert u'[|a|..] == u[|a|..] + [m];
      forall k | 0 <= k < |a|
        ensures a[k] == AiResponse(u'[k])
      {
        assert u'[k] == u[k];
      }
    }
  }

  lemma {:induction false} ReplyKeepsConsistent(c: Chat)
    requires Consistent(c)
    ensures Consistent(ReplyDue(c))
  {
    if c.pending != [] {
      var u := UserTexts(c.history);
      var a := Replies(c.history);
      var w := AiResponse(c.pending[0]);
      AppendReply(c.history, w);
      assert c.pending[0] == u[|a|];
      assert u[|a| + 1..] == c.pending[1..];
      var a' := a + [w];
      forall k | 0 <= k < |a'|
        ensures a'[k] == AiResponse(u[k])
      {
        if k < |a| { assert a'[k] == a[k]; }
      }
    }
  }

  /** The `p`-th exchange: a user line and the reply it drew. */
  ghost predicate Turn(h: seq<ChatLine>, p: nat)
    requires 2 * p + 1 < |h|
  {
    h[2 * p].UserLine? && h[2 * p + 1] == AiLine(AiResponse(h[2 * p].text))
  }

  /** Every user line is directly followed by its reply: the history is
      a sequence of exchanges. */
  ghost predicate Alternates(h: seq<ChatLine>) {
    |h| % 2 == 0 && forall p: nat :: 2 * p + 1 < |h| ==> Turn(h, p)
  }

  /** A message whose reply arrives before the next one is sent extends
      an alternating chat by one exchange. */
  lemma ExchangeKeepsAlternation(history: seq<ChatLine>, input: string)
    requires Alternates(history)
    ensures var c := ReplyDue(SendMessage(Chat(history, []), input));
            Alternates(c.history) && c.pending == []
  {
    var h := ReplyDue(SendMessage(Chat(history, []), input)).history;
    if h != history {
      forall p: nat | 2 * p + 1 < |h|
        ensures Turn(h, p)
      {
        if 2 * p + 1 < |history| {
          assert Turn(history, p);
          assert h[2 * p] == history[2 * p] && h[2 * p + 1] == history[2 * p + 1];
        } else {
          assert 2 * p == |history|;
        }
      }
    }
  }

  lemma RepliesAfterBothLines(a: string, b: string, ra: WebReply, rb: WebReply)
    ensures !Alternates([UserLine(a), UserLine(b), AiLine(ra), AiLine(rb)])
  {
    assert !Turn([UserLine(a), UserLine(b), AiLine(ra), AiLine(rb)], 0);
  }

  /** Two messages sent within a second show both user lines before
      either reply, so the chat stops alternating. */
  lemma QuickSendsInterleave(a: string, b: string)
    requires Trim(a) != "" && Trim(b) != ""
    ensures var c := ReplyDue(ReplyDue(SendMessage(SendMessage(Chat([], []), a), b)));
            c.history == [UserLine(Trim(a)), UserLine(Trim(b)), AiLine(AiResponse(Trim(a))), AiLine(AiResponse(Trim(b)))] &&
            c.pending == [] && !Alternates(c.history)
  {
    var ta, tb := Trim(a), Trim(b);
    var c2 := SendMessage(SendMessage(Chat([], []), a), b);
    assert c2 == Chat([UserLine(ta), UserLine(tb)], [ta, tb]);
    var c4 := ReplyDue(ReplyDue(c2));
    assert c4.pending == [];
    assert c4.history == [UserLine(ta), UserLine(tb), AiLine(AiResponse(ta)), AiLine(AiResponse(tb))];
    RepliesAfterBothLines(ta, tb, AiResponse(ta), AiResponse(tb));
  }

  // ---------------------------------------------------------------------
  // Views
  // ---------------------------------------------------------------------

  datatype Tab = JournalTab | ChatTab | SettingsTab

  /** `showView(name)`: the tab made active and the header title; an
      unknown name leaves every view hidden and the title as it was. */
  function ShowView(name: string): (r: Option<(Tab, string)>)
    ensures r.Some? <==> name in {"journal", "chat", "settings"}
    ensures name == "journal" ==> r == Some((JournalTab, "My Journal"))
    ensures name == "chat" ==> r == Some((ChatTab, "AI Chat"))
    ensures name == "settings" ==> r == Some((SettingsTab, "Settings"))
  {
    if name == "journal" then Some((JournalTab, "My Journal"))
    else if name == "chat" then Some((ChatTab, "AI Chat"))
    else if name == "settings" then Some((SettingsTab, "Settings"))
    else None
  }
}

=== FILE: wrappers.dfy ===
/** Failure-carrying wrappers shared by every module of the model: `Option`
    stands for TypeScript's `T | null | undefined`, `Result` for a value or a
    thrown error. */
module Wrappers {

  datatype Option<+T> = None | Some(value: T) {

    /** The value, or `default` when absent (the `x || default` idiom). */
    function GetOr(default: T): T {
      match this
      case Some(v) => v
      case None => default
    }
  }

  datatype Result<+R, +E> = Success(value: R) | Failure(error: E) {

    predicate IsFailure() {
      Failure?
    }

    function PropagateFailure<U>(): Result<U, E>
      requires Failure?
    {
      Failure(error)
    }

    function Extract(): R
      requires Success?
    {
      value
    }
  }
}
